=== FILE: README.md ===
# ApexContractor business rules in Dafny

This project models the business rules of the ApexContractor contractor-management app. They sit in its tRPC routers and two client helpers. The project proves properties of them.

- **Recurring-invoice generator.** It selects the caller's active, due templates, bills each once and moves its next invoice date on by one period. The date arithmetic is that of JavaScript `Date` (`setDate`, `setMonth`, `setFullYear`), after MakeDay in section 21.4.1 of ECMA-262.
- **GPS time clock.** Clock in and clock out, the labour-cost arithmetic, approval and the summary.
- **Inventory ledger and reorder page.** Create, transfer, status changes and deletion of items. The summary tallies, the page's reorder classification and its category filter.
- **Carbon accounting.** Emission records, the project summary, the compliance score and the recommendation rules.
- **Client portal.** Access links with expiry, the token-based read, revocation, access levels and the invoice lookup.
- **AI receptionist leads and financial-integration logs.** Statistics, history and disconnection.
- **Form validation.** The amount and phone grammars of the zod schemas, the per-field rules, `validateAmount` with a model of `parseFloat`, `calculateTotal`, `isValidDateRange` and `isInvoiceOverdue`.

Conventions:
- Every database table is an immutable sequence of rows.
- The caller (`ctx.user?.id`), the clock `now`, new row ids, access tokens and invoice-number clock readings are parameters.
- An operation returns `Result`: `Ok` with the new tables or the response, or `Err` with the message the router throws. A request the router's input schema refuses gets the single message `Invalid input`.
- Time values are integers of milliseconds in UTC. Money is integer cents in the GPS and inventory routers and exact rationals elsewhere. `toFixed(n)` is an integer in units of 10^-n.

Files:
- `wrappers.dfy`, `tables.dfy`: Option and Result, plus generic table operations (filter, count, update-where, delete-where, first match).
- `rounding.dfy`: `Math.round` and `toFixed`.
- `decimal.dfy`: decimal spelling of integers.
- `calendar.dfy`: the ECMA-262 day and date arithmetic.
- `schema.dfy`: the shared enums and rows of `drizzle/schema.ts`.
- One file per router or client module.

A monthly template moves forward with `setMonth(getMonth() + 1)`, which rolls January 31 over to March 3, or to March 2 in a leap year, rather than stopping at the last day of February. The model follows the code: see `Calendar.JanuaryThirtyFirstPlusOneMonth` and `RecurringInvoices.MonthlyFromJanuaryThirtyFirst`.

## Model

| member | source | states |
|---|---|---|
| Schema.RequireUser | server/routers/gpsTimeTracking.ts:30 | A request passes the login check exactly when it carries a non-zero user id, and that id is the caller; otherwise "Unauthorized" |
| Calendar.DayFromYearFollowsStandard | server/routers/recurringInvoices.ts:176-193 | Counting year lengths from 1970 gives the closed-form DayFromYear of ECMA-262 that `Date` uses |
| Calendar.CivilFromMakeDay | server/routers/recurringInvoices.ts:176-193 | Decoding the day number of any valid calendar date gives back that date, so `getFullYear`/`getMonth`/`getDate` invert MakeDay |
| Calendar.DateOf | server/routers/recurringInvoices.ts:176-193 | The year, month and date `Date` reports are a valid date whose MakeDay is the time value's day |
| Calendar.AddDays | server/routers/recurringInvoices.ts:178-183 | `setDate(getDate() + n)` moves a UTC time value by exactly n times 86,400,000 ms |
| Calendar.AddMonthsDistance | server/routers/recurringInvoices.ts:184-189 | `setMonth(getMonth() + k)` keeps the time of day and moves the day by between 28k and 31k days |
| Calendar.AddMonthsIsLater | server/routers/recurringInvoices.ts:184-189 | Adding one month or more always gives a strictly later time |
| Calendar.AddYearsIsTwelveMonths | server/routers/recurringInvoices.ts:190-192 | `setFullYear(getFullYear() + k)` lands where adding 12k months lands |
| Calendar.AddMonthsKeepsDate | server/routers/recurringInvoices.ts:184-186 | When the date exists in the target month, adding months keeps the date and sets the year and month of the target |
| Calendar.AddMonthsOverflows | server/routers/recurringInvoices.ts:184-186 | When the date is past the target month's end, the surplus days roll into the next month; there is no clamping to the month end |
| Calendar.JanuaryThirtyFirstPlusOneMonth | server/routers/recurringInvoices.ts:184-186 | January 31 plus one month is March 3 in a common year and March 2 in a leap year |
| RecurringInvoices.Create | server/routers/recurringInvoices.ts:29-41 | The new template is appended for the caller as active, with its first invoice on the start date and missing or empty amounts as "0"; it is due at exactly the times not before its start date |
| RecurringInvoices.Update | server/routers/recurringInvoices.ts:73-108 | An update with no field is refused; otherwise only the caller's row with that id changes, and only in the given fields |
| RecurringInvoices.PatchedKeepsSchedule | server/routers/recurringInvoices.ts:90-95 | An update keeps the id, owner, client, start and end dates, next invoice date, subtotal and tax; a given status or total is set; an empty patch changes nothing |
| RecurringInvoices.UpdateStatusControlsGeneration | server/routers/recurringInvoices.ts:90-101 | Pausing or cancelling takes a template out of every run; reactivating puts it back on its old next date |
| RecurringInvoices.Delete | server/routers/recurringInvoices.ts:113-134 | Deletion removes the caller's row with that id and keeps every other row exactly as often as it was there; with unique ids at most one row goes and the ids stay unique |
| RecurringInvoices.NextDateIsLater | server/routers/recurringInvoices.ts:176-193 | Each frequency moves the next date strictly forward at the same time of day: by 7 or 14 days, by 28-31, 84-93 or 336-372 days |
| RecurringInvoices.MonthlyFromJanuaryThirtyFirst | server/routers/recurringInvoices.ts:184-186 | A monthly template due on January 31 is next due on March 3, or March 2 in a leap year |
| RecurringInvoices.GenerateDueInvoices | server/routers/recurringInvoices.ts:139-208 | A run succeeds exactly when its invoice numbers are all fresh. It then bills every due template once, in table order, reports their number and advances exactly those templates. A failed run keeps a strict prefix of those invoices and advances exactly the templates of that prefix, since each template moves only after its own insert. No run adds, removes or rewrites other templates |
| RecurringInvoices.VisitSelected | server/routers/recurringInvoices.ts:157-200 | The loop over the selected templates computes the one-row-at-a-time reference run, stopping at the first taken invoice number |
| RecurringInvoices.RunResult | server/routers/recurringInvoices.ts:145-203 | The reference run over the selected templates equals billing the due ones, with the count, invoices and rescheduled templates stated row by row. After a failed insert it has billed fewer than all due templates, and the templates advanced are exactly the ones it billed |
| RecurringInvoices.RunTemplates | server/routers/recurringInvoices.ts:157-199 | After any number of turns, a template row is advanced, once, exactly when it is one of the due templates billed so far, since ids are unique |
| RecurringInvoices.InvoiceNumberInjective | server/routers/recurringInvoices.ts:160 | Two clock readings give the same `REC-` number exactly when they are the same millisecond |
| RecurringInvoices.FreshNumbersOnReadings | server/routers/recurringInvoices.ts:158-171 | A run's numbers are fresh exactly when none is in the invoices table already and no two of its clock readings fall in the same millisecond |
| RecurringInvoices.FailureIsFinal | server/routers/recurringInvoices.ts:157-172 | Once an insert has failed, later templates change nothing |
| RecurringInvoices.Bills | server/routers/recurringInvoices.ts:160-171 | A run writes one invoice per due template, numbered from the clock reading of its turn |
| RecurringInvoices.BillsDescribeDueTemplates | server/routers/recurringInvoices.ts:161-171 | Each generated invoice belongs to the caller and copies the client and amounts of its template. It is sent, issued now, due 30 days later and has no project |
| RecurringInvoices.ThirtyDaysLater | server/routers/recurringInvoices.ts:170 | The due date of a generated invoice is the same time of day thirty calendar days later |
| RecurringInvoices.RefreshedAdvancesDueOnly | server/routers/recurringInvoices.ts:153-158 | A run changes only the next invoice date of due templates, moving it strictly forward by one period; paused, cancelled, undated, future and foreign templates are untouched |
| RecurringInvoices.OneInvoicePerRun | server/routers/recurringInvoices.ts:157-199 | There is no catch-up: a template that fell several periods behind stays due after the run exactly when its new date is still not in the future |
| RecurringInvoices.CreatedTemplateFirstRun | server/routers/recurringInvoices.ts:39-40 | A new template is billed by the first run at or after its start date, which moves it to the next period |
| GpsTimeTracking.Latest | server/routers/gpsTimeTracking.ts:35-46 | The entry `ORDER BY clockInTime DESC LIMIT 1` returns: none exactly for no entries, otherwise one with no later clock-in |
| GpsTimeTracking.LatestIsOpen | server/routers/gpsTimeTracking.ts:35-50 | The latest entry found is open exactly when the latest entry is open |
| GpsTimeTracking.ClockIn | server/routers/gpsTimeTracking.ts:19-60 | Clock-in is refused with "Already clocked in" exactly when the caller's latest entry for the member is open, and succeeds exactly when the caller is signed in and that entry is not open. A success appends one open, pending entry clocked in now |
| GpsTimeTracking.ClockInWhenAllClosed | server/routers/gpsTimeTracking.ts:35-57 | With every earlier entry of the member closed, clocking in succeeds |
| GpsTimeTracking.DoubleClockInRefused | server/routers/gpsTimeTracking.ts:48-50 | With a clock that does not run backwards, a second clock-in for the same member is refused |
| GpsTimeTracking.OlderOpenEntryIgnored | server/routers/gpsTimeTracking.ts:35-50 | Only the latest entry is consulted: an older open entry does not block a clock-in |
| GpsTimeTracking.DurationMinutes | server/routers/gpsTimeTracking.ts:90-93 | The duration is the whole number of minutes nearest the elapsed time, halves rounded up |
| GpsTimeTracking.HourlyRate | server/routers/gpsTimeTracking.ts:96-102 | The rate is that of the first member with the id, 0 when it has none or no member has the id |
| GpsTimeTracking.LabourCost | server/routers/gpsTimeTracking.ts:103 | The cost in cents is minutes times rate over 60, rounded to the nearest cent, halves away from zero |
| GpsTimeTracking.LabourCostWholeHours | server/routers/gpsTimeTracking.ts:103 | Whole hours cost exactly hours times rate |
| GpsTimeTracking.LabourCostExample | server/routers/gpsTimeTracking.ts:103 | 510 minutes at $20.00 an hour cost $170.00 |
| GpsTimeTracking.LabourCostMonotone | server/routers/gpsTimeTracking.ts:103 | At a non-negative rate a longer shift never costs less |
| GpsTimeTracking.NotesOr | server/routers/gpsTimeTracking.ts:113 | Non-empty new notes replace the old ones; otherwise the old notes stay |
| GpsTimeTracking.ClockOut | server/routers/gpsTimeTracking.ts:62-118 | Clock-out fails with "Entry not found" exactly when the caller owns no entry with the id, and with "Already clocked out" exactly when that entry is closed. It succeeds exactly when the caller's entry with the id is open; then every row with the id is closed at now and the table keeps its length |
| GpsTimeTracking.ClockOutTouchesOnlyEntry | server/routers/gpsTimeTracking.ts:105-115 | A clock-out rewrites only rows with the requested id, and only their clock-out time, coordinates, duration, cost and notes. Clock-in time, approval and every other row stay |
| GpsTimeTracking.ClockOutSettles | server/routers/gpsTimeTracking.ts:90-115 | The closed entry records now, the rounded duration since its clock-in, and the member's rate times that duration |
| GpsTimeTracking.ClockOutIsFinal | server/routers/gpsTimeTracking.ts:87-88 | Closed is final: a second clock-out of the same entry is refused |
| GpsTimeTracking.Approve | server/routers/gpsTimeTracking.ts:120-136 | Approval marks the caller's entry with the id approved, open or closed, and changes nothing else |
| GpsTimeTracking.ApproveIdempotent | server/routers/gpsTimeTracking.ts:127-135 | Approving twice is approving once |
| GpsTimeTracking.Totals | server/routers/gpsTimeTracking.ts:153-161 | The summary reports the total minutes as tenths of hours to the nearest tenth, the total cost as the sum of the entries' costs with open entries counting zero, and the numbers of approved and pending entries |
| GpsTimeTracking.GetSummary | server/routers/gpsTimeTracking.ts:138-162 | The summary covers all of the caller's entries |
| GpsTimeTracking.SummaryIgnoresDates | server/routers/gpsTimeTracking.ts:138-152 | The date range makes no difference to the summary |
| GpsTimeTracking.SummaryCountsApproved | server/routers/gpsTimeTracking.ts:156-161 | The summary's approved and pending counts are the numbers of the caller's approved and pending entries in the whole table, whatever date range is given |
| GpsTimeTracking.ClockInAddsPending | server/routers/gpsTimeTracking.ts:52-57 | A clock-in adds one pending entry to the summary and changes no other figure |
| Inventory.CreateItem | server/routers/inventory.ts:38-78 | An invalid input is refused, and the call succeeds exactly when the input is valid and the caller is signed in. A success appends one available item with total value quantity times unit cost and logs one `add` transaction of the quantity to its location. Every other stored field is the input's |
| Inventory.TransferItem | server/routers/inventory.ts:80-129 | A transfer fails with "Inventory item not found" exactly when the caller owns no such item, and with "Insufficient quantity" exactly when more is requested than is on hand. It succeeds exactly when the caller owns the item and it holds at least the requested quantity. A success logs one `transfer` from the old location, or "Unknown", to the new one |
| Inventory.TransferMovesOnlyLocation | server/routers/inventory.ts:120-126 | A transfer changes only the location and its timestamp; quantity, status and value stay, even for a partial transfer |
| Inventory.UpdateStatus | server/routers/inventory.ts:131-155 | Only the caller's item with the id gets the new status |
| Inventory.UpdateStatusIdempotent | server/routers/inventory.ts:144-152 | Setting the same status twice is setting it once |
| Inventory.DeleteItem | server/routers/inventory.ts:215-232 | The caller's item with the id disappears; every other item stays exactly as often as it was there, and all transactions stay |
| Inventory.DeletedItemNotFound | server/routers/inventory.ts:94-106 | A deleted item can no longer be transferred |
| Inventory.CountStatusesCounts | server/routers/inventory.ts:191-200 | Each of the four reported status counts is the number of items with that status |
| Inventory.FourKeysCoverAll | server/routers/inventory.ts:191-200 | Without null statuses, the four status counts add up to the number of items |
| Inventory.ByCategoryCounts | server/routers/inventory.ts:202-205 | The count reported for a category is its number of items |
| Inventory.ByCategoryTotal | server/routers/inventory.ts:202-205 | The category counts add up to the number of items |
| Inventory.ByCategoryKeys | server/routers/inventory.ts:202-205 | The categories are reported once each, in order of first appearance |
| Inventory.ByCategoryAsWrittenLosesCounts | server/routers/inventory.ts:202-205 | On a plain object an item of category "__proto__" is lost and "toString" yields text, where the intended tally counts each as one |
| Inventory.Summarize | server/routers/inventory.ts:186-212 | The summary counts every item, totals their values in cents, gives for every status the number of items with it, and for every category the number of its items, each category once in order of first appearance |
| Inventory.GetSummary | server/routers/inventory.ts:176-213 | The summary covers exactly the caller's items |
| Inventory.CreateAddsToSummary | server/routers/inventory.ts:58-65 | Creating an item adds one available item, its value and one count of its category to the summary |
| Inventory.TransferKeepsSummary | server/routers/inventory.ts:120-126 | A transfer leaves every user's summary as it was |
| InventoryPage.NeedReorderStatus | client/src/pages/InventoryManagement.tsx:91-99 | Critical exactly at or below the reorder level, low exactly up to one and a half times it, fine exactly above |
| InventoryPage.MoreStockIsLessUrgent | client/src/pages/InventoryManagement.tsx:91-99 | More stock never makes an item more urgent |
| InventoryPage.LowBandAboveCritical | client/src/pages/InventoryManagement.tsx:92-97 | With a non-negative reorder level, every critical quantity also lies within the low band's bound |
| InventoryPage.ReorderListIsNotFine | client/src/pages/InventoryManagement.tsx:207-208 | With non-negative reorder levels, the reorder list holds exactly the items whose status is not fine, in order |
| InventoryPage.NegativeLevelMissesList | client/src/pages/InventoryManagement.tsx:207-208 | With a negative reorder level a critical item can miss the reorder list |
| InventoryPage.FilterByCategory | client/src/pages/InventoryManagement.tsx:101-104 | "all" shows every item; another choice shows items of that category only, as many as there are |
| InventoryPage.FilterByCategoryKeepsAll | client/src/pages/InventoryManagement.tsx:101-104 | No item of the chosen category is left out |
| CarbonAccounting.Create | server/routers/carbonAccounting.ts:39-65 | An invalid input is refused, and the call succeeds exactly when the input is valid and the caller is signed in. A success appends the record with emissions quantity times the per-unit factor and every other field as given |
| CarbonAccounting.Delete | server/routers/carbonAccounting.ts:67-82 | The caller's record with the id disappears and every other row stays exactly as often as it was there |
| CarbonAccounting.ByCategoryValue | server/routers/carbonAccounting.ts:106-110 | The value reported for a category is the sum of its records' emissions |
| CarbonAccounting.ByCategoryTotal | server/routers/carbonAccounting.ts:101-110 | The category values add up to the total emissions |
| CarbonAccounting.ByCategoryKeys | server/routers/carbonAccounting.ts:106-110 | Each category appears once, in order of first appearance |
| CarbonAccounting.Summarize | server/routers/carbonAccounting.ts:101-117 | The summary's record count is its number of records, its total is their emissions to two decimals, its category values add up to that total, and each category appears once, in order of first appearance, with the emissions of its own records |
| CarbonAccounting.GetProjectCarbonSummary | server/routers/carbonAccounting.ts:84-118 | The summary covers exactly the caller's records of the project |
| CarbonAccounting.SummaryTotalNonNegative | server/routers/carbonAccounting.ts:101-104 | Records with non-negative emissions have a non-negative total |
| CarbonAccounting.ComplianceScore | server/routers/carbonAccounting.ts:148-149 | The score is the certified share in percent, 0 with nothing certified, and lies in [0, 100] |
| CarbonAccounting.FullyCertifiedScore | server/routers/carbonAccounting.ts:148-149 | A fully certified project scores 100 |
| CarbonAccounting.Recommendations | server/routers/carbonAccounting.ts:162-178 | Sourcing advice exactly below 50, offset advice exactly above 100 kg and the excellence note exactly from 80, in that order; nothing but these three messages, at most two, none twice |
| CarbonAccounting.ProjectName | server/routers/carbonAccounting.ts:137-152 | The report names the first project with the id, or "Unknown" when there is none |
| CarbonAccounting.BuildReport | server/routers/carbonAccounting.ts:145-158 | The report counts the records and the certified ones, gives the total emissions in hundredths and the certified share in percent to one decimal (within [0, 1000] tenths), and recommends from the unrounded score and emissions; with nothing certified it scores 0 and advises sourcing |
| CarbonAccounting.GetComplianceReport | server/routers/carbonAccounting.ts:120-159 | The report covers exactly the caller's records of the project |
| CarbonAccounting.ReportNamesForeignProject | server/routers/carbonAccounting.ts:137-141 | The project lookup does not check the owner, so a report names another user's project |
| ClientPortal.ExpiryOf | server/routers/clientPortal.ts:28-30 | A link never expires exactly when no days or 0 days are given; otherwise it expires that many days of 86,400,000 ms after now, fractional days included, with the fraction of a millisecond dropped towards zero. A positive number of days never expires before now |
| ClientPortal.CreatePortalAccess | server/routers/clientPortal.ts:12-49 | A taken token is refused, and the call succeeds exactly when the caller is signed in and the token is new. A success appends one active link whose URL is the portal prefix followed by the token |
| ClientPortal.CreateKeepsTokensUnique | server/routers/clientPortal.ts:31-43 | Creating a link keeps every token unique |
| ClientPortal.PermissionsOf | server/routers/clientPortal.ts:96-99 | Exactly one permission flag is set, the one of the access level |
| ClientPortal.PermissionsRoundTrip | server/routers/clientPortal.ts:96-99 | The flags determine the access level they came from |
| ClientPortal.PortalView | server/routers/clientPortal.ts:80-100 | The page shows the link's level and flags, the link's project when it exists, and exactly the invoices of that project, each as often as in the table |
| ClientPortal.GetPortalData | server/routers/clientPortal.ts:54-101 | An unknown or inactive token fails as invalid; a link whose expiry lies strictly before now fails as expired; it succeeds exactly when the token's link is active and not expired, and then shows that link's page |
| ClientPortal.ReadTouchesOnlyLastAccess | server/routers/clientPortal.ts:75-78 | A read changes nothing but the last-access time of the link's row |
| ClientPortal.ExpiryInstantStillValid | server/routers/clientPortal.ts:70-72 | A link whose expiry equals now still reads |
| ClientPortal.WholeDaysExpiry | server/routers/clientPortal.ts:28-30 | A whole number of days moves the expiry by exactly that many days |
| ClientPortal.HalfDayExpiry | server/routers/clientPortal.ts:28-30 | Half a day makes a link that expires twelve hours later |
| ClientPortal.CreatedLinkReads | server/routers/clientPortal.ts:26-40 | A link just created reads at the same instant unless created with a negative number of days |
| ClientPortal.RevokeAccess | server/routers/clientPortal.ts:120-138 | Only the caller's link with the id becomes inactive |
| ClientPortal.RevokedLinkFails | server/routers/clientPortal.ts:127-135 | After its owner revokes it, a link no longer reads |
| ClientPortal.UpdateAccessLevel | server/routers/clientPortal.ts:143-166 | Only the caller's link with the id changes, and only its level |
| ClientPortal.UpdatedLevelShown | server/routers/clientPortal.ts:96-99 | After a level change the portal shows the new level's flags |
| ClientPortal.GetInvoiceDetails | server/routers/clientPortal.ts:193-216 | An invoice is returned exactly when one matches both id and client, and it does |
| ClientPortal.OtherClientSeesNothing | server/routers/clientPortal.ts:200-211 | Another client guessing an invoice id gets nothing |
| AiReceptionist.LeadOwner | server/routers/aiReceptionist.ts:64 | A lead belongs to the caller, or to user 1 when there is none |
| AiReceptionist.CreateLead | server/routers/aiReceptionist.ts:48-75 | A malformed email is refused; otherwise one new lead is appended with the caller, status new and urgency routine unless given, and every other field as given |
| AiReceptionist.WebhookLeadsGoToUserOne | server/routers/aiReceptionist.ts:64-72 | A lead posted without a caller is filed under user 1 |
| AiReceptionist.UpdateLeadStatus | server/routers/aiReceptionist.ts:80-103 | Only the caller's lead with the id changes, and only its status |
| AiReceptionist.ConversionRate | server/routers/aiReceptionist.ts:121 | The rate is the converted share in percent, 0 with no leads, within [0, 100] |
| AiReceptionist.StatsOf | server/routers/aiReceptionist.ts:118-128 | Urgent and converted counts never exceed the total; the rate is in tenths within [0, 1000]; recent leads are the first five or all |
| AiReceptionist.GetStats | server/routers/aiReceptionist.ts:108-130 | The figures cover exactly the caller's leads |
| AiReceptionist.CreateLeadCounts | server/routers/aiReceptionist.ts:64-72 | A captured lead adds one to the total, one to the urgent count when it is urgent, and nothing to the converted count |
| AiReceptionist.AllConvertedRate | server/routers/aiReceptionist.ts:121-127 | When every lead is converted the rate prints as 100.0 |
| FinancialIntegration.GetConnectionStatus | server/routers/financialIntegration.ts:8-24 | Every provider is reported disconnected, with no last sync |
| FinancialIntegration.ConnectionStatusIgnoresSettings | server/routers/financialIntegration.ts:12-23 | The report does not depend on the settings |
| FinancialIntegration.SortNewestFirstCorrect | server/routers/financialIntegration.ts:43-44 | The history order is newest first and keeps every row |
| FinancialIntegration.GetSyncHistory | server/routers/financialIntegration.ts:26-46 | The history fails exactly on a negative limit; otherwise it holds the limit (50 by default) of the caller's logs, or all of them when there are fewer, newest first, as a prefix of all of them in that order |
| FinancialIntegration.HistoryIgnoresProvider | server/routers/financialIntegration.ts:29-45 | Choosing a provider changes nothing |
| FinancialIntegration.OmittedLogsAreOlder | server/routers/financialIntegration.ts:43-45 | A log the limit leaves out is no newer than any log shown |
| FinancialIntegration.ShortHistoryIsComplete | server/routers/financialIntegration.ts:43-45 | Below the limit the history holds every log of the caller |
| FinancialIntegration.StatusCountsAddUp | server/routers/financialIntegration.ts:58-63 | The four status counts add up to the number of logs, so successful, failed and pending alone can fall short |
| FinancialIntegration.StatisticsOf | server/routers/financialIntegration.ts:58-64 | The figures count each status; the success rate is the successful share in hundredths of a percent, within [0, 10000], 0 with no logs |
| FinancialIntegration.GetSyncStatistics | server/routers/financialIntegration.ts:48-66 | The figures cover exactly the caller's logs |
| FinancialIntegration.Disconnect | server/routers/financialIntegration.ts:68-84 | One successful full-sync log recording the disconnection is appended, with the given id and created now |
| FinancialIntegration.DisconnectCountsAsSuccess | server/routers/financialIntegration.ts:75-81 | A disconnection counts as one more sync and one more success |
| Validation.MatchAmountCorrect | client/src/lib/validation.ts:12 | A left-to-right matcher accepts exactly the strings of the amount grammar |
| Validation.AmountsAccepted | client/src/lib/validation.ts:12 | Whole amounts and amounts with one or two decimals are accepted |
| Validation.NonAmountsRejected | client/src/lib/validation.ts:12 | Signs, a leading or trailing point, three decimals and separators are refused |
| Validation.PhoneConcat | client/src/lib/validation.ts:34 | The phone grammar checks characters only: two phone numbers in a row form one |
| Validation.WholeAmountIsPhone | client/src/lib/validation.ts:12-34 | Every whole amount is also a phone number |
| Validation.PhoneExamples | client/src/lib/validation.ts:34 | Digits with `+`, parentheses, dashes or spaces are accepted, as is blank text; an empty string, an extension or dots are refused |
| Validation.InvoiceIssues | client/src/lib/validation.ts:8-17 | A field shows its message exactly when its rule fails: client at least 1, a non-empty number, and the amount grammar for subtotal, tax and total |
| Validation.ProjectIssues | client/src/lib/validation.ts:20-28 | A name of at least 3 characters, a client, and an optional budget in the amount grammar |
| Validation.ClientIssues | client/src/lib/validation.ts:31-40 | A name of at least 2 characters, a valid email and an optional phone in the phone grammar |
| Validation.ExpenseIssues | client/src/lib/validation.ts:43-51 | A project, a non-empty category and an amount in the grammar |
| Validation.TeamMemberIssues | client/src/lib/validation.ts:54-61 | A name of at least 2 characters, an optional valid email, and optional phone and rate in their grammars |
| Validation.BidIssues | client/src/lib/validation.ts:64-71 | A project, a client, an amount in the grammar and a description of at least 10 characters |
| Validation.PaymentIssues | client/src/lib/validation.ts:74-81 | An invoice and an amount in the grammar |
| Validation.TimeEntryIssues | client/src/lib/validation.ts:84-90 | A project, a description of at least 5 characters and hours in the amount grammar |
| Validation.SettingsIssues | client/src/lib/validation.ts:93-102 | A company name of at least 2 characters, a tax rate in the grammar, non-empty prefixes, and next numbers of at least 1000 |
| Validation.AmountGrammarShared | client/src/lib/validation.ts:12-95 | A tax rate the settings accept is also accepted as a payment, a bid amount and an invoice's tax |
| Validation.ValidateAmount | client/src/lib/validation.ts:107-110 | True exactly when the number, or what `parseFloat` reads from the text, is not NaN and at least 0 |
| Validation.WholeNumberParses | client/src/lib/validation.ts:108 | `parseFloat` reads a string of digits as its value |
| Validation.AmountsValidate | client/src/lib/validation.ts:12-110 | Every string of the amount grammar passes `validateAmount` |
| Validation.NegativeTextRejected | client/src/lib/validation.ts:107-110 | A minus sign before a non-zero digit never validates |
| Validation.TrailingTextIgnored | client/src/lib/validation.ts:107-110 | The validator accepts digits followed by other text, such as "12abc", which the grammar refuses |
| Validation.LeadingSpaceSkipped | client/src/lib/validation.ts:107-110 | Leading white space changes nothing for the validator but makes the text no amount |
| Validation.NonNumbersRejected | client/src/lib/validation.ts:107-110 | Text without a number, NaN and minus infinity are refused; plus infinity passes |
| Validation.CalculateTotal | client/src/lib/validation.ts:126-131 | NaN in either argument gives NaN; finite arguments give a finite total |
| Validation.TotalScalesSubtotal | client/src/lib/validation.ts:126-131 | For finite inputs the total is the subtotal times one plus the rate over 100 |
| Validation.ZeroTaxKeepsSubtotal | client/src/lib/validation.ts:126-131 | A tax rate of 0 returns the subtotal |
| Validation.TotalGrowsWithRate | client/src/lib/validation.ts:126-131 | With a non-negative subtotal a higher rate never lowers the total, and a non-negative rate never goes below the subtotal |
| Validation.OverdueIffRangeBroken | client/src/lib/validation.ts:136-145 | An invoice is overdue exactly when now to its due date is not a valid range; on the due instant itself it is not overdue |
| Validation.IsValidDateRange | client/src/lib/validation.ts:136-138 | An invalid date never makes a valid range, whatever the other date |
| Validation.IsInvoiceOverdue | client/src/lib/validation.ts:143-145 | An invoice with an invalid due date is never overdue |
| Validation.DateRangeOrder | client/src/lib/validation.ts:136-145 | On valid dates a range is valid exactly when the start is not after the end, and an invoice is overdue exactly when now lies strictly after its due date |
| Validation.DateRangeReflexive | client/src/lib/validation.ts:136-138 | Any valid date is a range on its own |
| Validation.DateRangeTransitive | client/src/lib/validation.ts:136-138 | Two consecutive valid ranges make a valid range |
| Rounding.MathRoundMinutes | server/routers/gpsTimeTracking.ts:90-93 | `Math.round(ms / 60000)` is `(ms + 30000)` divided by 60000, rounded down |
| Rounding.Truncate | server/routers/clientPortal.ts:28-30 | `new Date` keeps the whole milliseconds of a time value, dropping the fraction towards zero |
| Rounding.RoundHalfAwayMonotone | server/routers/gpsTimeTracking.ts:103 | `toFixed` rounding never reverses the order of two numbers |
| Decimal.NatToStringValue | server/routers/recurringInvoices.ts:160 | Reading back the decimal spelling of a clock reading in an invoice number gives the reading |
| Decimal.IntToStringInjective | server/routers/recurringInvoices.ts:160 | Different integers have different decimal spellings |

## Left out

- FinancialIntegration.GetSyncHistory: `limit` is a whole number. The input schema also admits a fractional limit, which goes to the database as it is; how the database treats it is not modelled.
- Floating point. `parseFloat`, `toFixed` and the arithmetic of `calculateTotal`, the rates, the carbon figures and the expiry of a portal link use binary doubles; the model computes exactly on rationals and rounds halves away from zero. Results can differ where a double is not exact, for example at a half in the last place, and for overflow to infinity in `parseFloat`. Signed zero is not modelled.
- Local time and daylight saving time. `setDate`, `setMonth` and `setFullYear` work in the server's local time zone; the model uses UTC.
- The range limit of `Date` (about 8.64e15 ms). Larger time values, which `Date` turns into NaN, are not modelled.
- Races. Checking for an open GPS entry and then inserting one is not atomic; each router call is a single step in the model.
- The invoice-number clock, access tokens, row ids and `now` are parameters. `crypto.randomBytes` and `Date.now()` are not modelled.
- The database. The "Database not available" errors, MySQL timestamp precision and the rounding of decimal columns are not modelled. GPS coordinates are exact reals, copied as given; their columns keep 8 decimals.
- Row order. The model keeps insertion order where a query has no `ORDER BY`. Where `ORDER BY clockInTime DESC` meets a tie, the last row in table order is taken. Where `ORDER BY createdAt DESC` in the sync history meets a tie, the tied logs keep table order. The database may choose another order in either case.
- Input schemas of the routers. Their messages are abstracted to `Invalid input`. The email grammar of zod is a parameter. String lengths count code points, where JavaScript counts UTF-16 units.
- Form fields the validators check only for type: enums, dates, optional strings and booleans are left out of the form datatypes.
- Nullable columns that the routers always fill (`accessLevel`, `urgency`, lead and sync status, the recurring-invoice `status`, the time-entry `approvalStatus` and the portal `isActive`) are not null in the model. A null inventory status is counted under a separate `unknown` key; the source increments an absent key "null" and so reports NaN there.
- The database's own error wording for a duplicate access token, a duplicate invoice number or a negative `LIMIT` is not modelled; each is a fixed message.
- JavaScript object key order. Integer-like category names come first in a JavaScript object; the model keeps order of first appearance for every key.
- CarbonAccounting.ByCategoryTotal: the carbon `byCategory` object has the same "__proto__" defect as the inventory one (see Findings). Only the corrected tally is modelled for carbon.
- Operations outside the rules modelled: the list and get endpoints (`list`, `getById`, `listLeads`, `getLead`, `listClientAccess`, `listByClient`, `getPaymentHistory`, `getTransactionHistory`, `testConnection`) and `formatCurrency`, which is display only.
- The React pages other than the reorder rule, the category filter and the reorder list of the inventory page.
- Validation.IsValidDateRange: its own contract states only that an invalid date never makes a valid range; the comparison of valid dates is stated by `Validation.DateRangeOrder`.
- Validation.IsInvoiceOverdue: its own contract states only that an invalid due date is never overdue; the comparison with now is stated by `Validation.DateRangeOrder`.

## Findings

| source | as written | input that shows it | evidently intended | confidence | as-written member | corrected member |
|---|---|---|---|---|---|---|
| server/routers/inventory.ts:202-205 | `byCategory[c] = (byCategory[c] \|\| 0) + 1` on a plain `{}` reads and writes inherited properties | one item of category "__proto__": the write goes to the prototype and the count is lost; one item of category "toString": the count becomes text | one count per category, adding up to the number of items | not executed | Inventory.ByCategoryAsWrittenLosesCounts | Inventory.ByCategoryTotal |

=== FILE: ai_receptionist.dfy ===
/** AI receptionist (`aiReceptionist` router): leads captured by a voice or
    chat webhook, their follow-up status, and the performance figures. */
module AiReceptionist {
  import opened Wrappers
  import opened Tables
  import Rounding
  import opened Schema

  datatype Urgency = Routine | Urgent | Emergency

  datatype LeadStatus = New | Contacted | Qualified | Converted | Lost

  /** A row of `aiLeads`. */
  datatype Lead = Lead(
    id: int,
    userId: int,
    customerName: Option<string>,
    phoneNumber: Option<string>,
    email: Option<string>,
    serviceType: Option<string>,
    projectDescription: Option<string>,
    urgency: Urgency,
    status: LeadStatus,
    callTranscript: Option<string>,
    aiSummary: Option<string>,
    appointmentDate: Option<int>)

  function OfUser(user: int): Lead -> bool {
    (l: Lead) => l.userId == user
  }

  function Owns(id: int, user: int): Lead -> bool {
    (l: Lead) => l.id == id && l.userId == user
  }

  // ---------------------------------------------------------------------
  // Capturing a lead

  /** What the webhook posts; every field is optional. */
  datatype LeadInput = LeadInput(
    customerName: Option<string>,
    phoneNumber: Option<string>,
    email: Option<string>,
    serviceType: Option<string>,
    projectDescription: Option<string>,
    urgency: Option<Urgency>,
    callTranscript: Option<string>,
    aiSummary: Option<string>,
    appointmentDate: Option<int>)

  /** The owner of a captured lead: the caller, or user 1 when the request
      carries no user (the webhook). */
  function LeadOwner(caller: Caller): (user: int)
    ensures caller.Some? && caller.value != 0 ==> user == caller.value
    ensures caller.None? || caller.value == 0 ==> user == 1
  {
    if caller.Some? && caller.value != 0 then caller.value else 1
  }

  /** `createLead`: anyone may post a lead; it is stored as `New`, routine
      unless the input says otherwise. `isEmail` is the address grammar
      the input schema checks a present email against. */
  function CreateLead(leads: seq<Lead>, caller: Caller, input: LeadInput, isEmail: string -> bool, id: int)
    : (r: Result<seq<Lead>>)
    ensures r.Err? <==> input.email.Some? && !isEmail(input.email.value)
    ensures r.Err? ==> r.error == InvalidInput
    ensures r.Ok? ==> |r.value| == |leads| + 1 && r.value[..|leads|] == leads
    ensures r.Ok? ==>
      var l := r.value[|leads|];
      l.id == id && l.userId == LeadOwner(caller) && l.status == New
      && l.urgency == input.urgency.GetOr(Routine) && l.email == input.email
      && l.customerName == input.customerName && l.phoneNumber == input.phoneNumber
      && l.serviceType == input.serviceType && l.projectDescription == input.projectDescription
      && l.callTranscript == input.callTranscript && l.aiSummary == input.aiSummary
      && l.appointmentDate == input.appointmentDate
  {
    if input.email.Some? && !isEmail(input.email.value) then Err(InvalidInput)
    else
      var l := Lead(id, LeadOwner(caller), input.customerName, input.phoneNumber, input.email,
                    input.serviceType, input.projectDescription, input.urgency.GetOr(Routine), New,
                    input.callTranscript, input.aiSummary, input.appointmentDate);
      Ok(leads + [l])
  }

  /** Without a caller, the webhook files every lead under user 1. */
  lemma WebhookLeadsGoToUserOne(leads: seq<Lead>, input: LeadInput, isEmail: string -> bool, id: int)
    requires input.email.None?
    ensures CreateLead(leads, None, input, isEmail, id).Ok?
    ensures CreateLead(leads, None, input, isEmail, id).value[|leads|].userId == 1
  {
  }

  // ---------------------------------------------------------------------
  // Follow-up

  function SetStatus(status: LeadStatus): Lead -> Lead {
    (l: Lead) => l.(status := status)
  }

  /** `updateLeadStatus`: only the caller's lead with that id changes, and
      only its status. */
  function UpdateLeadStatus(leads: seq<Lead>, caller: Caller, id: int, status: LeadStatus): (r: Result<seq<Lead>>)
    ensures r.Err? <==> RequireUser(caller).Err?
    ensures r.Ok? ==> |r.value| == |leads|
    ensures r.Ok? ==> forall j :: 0 <= j < |leads| ==>
      r.value[j] == if leads[j].id == id && leads[j].userId == caller.value then leads[j].(status := status) else leads[j]
  {
    var auth := RequireUser(caller);
    if auth.Err? then Err(auth.error)
    else Ok(UpdateWhere(leads, Owns(id, auth.value), SetStatus(status)))
  }

  // ---------------------------------------------------------------------
  // Statistics

  predicate IsUrgent(l: Lead) {
    l.urgency == Urgent || l.urgency == Emergency
  }

  predicate IsConverted(l: Lead) {
    l.status == Converted
  }

  /** The share of converted leads in percent, 0 with no leads. */
  function ConversionRate(converted: nat, total: nat): (rate: real)
    requires converted <= total
    ensures 0.0 <= rate <= 100.0
    ensures total == 0 ==> rate == 0.0
    ensures total > 0 ==> rate * total as real == converted as real * 100.0
  {
    if total > 0 then
      Rounding.PercentInRange(converted, total);
      converted as real / total as real * 100.0
    else 0.0
  }

  /** The performance figures; the rate is in tenths of a percent, as
      `toFixed(1)` prints it. */
  datatype Stats = Stats(
    totalLeads: nat,
    urgentLeads: nat,
    convertedLeads: nat,
    conversionRate: int,
    recentLeads: seq<Lead>)

  function StatsOf(mine: seq<Lead>): (s: Stats)
    ensures s.totalLeads == |mine|
    ensures s.urgentLeads == Count(mine, IsUrgent) <= s.totalLeads
    ensures s.convertedLeads == Count(mine, IsConverted) <= s.totalLeads
    ensures 0 <= s.conversionRate <= 1000
    ensures s.conversionRate == Rounding.ToFixed(ConversionRate(s.convertedLeads, s.totalLeads), 1)
    ensures |s.recentLeads| == if |mine| < 5 then |mine| else 5
    ensures s.recentLeads <= mine
  {
    var converted := Count(mine, IsConverted);
    var rate := ConversionRate(converted, |mine|);
    Rounding.RoundHalfAwayWithin(rate * 10.0, 0, 1000);
    Stats(|mine|, Count(mine, IsUrgent), converted, Rounding.ToFixed(rate, 1), Take(mine, 5))
  }

  /** `getStats`: the figures over the caller's leads in table order. */
  function GetStats(leads: seq<Lead>, caller: Caller): (r: Result<Stats>)
    ensures r.Err? <==> RequireUser(caller).Err?
    ensures r.Ok? ==> r.value == StatsOf(Filter(leads, OfUser(caller.value)))
  {
    var auth := RequireUser(caller);
    if auth.Err? then Err(auth.error)
    else Ok(StatsOf(Filter(leads, OfUser(auth.value))))
  }

  /** A captured lead counts once more in its owner's total, once more among
      the urgent ones if it is urgent, and never as converted. */
  lemma CreateLeadCounts(leads: seq<Lead>, user: int, input: LeadInput, isEmail: string -> bool, id: int)
    requires user != 0
    requires CreateLead(leads, Some(user), input, isEmail, id).Ok?
    ensures var before := GetStats(leads, Some(user)).value;
      var after := GetStats(CreateLead(leads, Some(user), input, isEmail, id).value, Some(user)).value;
      after.totalLeads == before.totalLeads + 1
      && after.convertedLeads == before.convertedLeads
      && after.urgentLeads == before.urgentLeads + (if input.urgency == Some(Urgent) || input.urgency == Some(Emergency) then 1 else 0)
  {
    var l := CreateLead(leads, Some(user), input, isEmail, id).value[|leads|];
    assert CreateLead(leads, Some(user), input, isEmail, id).value == leads + [l];
    FilterAppend(leads, [l], OfUser(user));
    var mine := Filter(leads, OfUser(user));
    assert Filter([l], OfUser(user)) == [l];
    CountAppend(mine, [l], IsUrgent);
    CountAppend(mine, [l], IsConverted);
  }

  /** When every lead is converted the rate prints as 100.0. */
  lemma AllConvertedRate(mine: seq<Lead>)
    requires |mine| > 0
    requires forall i :: 0 <= i < |mine| ==> IsConverted(mine[i])
    ensures StatsOf(mine).conversionRate == 1000
  {
    CountAll(mine, IsConverted);
    var rate := ConversionRate(|mine|, |mine|);
    assert rate == 100.0 by {
      assert rate * |mine| as real == |mine| as real * 100.0;
    }
    assert rate * Rounding.Pow10(1) == 1000 as real;
    Rounding.RoundHalfAwayOfInt(1000);
  }
}

=== FILE: calendar.dfy ===
/** Calendar arithmetic of ECMAScript `Date`, as the recurring-invoice
    generator uses it (section 21.4.1 of ECMA-262, "Time Values and Time
    Range").

    A time value is an integer number of milliseconds since
    1970-01-01T00:00:00. Days are numbered from the same epoch. Months are
    0-based (January is 0), dates within a month 1-based, exactly as
    `getMonth` and `getDate` report them. Local time, daylight saving and
    `TimeClip` are not modelled: the model works on the UTC calendar. */
module Calendar {

  /** msPerDay of ECMA-262. */
  const MsPerDay: int := 86400000

  // ---------------------------------------------------------------------
  // Years
  // ---------------------------------------------------------------------

  /** The Gregorian leap-year rule (DaysInYear of ECMA-262). */
  predicate IsLeapYear(y: int) {
    y % 4 == 0 && (y % 100 != 0 || y % 400 == 0)
  }

  function DaysInYear(y: int): int {
    if IsLeapYear(y) then 366 else 365
  }

  /** The day number of January 1 of year `y`: the lengths of the years
      from 1970 up to `y` added up (or, before 1970, subtracted).
      DayFromYearFollowsStandard shows this is DayFromYear of ECMA-262. */
  function DayFromYear(y: int): int
    decreases if y >= 1970 then y - 1970 else 1970 - y
  {
    if y == 1970 then 0
    else if y > 1970 then DayFromYear(y - 1) + DaysInYear(y - 1)
    else DayFromYear(y + 1) - DaysInYear(y)
  }

  /** Consecutive year starts are one year length apart. */
  lemma DayFromYearStep(y: int)
    ensures DayFromYear(y + 1) == DayFromYear(y) + DaysInYear(y)
  {
  }

  /** The closed form ECMA-262 gives for DayFromYear. Dafny's `/` with a
      positive divisor is the floor of the quotient, as the standard
      requires. */
  function StandardDayFromYear(y: int): int {
    365 * (y - 1970) + (y - 1969) / 4 - (y - 1901) / 100 + (y - 1601) / 400
  }

  /** The three floor quotients of the closed form step by one exactly when
      the year crosses a multiple of 4, 100 or 400. */
  lemma FourYearStep(y: int)
    ensures (y - 1968) / 4 == (y - 1969) / 4 + (if y % 4 == 0 then 1 else 0)
  {
  }

  lemma CenturyStep(y: int)
    ensures (y - 1900) / 100 == (y - 1901) / 100 + (if y % 100 == 0 then 1 else 0)
    ensures y % 100 == 0 ==> y % 4 == 0
  {
  }

  lemma FourCenturyStep(y: int)
    ensures (y - 1600) / 400 == (y - 1601) / 400 + (if y % 400 == 0 then 1 else 0)
    ensures y % 400 == 0 ==> y % 100 == 0
  {
  }

  /** The closed form steps by the length of the year, as the leap-year rule
      says. */
  lemma StandardDayFromYearStep(y: int)
    ensures StandardDayFromYear(y + 1) == StandardDayFromYear(y) + DaysInYear(y)
  {
    FourYearStep(y);
    CenturyStep(y);
    FourCenturyStep(y);
  }

  /** Counting year lengths from 1970 gives the standard's closed form. */
  lemma {:induction false} DayFromYearFollowsStandard(y: int)
    ensures DayFromYear(y) == StandardDayFromYear(y)
    decreases if y >= 1970 then y - 1970 else 1970 - y
  {
    if y > 1970 {
      DayFromYearFollowsStandard(y - 1);
      StandardDayFromYearStep(y - 1);
    } else if y < 1970 {
      DayFromYearFollowsStandard(y + 1);
      StandardDayFromYearStep(y);
    }
  }

  /** Year starts grow by at least 365 days per year. */
  lemma {:induction false} DayFromYearMonotone(a: int, b: int)
    requires a <= b
    ensures DayFromYear(a) + 365 * (b - a) <= DayFromYear(b)
    decreases b - a
  {
    if a < b {
      DayFromYearMonotone(a, b - 1);
      DayFromYearStep(b - 1);
    }
  }

  /** The year containing day `d`, searching upwards from year `y`. */
  function YearUp(d: int, y: int): (r: int)
    requires DayFromYear(y) <= d
    ensures DayFromYear(r) <= d < DayFromYear(r + 1)
    decreases d - DayFromYear(y)
  {
    DayFromYearStep(y);
    if d < DayFromYear(y + 1) then y else YearUp(d, y + 1)
  }

  /** The year containing day `d`, searching downwards from year `y`. */
  function YearDown(d: int, y: int): (r: int)
    requires d < DayFromYear(y + 1)
    ensures DayFromYear(r) <= d < DayFromYear(r + 1)
    decreases DayFromYear(y + 1) - d
  {
    DayFromYearStep(y);
    if DayFromYear(y) <= d then y else YearDown(d, y - 1)
  }

  /** YearFromTime of ECMA-262, on day numbers: the year whose first day is
      the latest one not after `d`. */
  function YearFromDay(d: int): int {
    if d >= 0 then YearUp(d, 1970) else YearDown(d, 1969)
  }

  /** A year is determined by any day inside it. */
  lemma YearOfDayIsUnique(d: int, y: int)
    requires DayFromYear(y) <= d < DayFromYear(y + 1)
    ensures YearFromDay(d) == y
  {
    var r := YearFromDay(d);
    if r < y {
      DayFromYearMonotone(r + 1, y);
    } else if r > y {
      DayFromYearMonotone(y + 1, r);
    }
  }

  // ---------------------------------------------------------------------
  // Months
  // ---------------------------------------------------------------------

  /** The number of days of year `y` before month `m` (0-based); month 12
      stands for the end of the year. These are the thresholds of
      MonthFromTime in ECMA-262 (0, 31, 59, 90, 120, 151, 181, 212, 243, 273,
      304, 334, 365, plus one from March on in a leap year), written as the
      usual 153-days-per-five-months rule from March on. */
  function DaysBeforeMonth(y: int, m: int): int
    requires 0 <= m <= 12
  {
    if m < 2 then 31 * m
    else 59 + (153 * (m - 2) + 2) / 5 + (if IsLeapYear(y) then 1 else 0)
  }

  /** Later months start later in the year. */
  lemma DaysBeforeMonthIncreasing(y: int, m: int, n: int)
    requires 0 <= m < n <= 12
    ensures DaysBeforeMonth(y, m) + 28 <= DaysBeforeMonth(y, n)
  {
  }

  /** The month containing a day of the year is unique. */
  lemma MonthOfDayIsUnique(y: int, r: int, m: int, n: int)
    requires 0 <= m < 12 && 0 <= n < 12
    requires DaysBeforeMonth(y, m) <= r < DaysBeforeMonth(y, m + 1)
    requires DaysBeforeMonth(y, n) <= r < DaysBeforeMonth(y, n + 1)
    ensures m == n
  {
    if m < n {
      DaysBeforeMonthIncreasing(y, m + 1, n + 1);
    } else if n < m {
      DaysBeforeMonthIncreasing(y, n + 1, m + 1);
    }
  }

  function DaysInMonth(y: int, m: int): (n: int)
    requires 0 <= m < 12
    ensures 28 <= n <= 31
    ensures n == 29 ==> m == 1 && IsLeapYear(y)
  {
    DaysBeforeMonth(y, m + 1) - DaysBeforeMonth(y, m)
  }

  /** The month (0-based) of the `r`-th day (0-based) of year `y`, searching
      upwards from month `m`. */
  function MonthSearch(y: int, r: int, m: int): (n: int)
    requires 0 <= m < 12
    requires DaysBeforeMonth(y, m) <= r < DaysInYear(y)
    ensures m <= n < 12
    ensures DaysBeforeMonth(y, n) <= r < DaysBeforeMonth(y, n + 1)
    decreases 12 - m
  {
    if m == 11 || r < DaysBeforeMonth(y, m + 1) then m else MonthSearch(y, r, m + 1)
  }

  /** The month (0-based) of the `r`-th day (0-based) of year `y`. */
  function MonthFromDayInYear(y: int, r: int): (m: int)
    requires 0 <= r < DaysInYear(y)
    ensures 0 <= m < 12
    ensures DaysBeforeMonth(y, m) <= r < DaysBeforeMonth(y, m + 1)
  {
    MonthSearch(y, r, 0)
  }

  // ---------------------------------------------------------------------
  // Civil dates and MakeDay
  // ---------------------------------------------------------------------

  /** What `getFullYear`, `getMonth` and `getDate` report. */
  datatype CivilDate = CivilDate(year: int, month: int, date: int)

  predicate ValidCivil(c: CivilDate) {
    0 <= c.month < 12 && 1 <= c.date <= DaysInMonth(c.year, c.month)
  }

  /** The first day of month number `i`, counting months from January of
      year 0 (so month `12 * y + m` is month `m` of year `y`). */
  function MonthStart(i: int): int {
    DayFromYear(i / 12) + DaysBeforeMonth(i / 12, i % 12)
  }

  /** MakeDay of ECMA-262: the day number of date `date` of month `month`
      of year `year`, where neither month nor date is range-checked. The
      month count `12 * year + month` picks the month (so month 12 is January
      of the next year, month -1 December of the previous one), and the date
      is added to its first day without any clamping, so a date past the end
      of the month runs on into the following month.
      MakeDayFollowsStandard shows this is the standard's formula. */
  function MakeDay(year: int, month: int, date: int): int {
    MonthStart(12 * year + month) + date - 1
  }

  /** The standard computes `ym = year + floor(month / 12)` and
      `mn = month modulo 12` and adds `date - 1` to the first day of month
      `mn` of year `ym`; that is the same day. */
  lemma MakeDayFollowsStandard(year: int, month: int, date: int)
    ensures var ym := year + month / 12;
      MakeDay(year, month, date) == DayFromYear(ym) + DaysBeforeMonth(ym, month % 12) + date - 1
  {
    var q, r := month / 12, month % 12;
    assert month == 12 * q + r && 0 <= r < 12;
    assert 12 * year + month == 12 * (year + q) + r;
  }

  /** For an in-range month the month count splits back into year and
      month. */
  lemma MonthStartOfYearMonth(y: int, m: int)
    requires 0 <= m < 12
    ensures MonthStart(12 * y + m) == DayFromYear(y) + DaysBeforeMonth(y, m)
  {
    var i := 12 * y + m;
    assert i / 12 == y && i % 12 == m;
  }

  /** The calendar date of day number `d`: a valid date that MakeDay maps
      back to `d`. */
  function CivilFromDay(d: int): (c: CivilDate)
    ensures ValidCivil(c)
    ensures MakeDay(c.year, c.month, c.date) == d
  {
    var y := YearFromDay(d);
    DayFromYearStep(y);
    var r := d - DayFromYear(y);
    var m := MonthFromDayInYear(y, r);
    MonthStartOfYearMonth(y, m);
    CivilDate(y, m, r - DaysBeforeMonth(y, m) + 1)
  }

  /** A day inside year `y` decodes with year `y` and its offset into the
      year. */
  lemma CivilFromDayInYear(y: int, r: int, d: int)
    requires 0 <= r < DaysInYear(y)
    requires d == DayFromYear(y) + r
    ensures var m := MonthFromDayInYear(y, r);
      CivilFromDay(d) == CivilDate(y, m, r - DaysBeforeMonth(y, m) + 1)
  {
    DayFromYearStep(y);
    YearOfDayIsUnique(d, y);
  }

  /** The day of the year of a valid date. */
  lemma DayInYearOfValid(c: CivilDate, r: int, d: int)
    requires ValidCivil(c)
    requires r == DaysBeforeMonth(c.year, c.month) + c.date - 1
    requires d == MakeDay(c.year, c.month, c.date)
    ensures 0 <= r < DaysInYear(c.year)
    ensures d == DayFromYear(c.year) + r
  {
    MonthStartOfYearMonth(c.year, c.month);
    if c.month < 11 { DaysBeforeMonthIncreasing(c.year, c.month + 1, 12); }
  }

  /** Every valid calendar date is decoded back from its day number, so
      CivilFromDay and MakeDay are mutually inverse on valid dates. */
  lemma CivilFromMakeDay(c: CivilDate)
    requires ValidCivil(c)
    ensures CivilFromDay(MakeDay(c.year, c.month, c.date)) == c
  {
    var d := MakeDay(c.year, c.month, c.date);
    var r := DaysBeforeMonth(c.year, c.month) + c.date - 1;
    DayInYearOfValid(c, r, d);
    CivilFromDayInYear(c.year, r, d);
    MonthOfDayIsUnique(c.year, r, MonthFromDayInYear(c.year, r), c.month);
  }

  // ---------------------------------------------------------------------
  // Months counted from year 0, for month arithmetic
  // ---------------------------------------------------------------------

  lemma MonthStartStep(i: int)
    ensures MonthStart(i + 1) == MonthStart(i) + DaysInMonth(i / 12, i % 12)
  {
    var y, m := i / 12, i % 12;
    assert i == 12 * y + m;
    if m == 11 {
      assert i + 1 == 12 * (y + 1) + 0;
      DayFromYearStep(y);
    } else {
      assert i + 1 == 12 * y + (m + 1);
    }
  }

  /** Every month is between 28 and 31 days long. */
  lemma MonthLength(i: int)
    ensures MonthStart(i) + 28 <= MonthStart(i + 1) <= MonthStart(i) + 31
  {
    MonthStartStep(i);
  }

  /** A sequence of values whose every step lies in [28, 31] grows by
      between 28 and 31 per step over `k` steps. */
  lemma {:induction false} StepBounds(f: int -> int, i: int, k: int)
    requires k >= 0
    requires forall j :: i <= j < i + k ==> f(j) + 28 <= f(j + 1) <= f(j) + 31
    ensures f(i) + 28 * k <= f(i + k) <= f(i) + 31 * k
    decreases k
  {
    if k > 0 {
      StepBounds(f, i, k - 1);
      assert f(i + (k - 1)) + 28 <= f(i + (k - 1) + 1) <= f(i + (k - 1)) + 31;
    }
  }

  /** `k` consecutive months span between 28 and 31 days each. */
  lemma MonthStartDelta(i: int, k: int)
    requires k >= 0
    ensures MonthStart(i) + 28 * k <= MonthStart(i + k) <= MonthStart(i) + 31 * k
  {
    forall j | i <= j < i + k
      ensures MonthStart(j) + 28 <= MonthStart(j + 1) <= MonthStart(j) + 31
    {
      MonthLength(j);
    }
    StepBounds(MonthStart, i, k);
  }

  // ---------------------------------------------------------------------
  // Time values and the Date setters
  // ---------------------------------------------------------------------

  /** Day(t) of ECMA-262. */
  function Day(t: int): int {
    t / 86400000
  }

  /** TimeWithinDay(t) of ECMA-262. */
  function TimeWithinDay(t: int): int {
    t % 86400000
  }

  /** MakeDate of ECMA-262. */
  function MakeDate(day: int, time: int): int {
    86400000 * day + time
  }

  /** A time value is its day and its time within that day. */
  lemma TimeDecomposition(t: int)
    ensures t == MakeDate(Day(t), TimeWithinDay(t))
    ensures 0 <= TimeWithinDay(t) < MsPerDay
  {
  }

  lemma DayOfMakeDate(day: int, t: int)
    ensures Day(MakeDate(day, TimeWithinDay(t))) == day
    ensures TimeWithinDay(MakeDate(day, TimeWithinDay(t))) == TimeWithinDay(t)
  {
    var time := TimeWithinDay(t);
    assert 0 <= time < 86400000;
  }

  /** The calendar date of time value `t`: what `getFullYear`, `getMonth`
      and `getDate` return. */
  function DateOf(t: int): (c: CivilDate)
    ensures ValidCivil(c)
    ensures MakeDay(c.year, c.month, c.date) == Day(t)
  {
    CivilFromDay(Day(t))
  }

  /** `d.setDate(date)`: same year, month and time of day. */
  function SetDate(t: int, date: int): int {
    var c := DateOf(t);
    MakeDate(MakeDay(c.year, c.month, date), TimeWithinDay(t))
  }

  /** `d.setMonth(month)`: same year, date and time of day. */
  function SetMonth(t: int, month: int): int {
    var c := DateOf(t);
    MakeDate(MakeDay(c.year, month, c.date), TimeWithinDay(t))
  }

  /** `d.setFullYear(year)`: same month, date and time of day. */
  function SetFullYear(t: int, year: int): int {
    var c := DateOf(t);
    MakeDate(MakeDay(year, c.month, c.date), TimeWithinDay(t))
  }

  /** `d.setDate(d.getDate() + n)` moves the time value by exactly `n`
      whole days, whatever month or year boundary it crosses. */
  function AddDays(t: int, n: int): (r: int)
    ensures r == t + 86400000 * n
  {
    var c := DateOf(t);
    assert MakeDay(c.year, c.month, c.date + n) == Day(t) + n;
    assert t == 86400000 * Day(t) + TimeWithinDay(t) by {
      TimeDecomposition(t);
    }
    SetDate(t, c.date + n)
  }

  /** `d.setMonth(d.getMonth() + k)`. */
  function AddMonths(t: int, k: int): int {
    var c := DateOf(t);
    SetMonth(t, c.month + k)
  }

  /** `d.setFullYear(d.getFullYear() + k)`. */
  function AddYears(t: int, k: int): int {
    var c := DateOf(t);
    SetFullYear(t, c.year + k)
  }

  lemma AddMonthsUnfold(t: int, k: int)
    ensures var c := DateOf(t);
      AddMonths(t, k) == MakeDate(MakeDay(c.year, c.month + k, c.date), TimeWithinDay(t))
  {
  }

  /** Moving `k >= 0` months on keeps the date offset and moves the first
      day of the month by 28 to 31 days per month. */
  lemma MakeDayMonthDistance(y: int, m: int, date: int, k: int, from: int, to: int)
    requires k >= 0
    requires from == MakeDay(y, m, date) && to == MakeDay(y, m + k, date)
    ensures from + 28 * k <= to <= from + 31 * k
  {
    var i := 12 * y + m;
    assert 12 * y + (m + k) == i + k;
    MonthStartDelta(i, k);
  }

  /** Adding `k >= 0` months keeps the time of day and moves the day by
      between 28 and 31 days per month: the date within the month is carried
      over unchanged, only the first day of the month moves. */
  lemma AddMonthsDistance(t: int, k: int)
    requires k >= 0
    ensures TimeWithinDay(AddMonths(t, k)) == TimeWithinDay(t)
    ensures Day(t) + 28 * k <= Day(AddMonths(t, k)) <= Day(t) + 31 * k
  {
    var c := DateOf(t);
    DayOfAddMonths(t, k);
    MakeDayMonthDistance(c.year, c.month, c.date, k, Day(t), MakeDay(c.year, c.month + k, c.date));
  }

  /** One month or more always moves the time value strictly forward. */
  lemma AddMonthsIsLater(t: int, k: int)
    requires k >= 1
    ensures AddMonths(t, k) > t
  {
    AddMonthsDistance(t, k);
    TimeDecomposition(t);
    TimeDecomposition(AddMonths(t, k));
  }

  /** `setFullYear(getFullYear() + k)` keeps month and date exactly as
      adding `12 * k` months does. */
  lemma MakeDayYearShift(y: int, k: int, m: int, d: int)
    ensures MakeDay(y + k, m, d) == MakeDay(y, m + 12 * k, d)
  {
    assert 12 * y + (m + 12 * k) == 12 * (y + k) + m;
  }

  /** `setFullYear(getFullYear() + k)` is the same as adding `12 * k`
      months: both keep month and date and let February 29 run on into
      March in a common year. */
  lemma AddYearsIsTwelveMonths(t: int, k: int)
    ensures AddYears(t, k) == AddMonths(t, 12 * k)
  {
    var c := DateOf(t);
    AddYearsUnfold(t, k);
    AddMonthsUnfold(t, 12 * k);
    MakeDayYearShift(c.year, k, c.month, c.date);
  }

  lemma AddYearsUnfold(t: int, k: int)
    ensures var c := DateOf(t);
      AddYears(t, k) == MakeDate(MakeDay(c.year + k, c.month, c.date), TimeWithinDay(t))
  {
  }

  /** The month count of the month `k` months after the month of `t`. */
  function TargetMonth(t: int, k: int): int {
    var c := DateOf(t);
    12 * c.year + (c.month + k)
  }

  /** MakeDay with an out-of-range month equals MakeDay with the month
      count split into a year and an in-range month. */
  lemma MakeDaySplit(y: int, m: int, date: int, i: int)
    requires i == 12 * y + m
    ensures 0 <= i % 12 < 12
    ensures MakeDay(y, m, date) == MakeDay(i / 12, i % 12, date)
  {
    assert 12 * (i / 12) + i % 12 == i;
  }

  /** A date past the end of its month is the same day as the surplus
      date in the month after. */
  lemma MakeDayCarry(y: int, m: int, date: int, j: int)
    requires 0 <= m < 12
    requires j == 12 * y + m + 1
    ensures 0 <= j % 12 < 12
    ensures MakeDay(y, m, date) == MakeDay(j / 12, j % 12, date - DaysInMonth(y, m))
  {
    var i := 12 * y + m;
    assert i / 12 == y && i % 12 == m;
    MonthStartStep(i);
    assert 12 * (j / 12) + j % 12 == j;
  }

  /** A date past the end of its month (by less than a month) decodes to
      the month after, with the surplus days as its date. */
  lemma CivilCarry(y: int, m: int, date: int, j: int)
    requires 0 <= m < 12
    requires DaysInMonth(y, m) < date <= 31
    requires j == 12 * y + m + 1
    ensures CivilFromDay(MakeDay(y, m, date)) == CivilDate(j / 12, j % 12, date - DaysInMonth(y, m))
  {
    var spill := date - DaysInMonth(y, m);
    var target := CivilDate(j / 12, j % 12, spill);
    var d := MakeDay(y, m, date);
    assert d == MakeDay(target.year, target.month, target.date) by {
      MakeDayCarry(y, m, date, j);
    }
    assert CivilFromDay(MakeDay(target.year, target.month, target.date)) == target by {
      MakeDayCarry(y, m, date, j);
      CivilFromMakeDay(target);
    }
  }

  /** The day `setMonth` lands on: the date of `t` counted from the first
      day of the target month, before any normalisation of the date. */
  lemma DayAfterMonths(t: int, k: int)
    ensures var i := TargetMonth(t, k);
      Day(AddMonths(t, k)) == MakeDay(i / 12, i % 12, DateOf(t).date)
  {
    var c := DateOf(t);
    DayOfAddMonths(t, k);
    MakeDaySplit(c.year, c.month + k, c.date, TargetMonth(t, k));
  }

  /** `setMonth` lands on the day MakeDay gives for the shifted month and
      keeps the time of day. */
  lemma DayOfAddMonths(t: int, k: int)
    ensures var c := DateOf(t);
      Day(AddMonths(t, k)) == MakeDay(c.year, c.month + k, c.date)
      && TimeWithinDay(AddMonths(t, k)) == TimeWithinDay(t)
  {
    var c := DateOf(t);
    AddMonthsUnfold(t, k);
    DayOfMakeDate(MakeDay(c.year, c.month + k, c.date), t);
  }

  /** The calendar date after adding `k` months when the date exists in the
      target month: same date, target month. */
  lemma AddMonthsKeepsDate(t: int, k: int)
    requires var i := TargetMonth(t, k);
      DateOf(t).date <= DaysInMonth(i / 12, i % 12)
    ensures var i := TargetMonth(t, k);
      DateOf(AddMonths(t, k)) == CivilDate(i / 12, i % 12, DateOf(t).date)
  {
    var i := TargetMonth(t, k);
    DayAfterMonths(t, k);
    CivilFromMakeDay(CivilDate(i / 12, i % 12, DateOf(t).date));
  }

  /** The calendar date after adding `k` months when the date does not exist
      in the target month: there is no end-of-month clamping, the surplus
      days run on into the month after the target. */
  lemma AddMonthsOverflows(t: int, k: int)
    requires var i := TargetMonth(t, k);
      DateOf(t).date > DaysInMonth(i / 12, i % 12)
    ensures var i := TargetMonth(t, k);
      DateOf(AddMonths(t, k))
        == CivilDate((i + 1) / 12, (i + 1) % 12, DateOf(t).date - DaysInMonth(i / 12, i % 12))
  {
    var i := TargetMonth(t, k);
    DayAfterMonths(t, k);
    assert i + 1 == 12 * (i / 12) + i % 12 + 1;
    CivilCarry(i / 12, i % 12, DateOf(t).date, i + 1);
  }

  /** February has 29 days in a leap year and 28 otherwise. */
  lemma FebruaryLength(y: int)
    ensures DaysInMonth(y, 1) == if IsLeapYear(y) then 29 else 28
  {
  }

  /** January 31 plus one month is March 3 in a common year and March 2 in
      a leap year, never the last day of February. */
  lemma JanuaryThirtyFirstPlusOneMonth(t: int)
    requires DateOf(t).month == 0 && DateOf(t).date == 31
    ensures var y := DateOf(t).year;
      DateOf(AddMonths(t, 1)) == CivilDate(y, 2, if IsLeapYear(y) then 2 else 3)
  {
    var y := DateOf(t).year;
    var i := TargetMonth(t, 1);
    assert i == 12 * y + 1;
    assert i / 12 == y && i % 12 == 1 && (i + 1) / 12 == y && (i + 1) % 12 == 2;
    FebruaryLength(y);
    AddMonthsOverflows(t, 1);
  }
}

=== FILE: carbon_accounting.dfy ===
/** Carbon accounting (`carbonAccounting` router): material records with
    their emissions, the per-project emission summary, and the compliance
    report with its recommendation rules. Quantities and emissions are
    exact rationals; printed values are the integers `toFixed` spells. */
module CarbonAccounting {
  import opened Wrappers
  import opened Tables
  import Rounding
  import opened Schema

  /** A row of `carbonAccounting`; emissions are in kg CO2e. */
  datatype MaterialRecord = MaterialRecord(
    id: int,
    userId: int,
    projectId: int,
    materialName: string,
    quantity: real,
    unit: string,
    carbonEmissionsPerUnit: real,
    totalCarbonEmissions: real,
    category: string,
    supplier: Option<string>,
    certificationLevel: Option<string>,
    notes: Option<string>)

  function Owns(id: int, user: int): MaterialRecord -> bool {
    (r: MaterialRecord) => r.id == id && r.userId == user
  }

  /** The caller's records of one project. */
  function OfProject(user: int, projectId: int): MaterialRecord -> bool {
    (r: MaterialRecord) => r.userId == user && r.projectId == projectId
  }

  function Emissions(r: MaterialRecord): real {
    r.totalCarbonEmissions
  }

  // ---------------------------------------------------------------------
  // Create and delete

  datatype NewRecord = NewRecord(
    projectId: int,
    materialName: string,
    quantity: real,
    unit: string,
    carbonEmissionsPerUnit: real,
    category: string,
    supplier: Option<string>,
    certificationLevel: Option<string>,
    notes: Option<string>)

  /** The input schema: a non-empty name, a positive quantity and an
      emission factor that is not negative. */
  predicate ValidNewRecord(input: NewRecord) {
    |input.materialName| >= 1 && input.quantity > 0.0 && input.carbonEmissionsPerUnit >= 0.0
  }

  /** `create`: the record is stored with its total emissions, the quantity
      times the emission factor. */
  function Create(records: seq<MaterialRecord>, caller: Caller, input: NewRecord, id: int): (r: Result<seq<MaterialRecord>>)
    ensures r == Err(InvalidInput) <==> !ValidNewRecord(input)
    ensures r == Err("Unauthorized") <==> ValidNewRecord(input) && RequireUser(caller).Err?
    ensures r.Ok? <==> ValidNewRecord(input) && RequireUser(caller).Ok?
    ensures r.Ok? ==> |r.value| == |records| + 1 && r.value[..|records|] == records
    ensures r.Ok? ==>
      var m := r.value[|records|];
      m.id == id && m.userId == caller.value && m.projectId == input.projectId
      && m.category == input.category && m.certificationLevel == input.certificationLevel
      && m.totalCarbonEmissions == input.quantity * input.carbonEmissionsPerUnit
      && m.totalCarbonEmissions >= 0.0
      && m.materialName == input.materialName && m.quantity == input.quantity && m.unit == input.unit
      && m.carbonEmissionsPerUnit == input.carbonEmissionsPerUnit
      && m.supplier == input.supplier && m.notes == input.notes
  {
    if !ValidNewRecord(input) then Err(InvalidInput)
    else
      var auth := RequireUser(caller);
      if auth.Err? then Err(auth.error)
      else
        var m := MaterialRecord(id, auth.value, input.projectId, input.materialName, input.quantity,
                                input.unit, input.carbonEmissionsPerUnit,
                                input.quantity * input.carbonEmissionsPerUnit, input.category,
                                input.supplier, input.certificationLevel, input.notes);
        Ok(records + [m])
  }

  /** `delete`: the caller's record `id` disappears, every other row stays. */
  function Delete(records: seq<MaterialRecord>, caller: Caller, id: int): (r: Result<seq<MaterialRecord>>)
    ensures r.Err? <==> RequireUser(caller).Err?
    ensures r.Ok? ==> forall j :: 0 <= j < |r.value| ==> !Owns(id, caller.value)(r.value[j])
    ensures r.Ok? ==> forall x :: x in records && !Owns(id, caller.value)(x) ==> x in r.value
    ensures r.Ok? ==> forall x :: x in r.value ==> x in records
    ensures r.Ok? ==> forall x :: multiset(r.value)[x]
                                  == if Owns(id, caller.value)(x) then 0 else multiset(records)[x]
  {
    var auth := RequireUser(caller);
    if auth.Err? then Err(auth.error)
    else
      forall x {
        DeleteWhereMultiplicity(records, Owns(id, auth.value), x);
      }
      Ok(DeleteWhere(records, Owns(id, auth.value)))
  }

  // ---------------------------------------------------------------------
  // Emissions by category

  /** `byCategory`: each category with the emissions of its records, in the
      order categories first appear. */
  type CategoryTotals = seq<(string, real)>

  function AddTo(t: CategoryTotals, c: string, v: real): CategoryTotals {
    if |t| == 0 then [(c, v)]
    else if t[0].0 == c then [(c, t[0].1 + v)] + t[1..]
    else [t[0]] + AddTo(t[1..], c, v)
  }

  /** The emissions reported for `k`; 0 when it is absent. */
  function Lookup(t: CategoryTotals, k: string): real {
    if |t| == 0 then 0.0 else if t[0].0 == k then t[0].1 else Lookup(t[1..], k)
  }

  function GrandTotal(t: CategoryTotals): real {
    if |t| == 0 then 0.0 else t[0].1 + GrandTotal(t[1..])
  }

  function ByCategory(records: seq<MaterialRecord>): CategoryTotals {
    if |records| == 0 then []
    else
      var last := records[|records| - 1];
      AddTo(ByCategory(records[..|records| - 1]), last.category, last.totalCarbonEmissions)
  }

  function Categories(records: seq<MaterialRecord>): seq<string> {
    Column(records, (r: MaterialRecord) => r.category)
  }

  function InCategory(k: string): MaterialRecord -> bool {
    (r: MaterialRecord) => r.category == k
  }

  lemma {:induction false} AddToLookup(t: CategoryTotals, c: string, v: real, k: string)
    ensures Lookup(AddTo(t, c, v), k) == Lookup(t, k) + (if k == c then v else 0.0)
    decreases |t|
  {
    if |t| > 0 && t[0].0 != c {
      AddToLookup(t[1..], c, v, k);
      assert AddTo(t, c, v)[1..] == AddTo(t[1..], c, v);
    }
  }

  lemma {:induction false} AddToTotal(t: CategoryTotals, c: string, v: real)
    ensures GrandTotal(AddTo(t, c, v)) == GrandTotal(t) + v
    decreases |t|
  {
    if |t| > 0 {
      if t[0].0 == c {
        assert AddTo(t, c, v)[1..] == t[1..];
      } else {
        AddToTotal(t[1..], c, v);
        assert AddTo(t, c, v)[1..] == AddTo(t[1..], c, v);
      }
    }
  }

  lemma {:induction false} AddToKeys(t: CategoryTotals, c: string, v: real)
    ensures Keys(AddTo(t, c, v)) == if c in Keys(t) then Keys(t) else Keys(t) + [c]
    decreases |t|
  {
    if |t| > 0 {
      var b := AddTo(t, c, v);
      if t[0].0 == c {
        assert b[1..] == t[1..];
      } else {
        AddToKeys(t[1..], c, v);
        assert b[1..] == AddTo(t[1..], c, v);
      }
    }
  }

  /** The value reported for a category is the total of its records. */
  lemma {:induction false} ByCategoryValue(records: seq<MaterialRecord>, k: string)
    ensures Lookup(ByCategory(records), k) == SumReal(Filter(records, InCategory(k)), Emissions)
    decreases |records|
  {
    if |records| > 0 {
      var prefix := records[..|records| - 1];
      var last := records[|records| - 1];
      ByCategoryValue(prefix, k);
      AddToLookup(ByCategory(prefix), last.category, last.totalCarbonEmissions, k);
      assert records == prefix + [last];
      FilterAppend(prefix, [last], InCategory(k));
      SumRealAppend(Filter(prefix, InCategory(k)), Filter([last], InCategory(k)), Emissions);
    }
  }

  /** The category values add up to the total emissions. */
  lemma {:induction false} ByCategoryTotal(records: seq<MaterialRecord>)
    ensures GrandTotal(ByCategory(records)) == SumReal(records, Emissions)
    decreases |records|
  {
    if |records| > 0 {
      var prefix := records[..|records| - 1];
      var last := records[|records| - 1];
      ByCategoryTotal(prefix);
      AddToTotal(ByCategory(prefix), last.category, last.totalCarbonEmissions);
      assert records == prefix + [last];
      SumRealAppend(prefix, [last], Emissions);
    }
  }

  /** Each category appears once, in order of first appearance. */
  lemma {:induction false} ByCategoryKeys(records: seq<MaterialRecord>)
    ensures Keys(ByCategory(records)) == FirstOccurrences(Categories(records))
    decreases |records|
  {
    if |records| > 0 {
      var prefix := records[..|records| - 1];
      var last := records[|records| - 1];
      ByCategoryKeys(prefix);
      AddToKeys(ByCategory(prefix), last.category, last.totalCarbonEmissions);
      assert Categories(records)[..|records| - 1] == Categories(prefix);
    }
  }

  // ---------------------------------------------------------------------
  // Project summary

  /** The project summary: total emissions to two decimals (in hundredths),
      the record count, and the emissions by category. */
  datatype ProjectSummary = ProjectSummary(
    totalEmissions: int,
    recordCount: nat,
    byCategory: CategoryTotals,
    records: seq<MaterialRecord>)

  function Summarize(records: seq<MaterialRecord>): (s: ProjectSummary)
    ensures s.recordCount == |s.records| && s.records == records
    ensures GrandTotal(s.byCategory) == SumReal(records, Emissions)
    ensures NoDuplicates(Keys(s.byCategory))
    ensures Keys(s.byCategory) == FirstOccurrences(Categories(records))
    ensures forall k :: Lookup(s.byCategory, k) == SumReal(Filter(records, InCategory(k)), Emissions)
    ensures s.totalEmissions == Rounding.ToFixed(SumReal(records, Emissions), 2)
  {
    ByCategoryTotal(records);
    ByCategoryKeys(records);
    forall k {
      ByCategoryValue(records, k);
    }
    FirstOccurrencesDistinct(Categories(records));
    ProjectSummary(Rounding.ToFixed(SumReal(records, Emissions), 2), |records|, ByCategory(records), records)
  }

  /** `getProjectCarbonSummary`: the summary of the caller's records of the
      project. */
  function GetProjectCarbonSummary(records: seq<MaterialRecord>, caller: Caller, projectId: int): (r: Result<ProjectSummary>)
    ensures r.Err? <==> RequireUser(caller).Err?
    ensures r.Ok? ==> r.value == Summarize(Filter(records, OfProject(caller.value, projectId)))
  {
    var auth := RequireUser(caller);
    if auth.Err? then Err(auth.error)
    else Ok(Summarize(Filter(records, OfProject(auth.value, projectId))))
  }

  /** With every record's emissions not negative, the total is not negative
      either. */
  lemma SummaryTotalNonNegative(records: seq<MaterialRecord>)
    requires forall i :: 0 <= i < |records| ==> records[i].totalCarbonEmissions >= 0.0
    ensures Summarize(records).totalEmissions >= 0
  {
    SumRealNonNegative(records, Emissions);
  }

  // ---------------------------------------------------------------------
  // Compliance report

  /** `r.certificationLevel` is truthy: present and not empty. */
  function Certified(r: MaterialRecord): bool {
    r.certificationLevel.Some? && r.certificationLevel.value != ""
  }

  /** The share of certified records in percent; 0 when none is certified,
      so an empty project never divides by zero. */
  function ComplianceScore(certified: nat, total: nat): (score: real)
    requires certified <= total
    ensures 0.0 <= score <= 100.0
    ensures certified == 0 ==> score == 0.0
    ensures certified > 0 ==> score * total as real == certified as real * 100.0
  {
    if certified > 0 then
      Rounding.PercentInRange(certified, total);
      certified as real / total as real * 100.0
    else 0.0
  }

  /** A fully certified project scores 100. */
  lemma FullyCertifiedScore(n: nat)
    requires n > 0
    ensures ComplianceScore(n, n) == 100.0
  {
  }

  const SourcingAdvice := "Consider sourcing more certified sustainable materials to improve ESG compliance."
  const OffsetAdvice := "Your project's carbon footprint is significant. Explore carbon offset options."
  const ExcellenceNote := "Excellent ESG compliance! Your project qualifies for premium sustainable certifications."

  /** `generateRecommendations`: sourcing advice below a score of 50, offset
      advice above 100 kg CO2e, and the excellence note from a score of 80,
      in that order. The first and the last exclude each other, so there
      are never more than two. */
  function Recommendations(score: real, emissions: real): (r: seq<string>)
    ensures |r| <= 2
    ensures forall i :: 0 <= i < |r| ==>
      r[i] == SourcingAdvice || r[i] == OffsetAdvice || r[i] == ExcellenceNote
    ensures SourcingAdvice in r <==> score < 50.0
    ensures OffsetAdvice in r <==> emissions > 100.0
    ensures ExcellenceNote in r <==> score >= 80.0
    ensures SourcingAdvice in r ==> r[0] == SourcingAdvice
    ensures ExcellenceNote in r ==> r[|r| - 1] == ExcellenceNote
    ensures NoDuplicates(r)
  {
    (if score < 50.0 then [SourcingAdvice] else [])
    + (if emissions > 100.0 then [OffsetAdvice] else [])
    + (if score >= 80.0 then [ExcellenceNote] else [])
  }

  /** The compliance report; the emissions are in hundredths and the score
      in tenths, as `toFixed` prints them. */
  datatype Report = Report(
    projectName: string,
    totalMaterials: nat,
    totalCarbonEmissions: int,
    certifiedMaterials: nat,
    complianceScore: int,
    recommendations: seq<string>)

  function ProjectWithId(projectId: int): Project -> bool {
    (p: Project) => p.id == projectId
  }

  /** The name shown in the report: that of the project with the id, whoever
      owns it, or "Unknown" when there is none or its name is empty. */
  function ProjectName(projects: seq<Project>, projectId: int): (name: string)
    ensures First(projects, ProjectWithId(projectId)).None? ==> name == "Unknown"
    ensures First(projects, ProjectWithId(projectId)).Some? ==>
      name == StringOr(Some(First(projects, ProjectWithId(projectId)).value.name), "Unknown")
  {
    var project := First(projects, ProjectWithId(projectId));
    if project.Some? then StringOr(Some(project.value.name), "Unknown") else "Unknown"
  }

  /** The report over one project's records. The recommendations use the
      unrounded score and emissions. */
  function BuildReport(name: string, mine: seq<MaterialRecord>): (rep: Report)
    ensures rep.projectName == name
    ensures rep.totalMaterials == |mine|
    ensures rep.certifiedMaterials == Count(mine, Certified) <= rep.totalMaterials
    ensures 0 <= rep.complianceScore <= 1000
    ensures rep.totalCarbonEmissions == Rounding.ToFixed(SumReal(mine, Emissions), 2)
    ensures rep.complianceScore == Rounding.ToFixed(ComplianceScore(Count(mine, Certified), |mine|), 1)
    ensures rep.recommendations
            == Recommendations(ComplianceScore(Count(mine, Certified), |mine|), SumReal(mine, Emissions))
    ensures Count(mine, Certified) == 0 ==> rep.complianceScore == 0 && SourcingAdvice in rep.recommendations
  {
    var emissions := SumReal(mine, Emissions);
    var certified := Count(mine, Certified);
    var score := ComplianceScore(certified, |mine|);
    Rounding.RoundHalfAwayWithin(score * 10.0, 0, 1000);
    Report(name, |mine|, Rounding.ToFixed(emissions, 2), certified,
           Rounding.ToFixed(score, 1), Recommendations(score, emissions))
  }

  /** `getComplianceReport`: the report over the caller's records of the
      project. */
  function GetComplianceReport(records: seq<MaterialRecord>, projects: seq<Project>, caller: Caller, projectId: int): (r: Result<Report>)
    ensures r.Err? <==> RequireUser(caller).Err?
    ensures r.Ok? ==>
      r.value == BuildReport(ProjectName(projects, projectId), Filter(records, OfProject(caller.value, projectId)))
  {
    var auth := RequireUser(caller);
    if auth.Err? then Err(auth.error)
    else Ok(BuildReport(ProjectName(projects, projectId), Filter(records, OfProject(auth.value, projectId))))
  }

  /** The report names any user's project: the lookup does not check the
      project's owner. */
  lemma ReportNamesForeignProject()
    ensures GetComplianceReport([], [Project(4, 99, "Harbour Tower")], Some(7), 4).value.projectName
            == "Harbour Tower"
  {
  }
}

=== FILE: client_portal.dfy ===
/** Client portal (`clientPortal` router): shareable access links a
    contractor hands to a client, read by token without a login, and the
    contractor's controls over them. The random token and the clock are
    inputs. */
module ClientPortal {
  import opened Wrappers
  import opened Tables
  import opened Schema
  import Rounding

  datatype AccessLevel = ViewOnly | ApproveChanges | MakePayments

  /** A row of `clientPortalAccess`; times are milliseconds since the epoch. */
  datatype Access = Access(
    id: int,
    userId: int,
    clientId: int,
    projectId: int,
    portalUrl: string,
    accessToken: string,
    accessLevel: AccessLevel,
    isActive: bool,
    expiryDate: Option<int>,
    lastAccessedAt: Option<int>)

  const MillisPerDay := 24 * 60 * 60 * 1000
  const PortalPrefix := "https://portal.contractorpro.app/"
  const InvalidAccess := "Invalid or expired portal access"
  const ExpiredAccess := "Portal access has expired"
  /** The unique index on `accessToken` rejecting a second row with the same
      token; the driver's own wording is not modelled. */
  const DuplicateToken := "Duplicate entry for accessToken"

  function HasToken(token: string): Access -> bool {
    (a: Access) => a.accessToken == token
  }

  function HasId(id: int): Access -> bool {
    (a: Access) => a.id == id
  }

  function Owns(id: int, user: int): Access -> bool {
    (a: Access) => a.id == id && a.userId == user
  }

  /** The table invariant the unique index keeps: no token twice. */
  predicate UniqueTokens(table: seq<Access>) {
    forall i, j :: 0 <= i < j < |table| ==> table[i].accessToken != table[j].accessToken
  }

  // ---------------------------------------------------------------------
  // Creating a link

  datatype NewAccess = NewAccess(
    clientId: int,
    projectId: int,
    accessLevel: AccessLevel,
    expiryDays: Option<real>)

  /** The expiry of a link made at `now`: `expiryDays` days later, or never
      when the field is absent or 0. The days may be fractional; `new Date`
      drops the fraction of a millisecond towards zero. */
  function ExpiryOf(now: int, expiryDays: Option<real>): (e: Option<int>)
    ensures e.None? <==> expiryDays.None? || expiryDays.value == 0.0
    ensures e.Some? ==>
      var exact := now as real + expiryDays.value * MillisPerDay as real;
      (exact >= 0.0 ==> e.value as real <= exact < e.value as real + 1.0)
      && (exact < 0.0 ==> e.value as real - 1.0 < exact <= e.value as real)
    ensures e.Some? && expiryDays.value > 0.0 ==> e.value >= now
    ensures e.Some? && expiryDays.value * MillisPerDay as real >= 1.0 ==> e.value > now
  {
    if expiryDays.Some? && expiryDays.value != 0.0 then
      Some(Rounding.Truncate(now as real + expiryDays.value * MillisPerDay as real))
    else None
  }

  /** A whole number of days moves the expiry by exactly that many days. */
  lemma WholeDaysExpiry(now: int, days: int)
    requires days != 0
    ensures ExpiryOf(now, Some(days as real)) == Some(now + days * MillisPerDay)
  {
    assert now as real + (days as real) * MillisPerDay as real == (now + days * MillisPerDay) as real;
    Rounding.TruncateOfInt(now + days * MillisPerDay);
  }

  /** Half a day is twelve hours. */
  lemma HalfDayExpiry(now: int)
    ensures ExpiryOf(now, Some(0.5)) == Some(now + 12 * 60 * 60 * 1000)
  {
    assert now as real + 0.5 * MillisPerDay as real == (now + 12 * 60 * 60 * 1000) as real;
    Rounding.TruncateOfInt(now + 12 * 60 * 60 * 1000);
  }

  /** What `createPortalAccess` hands back to the contractor. */
  datatype Created = Created(portalUrl: string, accessToken: string)

  /** `createPortalAccess`: a new active link whose URL is the portal prefix
      followed by the token. */
  function CreatePortalAccess(table: seq<Access>, caller: Caller, input: NewAccess, now: int, token: string, id: int)
    : (r: Result<(seq<Access>, Created)>)
    ensures r == Err("Unauthorized") <==> RequireUser(caller).Err?
    ensures r == Err(DuplicateToken) <==> RequireUser(caller).Ok? && exists i :: 0 <= i < |table| && table[i].accessToken == token
    ensures r.Ok? <==> RequireUser(caller).Ok? && forall i :: 0 <= i < |table| ==> table[i].accessToken != token
    ensures r.Ok? ==> r.value.1 == Created(PortalPrefix + token, token)
    ensures r.Ok? ==> |r.value.0| == |table| + 1 && r.value.0[..|table|] == table
    ensures r.Ok? ==>
      var a := r.value.0[|table|];
      a.id == id && a.userId == caller.value && a.clientId == input.clientId && a.projectId == input.projectId
      && a.portalUrl == PortalPrefix + token && a.accessToken == token && a.accessLevel == input.accessLevel
      && a.isActive && a.expiryDate == ExpiryOf(now, input.expiryDays) && a.lastAccessedAt.None?
  {
    var auth := RequireUser(caller);
    if auth.Err? then Err(auth.error)
    else if exists i :: 0 <= i < |table| && table[i].accessToken == token then Err(DuplicateToken)
    else
      var url := PortalPrefix + token;
      var a := Access(id, auth.value, input.clientId, input.projectId, url, token, input.accessLevel,
                      true, ExpiryOf(now, input.expiryDays), None);
      Ok((table + [a], Created(url, token)))
  }

  /** Creating a link keeps every token unique. */
  lemma CreateKeepsTokensUnique(table: seq<Access>, caller: Caller, input: NewAccess, now: int, token: string, id: int)
    requires UniqueTokens(table)
    requires CreatePortalAccess(table, caller, input, now, token, id).Ok?
    ensures UniqueTokens(CreatePortalAccess(table, caller, input, now, token, id).value.0)
  {
  }

  // ---------------------------------------------------------------------
  // Reading a link

  /** Which actions the client may take: exactly one flag is set. */
  datatype Permissions = Permissions(canViewOnly: bool, canApproveChanges: bool, canMakePayments: bool)

  function PermissionsOf(level: AccessLevel): (p: Permissions)
    ensures p.canViewOnly <==> level == ViewOnly
    ensures p.canApproveChanges <==> level == ApproveChanges
    ensures p.canMakePayments <==> level == MakePayments
    ensures (if p.canViewOnly then 1 else 0) + (if p.canApproveChanges then 1 else 0)
            + (if p.canMakePayments then 1 else 0) == 1
  {
    Permissions(level == ViewOnly, level == ApproveChanges, level == MakePayments)
  }

  /** The access level the flags spell; the inverse of `PermissionsOf`. */
  function LevelOf(p: Permissions): AccessLevel {
    if p.canViewOnly then ViewOnly else if p.canApproveChanges then ApproveChanges else MakePayments
  }

  lemma PermissionsRoundTrip(level: AccessLevel)
    ensures LevelOf(PermissionsOf(level)) == level
  {
  }

  /** What the client sees. */
  datatype PortalData = PortalData(
    project: Option<Project>,
    invoices: seq<Invoice>,
    accessLevel: AccessLevel,
    permissions: Permissions)

  /** A link has expired when its expiry lies strictly before `now`. */
  predicate Expired(a: Access, now: int) {
    a.expiryDate.Some? && a.expiryDate.value < now
  }

  /** Row `i` is the row the token selects, and it may be read at `now`. */
  ghost predicate Readable(table: seq<Access>, token: string, now: int, i: int) {
    FirstAt(table, HasToken(token), i) && table[i].isActive && !Expired(table[i], now)
  }

  function ProjectWithId(id: int): Project -> bool {
    (p: Project) => p.id == id
  }

  function OfProject(projectId: int): Invoice -> bool {
    (inv: Invoice) => inv.projectId == Some(projectId)
  }

  function Touch(now: int): Access -> Access {
    (a: Access) => a.(lastAccessedAt := Some(now))
  }

  /** The portal page of a readable link. */
  function PortalView(a: Access, projects: seq<Project>, invoices: seq<Invoice>): (d: PortalData)
    ensures d.accessLevel == a.accessLevel && LevelOf(d.permissions) == a.accessLevel
    ensures d.project.Some? ==> d.project.value in projects && d.project.value.id == a.projectId
    ensures d.project.None? ==> forall i :: 0 <= i < |projects| ==> projects[i].id != a.projectId
    ensures forall i :: 0 <= i < |d.invoices| ==> d.invoices[i] in invoices && d.invoices[i].projectId == Some(a.projectId)
    ensures |d.invoices| == Count(invoices, OfProject(a.projectId))
    ensures forall inv :: inv in invoices && inv.projectId == Some(a.projectId) ==> inv in d.invoices
    ensures forall inv :: multiset(d.invoices)[inv]
                          == if inv.projectId == Some(a.projectId) then multiset(invoices)[inv] else 0
  {
    forall inv {
      FilterMultiplicity(invoices, OfProject(a.projectId), inv);
    }
    PortalData(First(projects, ProjectWithId(a.projectId)), Filter(invoices, OfProject(a.projectId)),
               a.accessLevel, PermissionsOf(a.accessLevel))
  }

  /** `getPortalData`: no login is needed, the token alone grants access. A
      successful read records `now` as the link's last access. */
  function GetPortalData(table: seq<Access>, projects: seq<Project>, invoices: seq<Invoice>, token: string, now: int)
    : (r: Result<(seq<Access>, PortalData)>)
    ensures r == Err(InvalidAccess) <==> forall i :: FirstAt(table, HasToken(token), i) ==> !table[i].isActive
    ensures r == Err(ExpiredAccess) <==>
      exists i :: FirstAt(table, HasToken(token), i) && table[i].isActive && Expired(table[i], now)
    ensures r.Ok? <==> exists i :: Readable(table, token, now, i)
    ensures r.Ok? ==> exists i :: (Readable(table, token, now, i)
      && r.value.0 == UpdateWhere(table, HasId(table[i].id), Touch(now))
      && r.value.1 == PortalView(table[i], projects, invoices))
  {
    var access := First(table, HasToken(token));
    if access.None? || !access.value.isActive then
      FirstOnly(table, HasToken(token), access);
      assert forall i :: !Readable(table, token, now, i);
      Err(InvalidAccess)
    else if Expired(access.value, now) then
      FirstOnly(table, HasToken(token), access);
      assert forall i :: !Readable(table, token, now, i);
      Err(ExpiredAccess)
    else
      FirstOnly(table, HasToken(token), access);
      ghost var i :| FirstAt(table, HasToken(token), i) && table[i] == access.value;
      assert Readable(table, token, now, i);
      Ok((UpdateWhere(table, HasId(access.value.id), Touch(now)), PortalView(access.value, projects, invoices)))
  }

  /** Whichever row `First` returns is the one row that is first. */
  lemma FirstOnly(table: seq<Access>, p: Access -> bool, access: Option<Access>)
    requires access == First(table, p)
    ensures access.None? ==> forall i :: !FirstAt(table, p, i)
    ensures access.Some? ==> exists i :: (FirstAt(table, p, i) && table[i] == access.value
      && forall k :: FirstAt(table, p, k) ==> k == i)
  {
    if access.Some? {
      var i :| FirstAt(table, p, i) && table[i] == access.value;
      FirstIsOnly(table, p, i);
    }
  }

  /** A read changes nothing but the last-access time of the link's row. */
  lemma ReadTouchesOnlyLastAccess(table: seq<Access>, projects: seq<Project>, invoices: seq<Invoice>, token: string, now: int, j: int)
    requires GetPortalData(table, projects, invoices, token, now).Ok?
    requires 0 <= j < |table|
    ensures var after := GetPortalData(table, projects, invoices, token, now).value.0;
      |after| == |table| && after[j].(lastAccessedAt := table[j].lastAccessedAt) == table[j]
  {
  }

  /** An expiry equal to `now` still reads. */
  lemma ExpiryInstantStillValid(a: Access, now: int)
    requires a.expiryDate == Some(now)
    ensures !Expired(a, now)
  {
  }

  /** A link just created reads at the same instant, unless it was created
      with a negative number of days. */
  lemma CreatedLinkReads(table: seq<Access>, projects: seq<Project>, invoices: seq<Invoice>, caller: Caller, input: NewAccess, now: int, token: string, id: int)
    requires CreatePortalAccess(table, caller, input, now, token, id).Ok?
    requires input.expiryDays.None? || input.expiryDays.value >= 0.0
    ensures GetPortalData(CreatePortalAccess(table, caller, input, now, token, id).value.0, projects, invoices, token, now).Ok?
  {
    var after := CreatePortalAccess(table, caller, input, now, token, id).value.0;
    assert FirstAt(after, HasToken(token), |table|);
    FirstIsOnly(after, HasToken(token), |table|);
  }

  // ---------------------------------------------------------------------
  // Contractor controls

  function Deactivate(a: Access): Access {
    a.(isActive := false)
  }

  /** `revokeAccess`: the caller's row with that id becomes inactive; any
      other row, including another user's row with that id, is unchanged. */
  function RevokeAccess(table: seq<Access>, caller: Caller, id: int): (r: Result<seq<Access>>)
    ensures r.Err? <==> RequireUser(caller).Err?
    ensures r.Ok? ==> |r.value| == |table|
    ensures r.Ok? ==> forall j :: 0 <= j < |table| ==>
      r.value[j] == if table[j].id == id && table[j].userId == caller.value then table[j].(isActive := false) else table[j]
  {
    var auth := RequireUser(caller);
    if auth.Err? then Err(auth.error)
    else Ok(UpdateWhere(table, Owns(id, auth.value), Deactivate))
  }

  /** After its owner revokes it, a link no longer reads. */
  lemma RevokedLinkFails(table: seq<Access>, projects: seq<Project>, invoices: seq<Invoice>, user: int, j: int, now: int)
    requires UniqueTokens(table)
    requires user != 0 && 0 <= j < |table| && table[j].userId == user
    ensures var revoked := RevokeAccess(table, Some(user), table[j].id).value;
      GetPortalData(revoked, projects, invoices, table[j].accessToken, now) == Err(InvalidAccess)
  {
    var revoked := RevokeAccess(table, Some(user), table[j].id).value;
    var token := table[j].accessToken;
    assert FirstAt(revoked, HasToken(token), j);
    FirstIsOnly(revoked, HasToken(token), j);
  }

  function SetLevel(level: AccessLevel): Access -> Access {
    (a: Access) => a.(accessLevel := level)
  }

  /** `updateAccessLevel`: only the caller's row with that id changes, and
      only its level. */
  function UpdateAccessLevel(table: seq<Access>, caller: Caller, id: int, level: AccessLevel): (r: Result<seq<Access>>)
    ensures r.Err? <==> RequireUser(caller).Err?
    ensures r.Ok? ==> |r.value| == |table|
    ensures r.Ok? ==> forall j :: 0 <= j < |table| ==>
      r.value[j] == if table[j].id == id && table[j].userId == caller.value then table[j].(accessLevel := level) else table[j]
  {
    var auth := RequireUser(caller);
    if auth.Err? then Err(auth.error)
    else Ok(UpdateWhere(table, Owns(id, auth.value), SetLevel(level)))
  }

  /** After a level change the portal shows the new level's permissions. */
  lemma UpdatedLevelShown(table: seq<Access>, projects: seq<Project>, invoices: seq<Invoice>, user: int, j: int, level: AccessLevel, now: int)
    requires UniqueTokens(table)
    requires user != 0 && 0 <= j < |table| && table[j].userId == user
    requires table[j].isActive && !Expired(table[j], now)
    ensures var updated := UpdateAccessLevel(table, Some(user), table[j].id, level).value;
      var read := GetPortalData(updated, projects, invoices, table[j].accessToken, now);
      read.Ok? && read.value.1.permissions == PermissionsOf(level)
  {
    var updated := UpdateAccessLevel(table, Some(user), table[j].id, level).value;
    var token := table[j].accessToken;
    assert FirstAt(updated, HasToken(token), j);
    FirstIsOnly(updated, HasToken(token), j);
  }

  // ---------------------------------------------------------------------
  // Invoice details

  function Matches(invoiceId: int, clientId: int): Invoice -> bool {
    (inv: Invoice) => inv.id == invoiceId && inv.clientId == clientId
  }

  /** `getInvoiceDetails`: the invoice with that id, provided it belongs to
      that client; nothing otherwise. */
  function GetInvoiceDetails(invoices: seq<Invoice>, invoiceId: int, clientId: int): (r: Option<Invoice>)
    ensures r.Some? ==> r.value in invoices && r.value.id == invoiceId && r.value.clientId == clientId
    ensures r.None? <==> forall i :: 0 <= i < |invoices| ==> !(invoices[i].id == invoiceId && invoices[i].clientId == clientId)
  {
    First(invoices, Matches(invoiceId, clientId))
  }

  /** Guessing an invoice id gives nothing to another client. */
  lemma OtherClientSeesNothing(invoices: seq<Invoice>, j: int, clientId: int)
    requires 0 <= j < |invoices| && invoices[j].clientId != clientId
    requires forall i :: 0 <= i < |invoices| && i != j ==> invoices[i].id != invoices[j].id
    ensures GetInvoiceDetails(invoices, invoices[j].id, clientId).None?
  {
  }
}

=== FILE: decimal.dfy ===
/** Decimal digit strings: how a whole number is written out (`String(n)`
    for an integer of JavaScript) and the value a string of digits spells. */
module Decimal {

  predicate IsDigit(c: char) {
    '0' <= c <= '9'
  }

  predicate AllDigits(s: string) {
    forall i :: 0 <= i < |s| ==> IsDigit(s[i])
  }

  function DigitChar(d: int): (c: char)
    requires 0 <= d < 10
    ensures IsDigit(c)
  {
    ('0' as int + d) as char
  }

  function DigitValue(c: char): (d: int)
    requires IsDigit(c)
    ensures 0 <= d < 10
  {
    c as int - '0' as int
  }

  lemma DigitRoundTrip(d: int)
    requires 0 <= d < 10
    ensures DigitValue(DigitChar(d)) == d
  {
  }

  /** The number a string of decimal digits spells, most significant digit
      first; the empty string spells 0. */
  function DigitsValue(s: string): (n: nat)
    requires AllDigits(s)
  {
    if |s| == 0 then 0 else 10 * DigitsValue(s[..|s| - 1]) + DigitValue(s[|s| - 1])
  }

  /** The shortest decimal spelling of `n`, without leading zeros. */
  function NatToString(n: nat): (s: string)
    ensures |s| >= 1 && AllDigits(s)
    ensures |s| > 1 ==> s[0] != '0'
  {
    if n < 10 then [DigitChar(n)] else NatToString(n / 10) + [DigitChar(n % 10)]
  }

  /** Reading back the spelling of `n` gives `n`. */
  lemma {:induction false} NatToStringValue(n: nat)
    ensures DigitsValue(NatToString(n)) == n
  {
    var s := NatToString(n);
    if n >= 10 {
      NatToStringValue(n / 10);
      assert s[..|s| - 1] == NatToString(n / 10);
      DigitRoundTrip(n % 10);
    } else {
      DigitRoundTrip(n);
    }
  }

  /** Digit strings and their values split at the last digit. */
  lemma DigitsValueAppend(s: string, c: char)
    requires AllDigits(s) && IsDigit(c)
    ensures AllDigits(s + [c])
    ensures DigitsValue(s + [c]) == 10 * DigitsValue(s) + DigitValue(c)
  {
    assert (s + [c])[..|s + [c]| - 1] == s;
  }

  /** The decimal spelling of an integer: a minus sign before the digits of
      a negative one. */
  function IntToString(n: int): (s: string)
    ensures |s| >= 1
    ensures n < 0 <==> s[0] == '-'
  {
    if n < 0 then "-" + NatToString(-n) else NatToString(n)
  }

  /** Different numbers are spelled differently. */
  lemma NatToStringInjective(a: nat, b: nat)
    ensures NatToString(a) == NatToString(b) <==> a == b
  {
    NatToStringValue(a);
    NatToStringValue(b);
  }

  /** Different integers are spelled differently: the sign tells negative
      from non-negative, and the digits tell the magnitudes apart. */
  lemma IntToStringInjective(a: int, b: int)
    ensures IntToString(a) == IntToString(b) <==> a == b
  {
    if IntToString(a) == IntToString(b) && a < 0 && b < 0 {
      assert NatToString(-a) == IntToString(a)[1..];
      assert NatToString(-b) == IntToString(b)[1..];
      NatToStringInjective(-a, -b);
    } else if a >= 0 && b >= 0 {
      NatToStringInjective(a, b);
    }
  }
}

=== FILE: financial_integration.dfy ===
/** Financial integrations (`financialIntegration` router): the accounting
    providers' connection state, the log of sync runs and its statistics,
    and disconnecting a provider. No provider is ever contacted: the
    router only reads and writes its own log. */
module FinancialIntegration {
  import opened Wrappers
  import opened Tables
  import Rounding
  import opened Schema

  datatype Provider = QuickBooks | Xero | Stripe

  datatype SyncType = InvoiceSync | ExpenseSync | PaymentSync | FullSync

  datatype SyncStatus = Pending | Success | Failed | Partial

  /** A row of `financialIntegrationLogs`; `createdAt` in milliseconds. */
  datatype Log = Log(
    id: int,
    userId: int,
    provider: Provider,
    syncType: SyncType,
    status: SyncStatus,
    recordType: Option<string>,
    createdAt: int)

  function OfUser(user: int): Log -> bool {
    (l: Log) => l.userId == user
  }

  /** The provider's name as the API spells it. */
  function ProviderName(p: Provider): string {
    match p
    case QuickBooks => "quickbooks"
    case Xero => "xero"
    case Stripe => "stripe"
  }

  // ---------------------------------------------------------------------
  // Connection status

  datatype ProviderState = ProviderState(connected: bool, lastSync: Option<int>, status: string)

  datatype ConnectionStatus = ConnectionStatus(quickbooks: ProviderState, xero: ProviderState, stripe: ProviderState)

  const Disconnected := ProviderState(false, None, "disconnected")

  /** `getConnectionStatus`: the caller's business settings are read but
      not used, so every provider is reported disconnected. */
  function GetConnectionStatus<S>(settings: seq<S>, caller: Caller): (r: Result<ConnectionStatus>)
    ensures r.Err? <==> RequireUser(caller).Err?
    ensures r.Ok? ==> r.value.quickbooks == r.value.xero == r.value.stripe == Disconnected
    ensures r.Ok? ==> !r.value.quickbooks.connected && r.value.quickbooks.lastSync.None?
  {
    var auth := RequireUser(caller);
    if auth.Err? then Err(auth.error)
    else Ok(ConnectionStatus(Disconnected, Disconnected, Disconnected))
  }

  /** The report does not depend on the settings. */
  lemma ConnectionStatusIgnoresSettings<S>(a: seq<S>, b: seq<S>, caller: Caller)
    ensures GetConnectionStatus(a, caller) == GetConnectionStatus(b, caller)
  {
  }

  // ---------------------------------------------------------------------
  // Newest first

  /** `ORDER BY createdAt DESC`. */
  predicate NewestFirst(s: seq<Log>) {
    forall i, j :: 0 <= i < j < |s| ==> s[i].createdAt >= s[j].createdAt
  }

  /** Places `x` before the first row that is not newer than it. */
  function InsertByTime(x: Log, s: seq<Log>): seq<Log> {
    if |s| == 0 || x.createdAt >= s[0].createdAt then [x] + s
    else [s[0]] + InsertByTime(x, s[1..])
  }

  /** Sorts newest first; rows with equal times keep their table order. */
  function SortNewestFirst(s: seq<Log>): seq<Log> {
    if |s| == 0 then [] else InsertByTime(s[0], SortNewestFirst(s[1..]))
  }

  lemma {:induction false} InsertByTimeKeepsRows(x: Log, s: seq<Log>)
    ensures multiset(InsertByTime(x, s)) == multiset(s) + multiset{x}
    ensures |InsertByTime(x, s)| == |s| + 1
    decreases |s|
  {
    if |s| > 0 && x.createdAt < s[0].createdAt {
      InsertByTimeKeepsRows(x, s[1..]);
      assert s == [s[0]] + s[1..];
    }
  }

  /** Inserting a row no newer than `t` among rows no newer than `t`. */
  lemma {:induction false} InsertByTimeBelow(x: Log, s: seq<Log>, t: int)
    requires x.createdAt <= t
    requires forall k :: 0 <= k < |s| ==> s[k].createdAt <= t
    ensures forall k :: 0 <= k < |InsertByTime(x, s)| ==> InsertByTime(x, s)[k].createdAt <= t
    decreases |s|
  {
    if |s| > 0 && x.createdAt < s[0].createdAt {
      InsertByTimeBelow(x, s[1..], t);
    }
  }

  lemma {:induction false} InsertByTimeKeepsOrder(x: Log, s: seq<Log>)
    requires NewestFirst(s)
    ensures NewestFirst(InsertByTime(x, s))
    decreases |s|
  {
    if |s| > 0 && x.createdAt < s[0].createdAt {
      var rest := InsertByTime(x, s[1..]);
      InsertByTimeKeepsOrder(x, s[1..]);
      InsertByTimeBelow(x, s[1..], s[0].createdAt);
      var r := InsertByTime(x, s);
      assert r == [s[0]] + rest;
      forall i, j | 0 <= i < j < |r|
        ensures r[i].createdAt >= r[j].createdAt
      {
        if i > 0 {
          assert r[i] == rest[i - 1] && r[j] == rest[j - 1];
        } else {
          assert r[j] == rest[j - 1];
        }
      }
    }
  }

  /** The sort orders newest first and keeps every row. */
  lemma {:induction false} SortNewestFirstCorrect(s: seq<Log>)
    ensures NewestFirst(SortNewestFirst(s))
    ensures multiset(SortNewestFirst(s)) == multiset(s)
    ensures |SortNewestFirst(s)| == |s|
    decreases |s|
  {
    if |s| > 0 {
      SortNewestFirstCorrect(s[1..]);
      InsertByTimeKeepsOrder(s[0], SortNewestFirst(s[1..]));
      InsertByTimeKeepsRows(s[0], SortNewestFirst(s[1..]));
      assert s == [s[0]] + s[1..];
    }
  }

  // ---------------------------------------------------------------------
  // Sync history

  const DefaultHistoryLimit := 50
  /** The database refuses a negative `LIMIT`; its own wording is not
      modelled. */
  const NegativeLimit := "Negative LIMIT"

  /** `getSyncHistory`: the caller's newest logs, at most `limit` (50 when
      absent) of them. The provider filter is accepted and ignored. */
  function GetSyncHistory(logs: seq<Log>, caller: Caller, provider: Option<Provider>, limit: Option<int>)
    : (r: Result<seq<Log>>)
    ensures r == Err("Unauthorized") <==> RequireUser(caller).Err?
    ensures r == Err(NegativeLimit) <==> RequireUser(caller).Ok? && limit.GetOr(DefaultHistoryLimit) < 0
    ensures r.Ok? <==> RequireUser(caller).Ok? && limit.GetOr(DefaultHistoryLimit) >= 0
    ensures r.Ok? ==> |r.value| <= limit.GetOr(DefaultHistoryLimit)
    ensures r.Ok? ==>
      var n, mine := limit.GetOr(DefaultHistoryLimit), Count(logs, OfUser(caller.value));
      |r.value| == if n <= mine then n else mine
    ensures r.Ok? ==> forall i :: 0 <= i < |r.value| ==> r.value[i].userId == caller.value && r.value[i] in logs
    ensures r.Ok? ==> NewestFirst(r.value)
    ensures r.Ok? ==> r.value <= SortNewestFirst(Filter(logs, OfUser(caller.value)))
  {
    var auth := RequireUser(caller);
    if auth.Err? then Err(auth.error)
    else
      var n := limit.GetOr(DefaultHistoryLimit);
      if n < 0 then Err(NegativeLimit)
      else
        var mine := Filter(logs, OfUser(auth.value));
        var sorted := SortNewestFirst(mine);
        SortNewestFirstCorrect(mine);
        var r := Take(sorted, n);
        assert forall i :: 0 <= i < |r| ==> r[i] in multiset(mine) by {
          forall i | 0 <= i < |r|
            ensures r[i] in multiset(mine)
          {
            assert r[i] == sorted[i];
            assert sorted[i] in multiset(sorted);
          }
        }
        Ok(r)
  }

  /** Choosing a provider changes nothing. */
  lemma HistoryIgnoresProvider(logs: seq<Log>, caller: Caller, p: Option<Provider>, q: Option<Provider>, limit: Option<int>)
    ensures GetSyncHistory(logs, caller, p, limit) == GetSyncHistory(logs, caller, q, limit)
  {
  }

  /** In a newest-first table, a row left out of a prefix is no newer
      than any row of the prefix. */
  lemma LeftOutOfPrefix(sorted: seq<Log>, k: int, x: Log, i: int)
    requires NewestFirst(sorted)
    requires 0 <= i < k <= |sorted|
    requires multiset(sorted[..k])[x] < multiset(sorted)[x]
    ensures x.createdAt <= sorted[i].createdAt
  {
    assert sorted == sorted[..k] + sorted[k..];
    assert multiset(sorted) == multiset(sorted[..k]) + multiset(sorted[k..]);
    assert x in multiset(sorted[k..]);
    var m :| 0 <= m < |sorted[k..]| && sorted[k..][m] == x;
    assert sorted[k + m] == x;
  }

  /** A log of the caller that the limit leaves out is no newer than any
      log returned. */
  lemma OmittedLogsAreOlder(logs: seq<Log>, user: int, limit: nat, x: Log, i: int)
    requires user != 0
    requires var r := GetSyncHistory(logs, Some(user), None, Some(limit)).value;
      0 <= i < |r| && multiset(r)[x] < multiset(Filter(logs, OfUser(user)))[x]
    ensures x.createdAt <= GetSyncHistory(logs, Some(user), None, Some(limit)).value[i].createdAt
  {
    var mine := Filter(logs, OfUser(user));
    var sorted := SortNewestFirst(mine);
    SortNewestFirstCorrect(mine);
    var r := GetSyncHistory(logs, Some(user), None, Some(limit)).value;
    assert r == sorted[..|r|];
    LeftOutOfPrefix(sorted, |r|, x, i);
  }

  /** Below the limit, the history holds every log of the caller. */
  lemma ShortHistoryIsComplete(logs: seq<Log>, user: int, limit: nat)
    requires user != 0
    requires Count(logs, OfUser(user)) <= limit
    ensures multiset(GetSyncHistory(logs, Some(user), None, Some(limit)).value) == multiset(Filter(logs, OfUser(user)))
  {
    SortNewestFirstCorrect(Filter(logs, OfUser(user)));
  }

  // ---------------------------------------------------------------------
  // Statistics

  function WithStatus(status: SyncStatus): Log -> bool {
    (l: Log) => l.status == status
  }

  /** Every log has exactly one of the four statuses. */
  lemma {:induction false} StatusCountsAddUp(s: seq<Log>)
    ensures Count(s, WithStatus(Success)) + Count(s, WithStatus(Failed))
            + Count(s, WithStatus(Pending)) + Count(s, WithStatus(Partial)) == |s|
    decreases |s|
  {
    if |s| > 0 {
      StatusCountsAddUp(s[1..]);
    }
  }

  /** The figures; the success rate is in hundredths of a percent, as
      `toFixed(2)` prints it, and 0 with no logs. */
  datatype Statistics = Statistics(totalSyncs: nat, successful: nat, failed: nat, pending: nat, successRate: int)

  function StatisticsOf(mine: seq<Log>): (s: Statistics)
    ensures s.totalSyncs == |mine|
    ensures s.successful == Count(mine, WithStatus(Success))
    ensures s.failed == Count(mine, WithStatus(Failed))
    ensures s.pending == Count(mine, WithStatus(Pending))
    ensures s.successful + s.failed + s.pending + Count(mine, WithStatus(Partial)) == s.totalSyncs
    ensures 0 <= s.successRate <= 10000
    ensures |mine| == 0 ==> s.successRate == 0
    ensures |mine| > 0 ==> s.successRate == Rounding.ToFixed(s.successful as real / |mine| as real * 100.0, 2)
  {
    StatusCountsAddUp(mine);
    var successful := Count(mine, WithStatus(Success));
    var rate :=
      if |mine| > 0 then
        Rounding.PercentInRange(successful, |mine|);
        Rounding.RoundHalfAwayWithin(successful as real / |mine| as real * 100.0 * 100.0, 0, 10000);
        Rounding.ToFixed(successful as real / |mine| as real * 100.0, 2)
      else 0;
    Statistics(|mine|, successful, Count(mine, WithStatus(Failed)), Count(mine, WithStatus(Pending)), rate)
  }

  /** `getSyncStatistics`: the figures over all the caller's logs. */
  function GetSyncStatistics(logs: seq<Log>, caller: Caller): (r: Result<Statistics>)
    ensures r.Err? <==> RequireUser(caller).Err?
    ensures r.Ok? ==> r.value == StatisticsOf(Filter(logs, OfUser(caller.value)))
  {
    var auth := RequireUser(caller);
    if auth.Err? then Err(auth.error)
    else Ok(StatisticsOf(Filter(logs, OfUser(auth.value))))
  }

  // ---------------------------------------------------------------------
  // Disconnecting

  const DisconnectionRecord := "disconnection"

  /** `disconnect`: one successful full-sync log marks the disconnection;
      nothing else is touched. */
  function Disconnect(logs: seq<Log>, caller: Caller, provider: Provider, id: int, now: int)
    : (r: Result<(seq<Log>, string)>)
    ensures r.Err? <==> RequireUser(caller).Err?
    ensures r.Ok? ==> |r.value.0| == |logs| + 1 && r.value.0[..|logs|] == logs
    ensures r.Ok? ==>
      var l := r.value.0[|logs|];
      l.id == id && l.userId == caller.value && l.provider == provider && l.syncType == FullSync
      && l.status == Success && l.recordType == Some(DisconnectionRecord) && l.createdAt == now
    ensures r.Ok? ==> r.value.1 == ProviderName(provider) + " disconnected"
  {
    var auth := RequireUser(caller);
    if auth.Err? then Err(auth.error)
    else
      var l := Log(id, auth.value, provider, FullSync, Success, Some(DisconnectionRecord), now);
      Ok((logs + [l], ProviderName(provider) + " disconnected"))
  }

  /** A disconnection counts as one more successful sync. */
  lemma DisconnectCountsAsSuccess(logs: seq<Log>, user: int, provider: Provider, id: int, now: int)
    requires user != 0
    ensures var before := GetSyncStatistics(logs, Some(user)).value;
      var after := GetSyncStatistics(Disconnect(logs, Some(user), provider, id, now).value.0, Some(user)).value;
      after.totalSyncs == before.totalSyncs + 1 && after.successful == before.successful + 1
      && after.failed == before.failed && after.pending == before.pending
  {
    var l := Disconnect(logs, Some(user), provider, id, now).value.0[|logs|];
    assert Disconnect(logs, Some(user), provider, id, now).value.0 == logs + [l];
    FilterAppend(logs, [l], OfUser(user));
    var mine := Filter(logs, OfUser(user));
    assert Filter([l], OfUser(user)) == [l];
    CountAppend(mine, [l], WithStatus(Success));
    CountAppend(mine, [l], WithStatus(Failed));
    CountAppend(mine, [l], WithStatus(Pending));
  }
}

=== FILE: gps_time_tracking.dfy ===
/** GPS time tracking (`gpsTimeTracking` router): a team member clocks in
    on a project, clocks out later, the entry gets a duration in whole
    minutes and a labour cost from the member's hourly rate, and the owner
    approves it. Money is in integer cents, coordinates are copied as
    given (as exact reals), timestamps are milliseconds. */
module GpsTimeTracking {
  import opened Wrappers
  import opened Tables
  import Rounding
  import opened Schema

  datatype Approval = Pending | Approved | Rejected

  /** A row of `gpsTimeEntries`, with the columns the router reads or
      writes; `totalCost` is in cents. */
  datatype Entry = Entry(
    id: int,
    userId: int,
    teamMemberId: int,
    projectId: int,
    clockInTime: int,
    clockOutTime: Option<int>,
    clockInLatitude: Option<real>,
    clockInLongitude: Option<real>,
    clockOutLatitude: Option<real>,
    clockOutLongitude: Option<real>,
    durationMinutes: Option<int>,
    totalCost: Option<int>,
    approvalStatus: Approval,
    notes: Option<string>)

  /** A row of `teamMembers`; `hourlyRate` is in cents per hour. */
  datatype TeamMember = TeamMember(id: int, userId: int, name: string, hourlyRate: Option<int>)

  predicate IsOpen(e: Entry) {
    e.clockOutTime.None?
  }

  predicate UniqueIds(entries: seq<Entry>) {
    forall i, j :: 0 <= i < j < |entries| ==> entries[i].id != entries[j].id
  }

  function OfUser(user: int): Entry -> bool {
    (e: Entry) => e.userId == user
  }

  /** The caller's entries for one team member. */
  function OfMember(user: int, member: int): Entry -> bool {
    (e: Entry) => e.userId == user && e.teamMemberId == member
  }

  /** The entry `id`, provided the caller owns it. */
  function Owns(id: int, user: int): Entry -> bool {
    (e: Entry) => e.id == id && e.userId == user
  }

  function HasId(id: int): Entry -> bool {
    (e: Entry) => e.id == id
  }

  // ---------------------------------------------------------------------
  // Clock in

  /** Row `i` is the one `ORDER BY clockInTime DESC LIMIT 1` returns: no row
      clocked in later, and of the rows clocked in at the same moment it is
      the last one in table order. */
  predicate LatestAt(s: seq<Entry>, i: int) {
    0 <= i < |s|
    && (forall j :: 0 <= j < |s| ==> s[j].clockInTime <= s[i].clockInTime)
    && (forall j :: i < j < |s| ==> s[j].clockInTime < s[i].clockInTime)
  }

  lemma LatestAtUnique(s: seq<Entry>, i: int, j: int)
    requires LatestAt(s, i) && LatestAt(s, j)
    ensures i == j
  {
    assert s[i].clockInTime == s[j].clockInTime;
  }

  /** The last row is the latest when the latest of the rows before it was
      not clocked in after it. */
  lemma LatestAtLast(s: seq<Entry>, i: int)
    requires |s| > 1 && LatestAt(s[..|s| - 1], i)
    requires s[i].clockInTime <= s[|s| - 1].clockInTime
    ensures LatestAt(s, |s| - 1)
  {
    var p := s[..|s| - 1];
    forall j | 0 <= j < |s|
      ensures s[j].clockInTime <= s[|s| - 1].clockInTime
    {
      if j < |s| - 1 {
        assert p[j] == s[j];
      }
    }
  }

  /** The latest row of all but the last row stays the latest when the last
      row was clocked in earlier. */
  lemma LatestAtPrefix(s: seq<Entry>, i: int)
    requires |s| > 0 && LatestAt(s[..|s| - 1], i)
    requires s[|s| - 1].clockInTime < s[i].clockInTime
    ensures LatestAt(s, i)
  {
    var p := s[..|s| - 1];
    assert p[i] == s[i];
    forall j | 0 <= j < |s|
      ensures s[j].clockInTime <= s[i].clockInTime
      ensures i < j ==> s[j].clockInTime < s[i].clockInTime
    {
      if j < |s| - 1 {
        assert p[j] == s[j];
      }
    }
  }

  /** The most recently clocked-in entry of `s`, if any. */
  function Latest(s: seq<Entry>): (r: Option<Entry>)
    ensures r.None? <==> |s| == 0
    ensures r.Some? ==> exists i :: LatestAt(s, i) && s[i] == r.value
  {
    if |s| == 0 then None
    else
      var last := s[|s| - 1];
      var r := Latest(s[..|s| - 1]);
      if r.None? then
        assert LatestAt(s, 0);
        Some(last)
      else
        ghost var i :| LatestAt(s[..|s| - 1], i) && s[..|s| - 1][i] == r.value;
        if r.value.clockInTime <= last.clockInTime then
          LatestAtLast(s, i);
          Some(last)
        else
          LatestAtPrefix(s, i);
          r
  }

  /** The caller's most recent entry for the team member is still open. */
  ghost predicate ClockedIn(entries: seq<Entry>, user: int, member: int) {
    var mine := Filter(entries, OfMember(user, member));
    exists i :: LatestAt(mine, i) && IsOpen(mine[i])
  }

  /** The latest row is open exactly when some row is the latest and open. */
  lemma LatestIsOpen(s: seq<Entry>)
    ensures (Latest(s).Some? && IsOpen(Latest(s).value)) <==> exists i :: LatestAt(s, i) && IsOpen(s[i])
  {
    if Latest(s).Some? {
      var i :| LatestAt(s, i) && s[i] == Latest(s).value;
      forall k | LatestAt(s, k)
        ensures k == i
      {
        LatestAtUnique(s, i, k);
      }
    }
  }

  datatype ClockInInput = ClockInInput(
    teamMemberId: int,
    projectId: int,
    clockInLatitude: real,
    clockInLongitude: real,
    notes: Option<string>)

  /** The row a successful clock-in inserts: open, pending, clocked in now. */
  function Opened(id: int, user: int, input: ClockInInput, now: int): Entry {
    Entry(id, user, input.teamMemberId, input.projectId, now, None,
          Some(input.clockInLatitude), Some(input.clockInLongitude), None, None,
          None, None, Pending, input.notes)
  }

  /** `clockIn`: refused while the caller's most recent entry for the team
      member is still open; otherwise a new open entry is appended. Older
      open entries of the member do not block it. */
  function ClockIn(entries: seq<Entry>, caller: Caller, input: ClockInInput, now: int, id: int): (r: Result<seq<Entry>>)
    ensures r == Err("Unauthorized") <==> RequireUser(caller).Err?
    ensures r == Err("Already clocked in") <==>
      RequireUser(caller).Ok? && ClockedIn(entries, caller.value, input.teamMemberId)
    ensures r.Ok? <==> RequireUser(caller).Ok? && !ClockedIn(entries, caller.value, input.teamMemberId)
    ensures r.Ok? ==> r.value == entries + [Opened(id, caller.value, input, now)]
  {
    var auth := RequireUser(caller);
    if auth.Err? then Err(auth.error)
    else
      var mine := Filter(entries, OfMember(auth.value, input.teamMemberId));
      var latest := Latest(mine);
      LatestIsOpen(mine);
      if latest.Some? && IsOpen(latest.value) then Err("Already clocked in")
      else Ok(entries + [Opened(id, auth.value, input, now)])
  }

  /** With every earlier entry of the member closed, clocking in succeeds. */
  lemma ClockInWhenAllClosed(entries: seq<Entry>, user: int, input: ClockInInput, now: int, id: int)
    requires user != 0
    requires forall i :: 0 <= i < |entries| && OfMember(user, input.teamMemberId)(entries[i]) ==> !IsOpen(entries[i])
    ensures ClockIn(entries, Some(user), input, now, id).Ok?
  {
    var mine := Filter(entries, OfMember(user, input.teamMemberId));
    forall i | LatestAt(mine, i)
      ensures !IsOpen(mine[i])
    {
      assert mine[i] in entries;
    }
  }

  /** With a clock that never runs backwards, a second clock-in for the same
      team member is refused until the first is closed. */
  lemma DoubleClockInRefused(entries: seq<Entry>, user: int, input: ClockInInput, now: int, id: int,
                             again: ClockInInput, later: int, id2: int)
    requires ClockIn(entries, Some(user), input, now, id).Ok?
    requires again.teamMemberId == input.teamMemberId
    requires forall i :: 0 <= i < |entries| ==> entries[i].clockInTime <= now
    ensures ClockIn(ClockIn(entries, Some(user), input, now, id).value, Some(user), again, later, id2)
            == Err("Already clocked in")
  {
    var e := Opened(id, user, input, now);
    var p := OfMember(user, input.teamMemberId);
    FilterAppend(entries, [e], p);
    var mine := Filter(entries + [e], p);
    assert Filter([e], p) == [e];
    assert mine[|mine| - 1] == e;
    forall j | 0 <= j < |mine|
      ensures mine[j].clockInTime <= now
    {
      assert mine[j] in entries + [e];
    }
    assert LatestAt(mine, |mine| - 1);
  }

  /** Only the latest entry is consulted: an open entry clocked in before a
      closed one does not block a new clock-in. */
  lemma OlderOpenEntryIgnored()
    ensures
      var input := ClockInInput(5, 9, 0.0, 0.0, None);
      var older := Opened(1, 3, input, 1000);
      var closed := Opened(2, 3, input, 2000).(clockOutTime := Some(3000));
      ClockIn([older, closed], Some(3), input, 4000, 4).Ok?
  {
    var input := ClockInInput(5, 9, 0.0, 0.0, None);
    var older := Opened(1, 3, input, 1000);
    var closed := Opened(2, 3, input, 2000).(clockOutTime := Some(3000));
    var mine := Filter([older, closed], OfMember(3, 5));
    assert mine == [older, closed];
    assert LatestAt(mine, 1);
  }

  // ---------------------------------------------------------------------
  // Clock out

  datatype ClockOutInput = ClockOutInput(
    id: int,
    clockOutLatitude: real,
    clockOutLongitude: real,
    notes: Option<string>)

  /** `Math.round` of the elapsed milliseconds in minutes: the nearest whole
      minute, half a minute rounded up. */
  function DurationMinutes(clockIn: int, clockOut: int): (minutes: int)
    ensures 60000 * minutes - 30000 <= clockOut - clockIn < 60000 * minutes + 30000
  {
    Rounding.MathRoundMinutes(clockOut - clockIn);
    Rounding.MathRound((clockOut - clockIn) as real / 60000.0)
  }

  /** The hourly rate of the first team member with the given id, in cents;
      0 when there is no such member or it has no rate. The member is looked
      up by id alone, whoever owns it. */
  function HourlyRate(members: seq<TeamMember>, memberId: int): (rate: int)
    ensures (forall i :: 0 <= i < |members| ==> members[i].id != memberId) ==> rate == 0
    ensures forall i :: FirstAt(members, MemberWithId(memberId), i) ==> rate == members[i].hourlyRate.GetOr(0)
  {
    var m := First(members, MemberWithId(memberId));
    if m.Some? then
      ghost var i :| FirstAt(members, MemberWithId(memberId), i) && members[i] == m.value;
      FirstIsOnly(members, MemberWithId(memberId), i);
      if m.value.hourlyRate.Some? then m.value.hourlyRate.value else 0
    else 0
  }

  function MemberWithId(id: int): TeamMember -> bool {
    (m: TeamMember) => m.id == id
  }

  /** `((minutes / 60) * rate).toFixed(2)` in cents: the labour cost of
      `minutes` at `rate` cents an hour, to the nearest cent. */
  function LabourCost(minutes: int, rate: int): (cents: int)
    ensures minutes * rate >= 0 ==> 60 * cents - 30 <= minutes * rate < 60 * cents + 30
    ensures minutes * rate < 0 ==> 60 * cents - 30 < minutes * rate <= 60 * cents + 30
  {
    Rounding.RoundHalfAway((minutes * rate) as real / 60.0)
  }

  /** Whole hours cost exactly the hourly rate times the hours. */
  lemma LabourCostWholeHours(hours: int, rate: int)
    ensures LabourCost(60 * hours, rate) == hours * rate
  {
    assert 60 * hours * rate == 60 * (hours * rate);
    assert (60 * hours * rate) as real / 60.0 == (hours * rate) as real;
    Rounding.RoundHalfAwayOfInt(hours * rate);
  }

  /** Eight and a half hours at $20.00 an hour cost $170.00. */
  lemma LabourCostExample()
    ensures LabourCost(510, 2000) == 17000
  {
    assert (510 * 2000) as real / 60.0 == 17000.0;
    Rounding.RoundHalfAwayOfInt(17000);
  }

  /** At a non-negative rate, a longer shift never costs less. */
  lemma LabourCostMonotone(m1: int, m2: int, rate: int)
    requires m1 <= m2 && rate >= 0
    ensures LabourCost(m1, rate) <= LabourCost(m2, rate)
  {
    assert m2 * rate - m1 * rate == (m2 - m1) * rate;
    Rounding.RoundHalfAwayMonotone((m1 * rate) as real / 60.0, (m2 * rate) as real / 60.0);
  }

  /** `input.notes || entry.notes`: new notes replace the old ones unless
      they are missing or empty. */
  function NotesOr(given: Option<string>, current: Option<string>): (r: Option<string>)
    ensures given.Some? && given.value != "" ==> r == given
    ensures given.None? || given.value == "" ==> r == current
  {
    if given.Some? && given.value != "" then given else current
  }

  /** The values a clock-out writes, all computed from the entry found. */
  datatype Settlement = Settlement(
    clockOutTime: int,
    latitude: real,
    longitude: real,
    minutes: int,
    cost: int,
    notes: Option<string>)

  function SettlementOf(entry: Entry, members: seq<TeamMember>, input: ClockOutInput, now: int): Settlement {
    var minutes := DurationMinutes(entry.clockInTime, now);
    Settlement(now, input.clockOutLatitude, input.clockOutLongitude, minutes,
               LabourCost(minutes, HourlyRate(members, entry.teamMemberId)),
               NotesOr(input.notes, entry.notes))
  }

  function Settle(s: Settlement): Entry -> Entry {
    (e: Entry) => e.(clockOutTime := Some(s.clockOutTime),
                     clockOutLatitude := Some(s.latitude),
                     clockOutLongitude := Some(s.longitude),
                     durationMinutes := Some(s.minutes),
                     totalCost := Some(s.cost),
                     notes := s.notes)
  }

  /** `clockOut`: the caller's entry `input.id` is closed now. Fails when the
      caller owns no such entry or it is already closed. The update itself
      is keyed on the id alone. */
  function ClockOut(entries: seq<Entry>, members: seq<TeamMember>, caller: Caller,
                    input: ClockOutInput, now: int): (r: Result<seq<Entry>>)
    ensures r == Err("Unauthorized") <==> RequireUser(caller).Err?
    ensures r == Err("Entry not found") <==>
      RequireUser(caller).Ok?
      && forall i :: 0 <= i < |entries| ==> !Owns(input.id, caller.value)(entries[i])
    ensures r == Err("Already clocked out") <==>
      RequireUser(caller).Ok?
      && exists i :: FirstAt(entries, Owns(input.id, caller.value), i) && !IsOpen(entries[i])
    ensures r.Ok? <==>
      RequireUser(caller).Ok?
      && exists i :: FirstAt(entries, Owns(input.id, caller.value), i) && IsOpen(entries[i])
    ensures r.Ok? ==> |r.value| == |entries|
    ensures r.Ok? ==> forall j :: 0 <= j < |entries| && entries[j].id == input.id ==>
      !IsOpen(r.value[j]) && r.value[j].clockOutTime == Some(now)
  {
    var auth := RequireUser(caller);
    if auth.Err? then Err(auth.error)
    else
      var found := First(entries, Owns(input.id, auth.value));
      if found.None? then Err("Entry not found")
      else if !IsOpen(found.value) then
        ghost var i :| FirstAt(entries, Owns(input.id, auth.value), i) && entries[i] == found.value;
        FirstIsOnly(entries, Owns(input.id, auth.value), i);
        Err("Already clocked out")
      else
        ghost var i :| FirstAt(entries, Owns(input.id, auth.value), i) && entries[i] == found.value;
        FirstIsOnly(entries, Owns(input.id, auth.value), i);
        Ok(UpdateWhere(entries, HasId(input.id), Settle(SettlementOf(found.value, members, input, now))))
  }

  /** A clock-out closes every row with the requested id, writing only the
      clock-out columns, duration, cost and notes; every other row stays as
      it was. */
  lemma ClockOutTouchesOnlyEntry(entries: seq<Entry>, members: seq<TeamMember>, user: int,
                                 input: ClockOutInput, now: int, j: int)
    requires ClockOut(entries, members, Some(user), input, now).Ok?
    requires 0 <= j < |entries|
    ensures
      var after := ClockOut(entries, members, Some(user), input, now).value[j];
      var e := entries[j];
      if e.id == input.id then
        after.clockOutTime == Some(now)
        && after.(clockOutTime := None, clockOutLatitude := e.clockOutLatitude,
                  clockOutLongitude := e.clockOutLongitude, durationMinutes := e.durationMinutes,
                  totalCost := e.totalCost, notes := e.notes)
           == e.(clockOutTime := None)
      else after == e
  {
    var found := First(entries, Owns(input.id, user));
    var st := SettlementOf(found.value, members, input, now);
    assert ClockOut(entries, members, Some(user), input, now).value
           == UpdateWhere(entries, HasId(input.id), Settle(st));
  }

  /** With unique ids, the closed entry records the rounded duration from
      its own clock-in time, the labour cost at its member's rate, and the
      new notes unless none were given. */
  lemma ClockOutSettles(entries: seq<Entry>, members: seq<TeamMember>, user: int,
                        input: ClockOutInput, now: int, j: int)
    requires UniqueIds(entries)
    requires ClockOut(entries, members, Some(user), input, now).Ok?
    requires 0 <= j < |entries| && entries[j].id == input.id
    ensures
      var e := entries[j];
      var after := ClockOut(entries, members, Some(user), input, now).value[j];
      var minutes := (now - e.clockInTime + 30000) / 60000;
      e.userId == user && IsOpen(e)
      && after.durationMinutes == Some(minutes)
      && after.totalCost == Some(LabourCost(minutes, HourlyRate(members, e.teamMemberId)))
      && after.clockOutLatitude == Some(input.clockOutLatitude)
      && after.clockOutLongitude == Some(input.clockOutLongitude)
      && after.notes == NotesOr(input.notes, e.notes)
  {
    var p := Owns(input.id, user);
    var found := First(entries, p);
    var i :| FirstAt(entries, p, i) && entries[i] == found.value;
    assert i == j;
    var st := SettlementOf(entries[j], members, input, now);
    var after := ClockOut(entries, members, Some(user), input, now).value;
    assert after == UpdateWhere(entries, HasId(input.id), Settle(st));
    assert after[j] == Settle(st)(entries[j]);
    Rounding.MathRoundMinutes(now - entries[j].clockInTime);
    assert st.minutes == (now - entries[j].clockInTime + 30000) / 60000;
  }

  /** A closed entry stays closed: clocking out twice is refused. */
  lemma ClockOutIsFinal(entries: seq<Entry>, members: seq<TeamMember>, user: int,
                        input: ClockOutInput, now: int, again: ClockOutInput, later: int)
    requires ClockOut(entries, members, Some(user), input, now).Ok?
    requires again.id == input.id
    ensures ClockOut(ClockOut(entries, members, Some(user), input, now).value, members, Some(user), again, later)
            == Err("Already clocked out")
  {
    var after := ClockOut(entries, members, Some(user), input, now).value;
    var p := Owns(input.id, user);
    var found := First(entries, p);
    var i :| FirstAt(entries, p, i) && entries[i] == found.value;
    var st := SettlementOf(found.value, members, input, now);
    assert after == UpdateWhere(entries, HasId(input.id), Settle(st));
    assert after[i].id == input.id && after[i].userId == user && !IsOpen(after[i]);
    forall k | 0 <= k < i
      ensures !p(after[k])
    {
      assert !p(entries[k]);
    }
    assert FirstAt(after, p, i);
  }

  // ---------------------------------------------------------------------
  // Approve

  function MarkApproved(e: Entry): Entry {
    e.(approvalStatus := Approved)
  }

  /** `approve`: the caller's entry `id` becomes approved, open or closed;
      nothing else changes. */
  function Approve(entries: seq<Entry>, caller: Caller, id: int): (r: Result<seq<Entry>>)
    ensures r.Err? <==> RequireUser(caller).Err?
    ensures r.Ok? ==> |r.value| == |entries|
    ensures r.Ok? ==> forall j :: 0 <= j < |entries| ==>
      if Owns(id, caller.value)(entries[j]) then r.value[j].approvalStatus == Approved
        && r.value[j].(approvalStatus := entries[j].approvalStatus) == entries[j]
      else r.value[j] == entries[j]
  {
    var auth := RequireUser(caller);
    if auth.Err? then Err(auth.error)
    else Ok(UpdateWhere(entries, Owns(id, auth.value), MarkApproved))
  }

  /** Approving twice is approving once. */
  lemma ApproveIdempotent(entries: seq<Entry>, user: int, id: int)
    requires user != 0
    ensures Approve(Approve(entries, Some(user), id).value, Some(user), id) == Approve(entries, Some(user), id)
  {
    var once := Approve(entries, Some(user), id).value;
    var twice := Approve(once, Some(user), id).value;
    assert forall j :: 0 <= j < |once| ==> twice[j] == once[j];
    assert twice == once;
  }

  // ---------------------------------------------------------------------
  // Summary

  /** `getSummary`: hours to one decimal (so in tenths), cost in cents, and
      the numbers of approved and pending entries. */
  datatype Summary = Summary(totalTenthsOfHours: int, totalCost: int, approvedEntries: nat, pendingEntries: nat)

  function MinutesOf(e: Entry): int {
    IntOr(e.durationMinutes, 0)
  }

  function CostOf(e: Entry): int {
    IntOr(e.totalCost, 0)
  }

  function WithStatus(a: Approval): Entry -> bool {
    (e: Entry) => e.approvalStatus == a
  }

  function OfUserWithStatus(user: int, a: Approval): Entry -> bool {
    (e: Entry) => e.userId == user && e.approvalStatus == a
  }

  /** The summary of a list of entries. Open entries count with zero
      minutes and zero cost. */
  function Totals(mine: seq<Entry>): (s: Summary)
    ensures SumInt(mine, MinutesOf) >= 0 ==>
      6 * s.totalTenthsOfHours - 3 <= SumInt(mine, MinutesOf) < 6 * s.totalTenthsOfHours + 3
    ensures SumInt(mine, MinutesOf) < 0 ==>
      6 * s.totalTenthsOfHours - 3 < SumInt(mine, MinutesOf) <= 6 * s.totalTenthsOfHours + 3
    ensures s.totalCost == SumInt(mine, CostOf)
    ensures s.approvedEntries == Count(mine, WithStatus(Approved))
    ensures s.pendingEntries == Count(mine, WithStatus(Pending))
    ensures s.approvedEntries + s.pendingEntries <= |mine|
  {
    CountDisjoint(mine, WithStatus(Approved), WithStatus(Pending),
                  (e: Entry) => e.approvalStatus == Approved || e.approvalStatus == Pending);
    Summary(Rounding.RoundHalfAway(SumInt(mine, MinutesOf) as real / 6.0), SumInt(mine, CostOf),
            Count(mine, WithStatus(Approved)), Count(mine, WithStatus(Pending)))
  }

  /** `getSummary`: the totals of every entry of the caller, over all time:
      the optional date range of the request is accepted and ignored. */
  function GetSummary(entries: seq<Entry>, caller: Caller, startDate: Option<int>, endDate: Option<int>): (r: Result<Summary>)
    ensures r.Err? <==> RequireUser(caller).Err?
    ensures r.Ok? ==> r.value == Totals(Filter(entries, OfUser(caller.value)))
  {
    var auth := RequireUser(caller);
    if auth.Err? then Err(auth.error)
    else Ok(Totals(Filter(entries, OfUser(auth.value))))
  }

  /** The date range makes no difference. */
  lemma SummaryIgnoresDates(entries: seq<Entry>, caller: Caller, s1: Option<int>, e1: Option<int>, s2: Option<int>, e2: Option<int>)
    ensures GetSummary(entries, caller, s1, e1) == GetSummary(entries, caller, s2, e2)
  {
  }

  /** The summary's approved and pending counts are the numbers of the
      caller's approved and pending entries in the whole table. */
  lemma SummaryCountsApproved(entries: seq<Entry>, user: int, startDate: Option<int>, endDate: Option<int>)
    requires user != 0
    ensures GetSummary(entries, Some(user), startDate, endDate).value.approvedEntries
            == Count(entries, OfUserWithStatus(user, Approved))
    ensures GetSummary(entries, Some(user), startDate, endDate).value.pendingEntries
            == Count(entries, OfUserWithStatus(user, Pending))
  {
    CountFilter(entries, OfUser(user), WithStatus(Approved), OfUserWithStatus(user, Approved));
    CountFilter(entries, OfUser(user), WithStatus(Pending), OfUserWithStatus(user, Pending));
  }

  /** One more pending entry with no duration and no cost raises the
      pending count by one and changes nothing else. */
  lemma TotalsAppendPending(mine: seq<Entry>, e: Entry)
    requires e.approvalStatus == Pending
    requires e.durationMinutes.None? && e.totalCost.None?
    ensures Totals(mine + [e]) == Totals(mine).(pendingEntries := Totals(mine).pendingEntries + 1)
  {
    SumIntAppend(mine, [e], MinutesOf);
    SumIntAppend(mine, [e], CostOf);
    CountAppend(mine, [e], WithStatus(Approved));
    CountAppend(mine, [e], WithStatus(Pending));
  }

  /** A clock-in adds one pending entry to the summary and nothing else:
      the new entry has no duration and no cost yet. */
  lemma ClockInAddsPending(entries: seq<Entry>, user: int, input: ClockInInput, now: int, id: int)
    requires ClockIn(entries, Some(user), input, now, id).Ok?
    ensures
      var before := GetSummary(entries, Some(user), None, None).value;
      var after := GetSummary(ClockIn(entries, Some(user), input, now, id).value, Some(user), None, None).value;
      after == before.(pendingEntries := before.pendingEntries + 1)
  {
    var e := Opened(id, user, input, now);
    var p := OfUser(user);
    FilterAppend(entries, [e], p);
    assert Filter([e], p) == [e];
    TotalsAppendPending(Filter(entries, p), e);
  }
}

=== FILE: inventory.dfy ===
/** The inventory ledger (`inventory` router): items with a quantity, a
    value and a location, an append-only log of stock movements, moving an
    item between locations, and the per-user summary. Money is in integer
    cents. */
module Inventory {
  import opened Wrappers
  import opened Tables
  import opened Schema

  /** `available`, `in_use`, `maintenance`, `retired`. */
  datatype ItemStatus = Available | InUse | UnderMaintenance | Retired

  datatype TransactionType = Add | Remove | Transfer | Damage | Maintenance

  /** A row of `inventory`; `unitCost` and `totalValue` are in cents. */
  datatype Item = Item(
    id: int,
    userId: int,
    projectId: Option<int>,
    itemName: string,
    category: string,
    quantity: int,
    unit: string,
    unitCost: int,
    totalValue: int,
    qrCode: Option<string>,
    rfidTag: Option<string>,
    currentLocation: Option<string>,
    status: Option<ItemStatus>,
    lastLocationUpdate: Option<int>,
    notes: Option<string>)

  /** A row of `inventoryTransactions`. */
  datatype Transaction = Transaction(
    id: int,
    userId: int,
    inventoryId: int,
    transactionType: TransactionType,
    quantityChanged: int,
    fromLocation: Option<string>,
    toLocation: Option<string>,
    notes: Option<string>)

  /** Both tables the router writes. */
  datatype Store = Store(items: seq<Item>, transactions: seq<Transaction>)

  function OfUser(user: int): Item -> bool {
    (i: Item) => i.userId == user
  }

  /** The item `id`, provided the caller owns it. */
  function Owns(id: int, user: int): Item -> bool {
    (i: Item) => i.id == id && i.userId == user
  }

  function HasId(id: int): Item -> bool {
    (i: Item) => i.id == id
  }

  // ---------------------------------------------------------------------
  // Create

  datatype NewItem = NewItem(
    projectId: Option<int>,
    itemName: string,
    category: string,
    quantity: int,
    unit: string,
    unitCost: int,
    qrCode: Option<string>,
    rfidTag: Option<string>,
    currentLocation: string,
    notes: Option<string>)

  /** The input schema: a non-empty name, a positive quantity and a cost
      that is not negative. */
  predicate ValidNewItem(input: NewItem) {
    |input.itemName| >= 1 && input.quantity > 0 && input.unitCost >= 0
  }

  const InitialNote := "Initial inventory addition"

  /** `create`: the item is stored as available with its total value, and
      one `add` movement of the whole quantity into its location is
      logged. */
  function CreateItem(store: Store, caller: Caller, input: NewItem, id: int, txId: int): (r: Result<Store>)
    ensures r == Err(InvalidInput) <==> !ValidNewItem(input)
    ensures r == Err("Unauthorized") <==> ValidNewItem(input) && RequireUser(caller).Err?
    ensures r.Ok? <==> ValidNewItem(input) && RequireUser(caller).Ok?
    ensures r.Ok? ==>
      |r.value.items| == |store.items| + 1 && r.value.items[..|store.items|] == store.items
    ensures r.Ok? ==>
      var item := r.value.items[|store.items|];
      item.id == id && item.userId == caller.value
      && item.itemName == input.itemName && item.category == input.category
      && item.quantity == input.quantity && item.unitCost == input.unitCost
      && item.totalValue == input.quantity * input.unitCost && item.totalValue >= 0
      && item.status == Some(Available)
      && item.currentLocation == Some(input.currentLocation)
      && item.lastLocationUpdate.None?
      && item.projectId == input.projectId && item.unit == input.unit
      && item.qrCode == input.qrCode && item.rfidTag == input.rfidTag && item.notes == input.notes
    ensures r.Ok? ==>
      |r.value.transactions| == |store.transactions| + 1
      && r.value.transactions[..|store.transactions|] == store.transactions
      && var tx := r.value.transactions[|store.transactions|];
         tx.id == txId && tx.inventoryId == id && tx.userId == caller.value && tx.transactionType == Add
         && tx.quantityChanged == input.quantity
         && tx.fromLocation.None? && tx.toLocation == Some(input.currentLocation)
         && tx.notes == Some(InitialNote)
  {
    if !ValidNewItem(input) then Err(InvalidInput)
    else
      var auth := RequireUser(caller);
      if auth.Err? then Err(auth.error)
      else
        var item := Item(id, auth.value, input.projectId, input.itemName, input.category,
                         input.quantity, input.unit, input.unitCost, input.quantity * input.unitCost,
                         input.qrCode, input.rfidTag, Some(input.currentLocation), Some(Available),
                         None, input.notes);
        var tx := Transaction(txId, auth.value, id, Add, input.quantity, None,
                              Some(input.currentLocation), Some(InitialNote));
        Ok(Store(store.items + [item], store.transactions + [tx]))
  }

  // ---------------------------------------------------------------------
  // Transfer

  datatype TransferInput = TransferInput(inventoryId: int, quantity: int, toLocation: string, notes: Option<string>)

  /** The movement a transfer logs: from the item's location, or "Unknown"
      when it has none, to the requested one. */
  function TransferRecord(txId: int, user: int, item: Item, input: TransferInput): Transaction {
    Transaction(txId, user, input.inventoryId, Transfer, input.quantity,
                Some(StringOr(item.currentLocation, "Unknown")), Some(input.toLocation), input.notes)
  }

  function Relocate(to: string, now: int): Item -> Item {
    (i: Item) => i.(currentLocation := Some(to), lastLocationUpdate := Some(now))
  }

  /** `transfer`: moves the caller's item to a new location, provided it
      holds at least the requested quantity. The whole item moves, whatever
      quantity was requested; the update is keyed on the id alone. */
  function TransferItem(store: Store, caller: Caller, input: TransferInput, now: int, txId: int): (r: Result<Store>)
    ensures r == Err(InvalidInput) <==> input.quantity <= 0
    ensures r == Err("Unauthorized") <==> input.quantity > 0 && RequireUser(caller).Err?
    ensures r == Err("Inventory item not found") <==>
      input.quantity > 0 && RequireUser(caller).Ok?
      && forall i :: 0 <= i < |store.items| ==> !Owns(input.inventoryId, caller.value)(store.items[i])
    ensures r == Err("Insufficient quantity") <==>
      input.quantity > 0 && RequireUser(caller).Ok?
      && exists i :: FirstAt(store.items, Owns(input.inventoryId, caller.value), i)
                     && store.items[i].quantity < input.quantity
    ensures r.Ok? <==>
      input.quantity > 0 && RequireUser(caller).Ok?
      && exists i :: FirstAt(store.items, Owns(input.inventoryId, caller.value), i)
                     && store.items[i].quantity >= input.quantity
    ensures r.Ok? ==> |r.value.items| == |store.items|
    ensures r.Ok? ==>
      exists i :: FirstAt(store.items, Owns(input.inventoryId, caller.value), i)
                  && store.items[i].quantity >= input.quantity
                  && r.value.transactions
                     == store.transactions + [TransferRecord(txId, caller.value, store.items[i], input)]
  {
    if input.quantity <= 0 then Err(InvalidInput)
    else
      var auth := RequireUser(caller);
      if auth.Err? then Err(auth.error)
      else
        var p := Owns(input.inventoryId, auth.value);
        var found := First(store.items, p);
        if found.None? then Err("Inventory item not found")
        else
          ghost var i :| FirstAt(store.items, p, i) && store.items[i] == found.value;
          FirstIsOnly(store.items, p, i);
          if found.value.quantity < input.quantity then Err("Insufficient quantity")
          else
            Ok(Store(UpdateWhere(store.items, HasId(input.inventoryId), Relocate(input.toLocation, now)),
                     store.transactions + [TransferRecord(txId, auth.value, found.value, input)]))
  }

  /** A transfer changes only the location and its timestamp, on the rows
      with the requested id; quantity, status and value stay as they were,
      even when only part of the stock was asked for. */
  lemma TransferMovesOnlyLocation(store: Store, user: int, input: TransferInput, now: int, txId: int, j: int)
    requires TransferItem(store, Some(user), input, now, txId).Ok?
    requires 0 <= j < |store.items|
    ensures
      var after := TransferItem(store, Some(user), input, now, txId).value.items[j];
      var before := store.items[j];
      if before.id == input.inventoryId then
        after == before.(currentLocation := Some(input.toLocation), lastLocationUpdate := Some(now))
        && after.quantity == before.quantity && after.status == before.status
        && after.totalValue == before.totalValue
      else after == before
  {
    var found := First(store.items, Owns(input.inventoryId, user));
    assert TransferItem(store, Some(user), input, now, txId).value.items
           == UpdateWhere(store.items, HasId(input.inventoryId), Relocate(input.toLocation, now));
  }

  // ---------------------------------------------------------------------
  // Update status and delete

  function SetStatus(s: ItemStatus): Item -> Item {
    (i: Item) => i.(status := Some(s))
  }

  /** `updateStatus`: the caller's item `id` gets the new status; nothing
      else changes. The request's notes are accepted and not stored. */
  function UpdateStatus(items: seq<Item>, caller: Caller, id: int, status: ItemStatus): (r: Result<seq<Item>>)
    ensures r.Err? <==> RequireUser(caller).Err?
    ensures r.Ok? ==> |r.value| == |items|
    ensures r.Ok? ==> forall j :: 0 <= j < |items| ==>
      if Owns(id, caller.value)(items[j]) then r.value[j] == items[j].(status := Some(status))
      else r.value[j] == items[j]
  {
    var auth := RequireUser(caller);
    if auth.Err? then Err(auth.error)
    else Ok(UpdateWhere(items, Owns(id, auth.value), SetStatus(status)))
  }

  /** Setting the same status twice is setting it once. */
  lemma UpdateStatusIdempotent(items: seq<Item>, user: int, id: int, status: ItemStatus)
    requires user != 0
    ensures UpdateStatus(UpdateStatus(items, Some(user), id, status).value, Some(user), id, status)
            == UpdateStatus(items, Some(user), id, status)
  {
    var once := UpdateStatus(items, Some(user), id, status).value;
    var twice := UpdateStatus(once, Some(user), id, status).value;
    assert forall j :: 0 <= j < |once| ==> twice[j] == once[j];
    assert twice == once;
  }

  /** `delete`: the caller's item `id` disappears; every other row stays,
      as often as it was there, and the movement log keeps the item's
      history. */
  function DeleteItem(store: Store, caller: Caller, id: int): (r: Result<Store>)
    ensures r.Err? <==> RequireUser(caller).Err?
    ensures r.Ok? ==> r.value.transactions == store.transactions
    ensures r.Ok? ==> forall j :: 0 <= j < |r.value.items| ==> !Owns(id, caller.value)(r.value.items[j])
    ensures r.Ok? ==> forall x :: x in store.items && !Owns(id, caller.value)(x) ==> x in r.value.items
    ensures r.Ok? ==> forall x :: x in r.value.items ==> x in store.items
    ensures r.Ok? ==> forall x :: multiset(r.value.items)[x]
                                  == if Owns(id, caller.value)(x) then 0 else multiset(store.items)[x]
  {
    var auth := RequireUser(caller);
    if auth.Err? then Err(auth.error)
    else
      forall x {
        DeleteWhereMultiplicity(store.items, Owns(id, auth.value), x);
      }
      Ok(Store(DeleteWhere(store.items, Owns(id, auth.value)), store.transactions))
  }

  /** A deleted item can no longer be moved. */
  lemma DeletedItemNotFound(store: Store, user: int, id: int, input: TransferInput, now: int, txId: int)
    requires user != 0 && input.quantity > 0 && input.inventoryId == id
    ensures TransferItem(DeleteItem(store, Some(user), id).value, Some(user), input, now, txId)
            == Err("Inventory item not found")
  {
  }

  // ---------------------------------------------------------------------
  // Summary: status counts

  /** The four status keys the summary always reports, and the number of
      items whose status is null (JavaScript adds a key "null" for them). */
  datatype StatusCounts = StatusCounts(available: nat, inUse: nat, maintenance: nat, retired: nat, unknown: nat)

  function Tick(c: StatusCounts, s: Option<ItemStatus>): StatusCounts {
    match s
    case None => c.(unknown := c.unknown + 1)
    case Some(Available) => c.(available := c.available + 1)
    case Some(InUse) => c.(inUse := c.inUse + 1)
    case Some(UnderMaintenance) => c.(maintenance := c.maintenance + 1)
    case Some(Retired) => c.(retired := c.retired + 1)
  }

  /** The count the summary reports for one status value. */
  function CountFor(c: StatusCounts, s: Option<ItemStatus>): nat {
    match s
    case None => c.unknown
    case Some(Available) => c.available
    case Some(InUse) => c.inUse
    case Some(UnderMaintenance) => c.maintenance
    case Some(Retired) => c.retired
  }

  function HasStatus(s: Option<ItemStatus>): Item -> bool {
    (i: Item) => i.status == s
  }

  /** `byStatus`, one item at a time in table order. Every item is counted
      exactly once. */
  function CountStatuses(items: seq<Item>): (c: StatusCounts)
    ensures c.available + c.inUse + c.maintenance + c.retired + c.unknown == |items|
  {
    if |items| == 0 then StatusCounts(0, 0, 0, 0, 0)
    else Tick(CountStatuses(items[..|items| - 1]), items[|items| - 1].status)
  }

  /** Each reported count is the number of items with that status. */
  lemma {:induction false} CountStatusesCounts(items: seq<Item>, s: Option<ItemStatus>)
    ensures CountFor(CountStatuses(items), s) == Count(items, HasStatus(s))
    decreases |items|
  {
    if |items| > 0 {
      var prefix := items[..|items| - 1];
      var last := items[|items| - 1];
      CountStatusesCounts(prefix, s);
      TickCount(CountStatuses(prefix), last.status, s);
      assert items == prefix + [last];
      CountAppend(prefix, [last], HasStatus(s));
    }
  }

  /** Every status value at once: each count is the number of items with
      that status. */
  lemma CountStatusesCountAll(items: seq<Item>)
    ensures forall s :: CountFor(CountStatuses(items), s) == Count(items, HasStatus(s))
  {
    forall s {
      CountStatusesCounts(items, s);
    }
  }

  lemma TickCount(c: StatusCounts, st: Option<ItemStatus>, s: Option<ItemStatus>)
    ensures CountFor(Tick(c, st), s) == CountFor(c, s) + (if st == s then 1 else 0)
  {
  }

  /** Without null statuses, the four keys account for every item. */
  lemma FourKeysCoverAll(items: seq<Item>)
    requires forall j :: 0 <= j < |items| ==> items[j].status.Some?
    ensures var c := CountStatuses(items); c.available + c.inUse + c.maintenance + c.retired == |items|
  {
    CountStatusesCounts(items, None);
    CountNone(items, HasStatus(None));
  }

  // ---------------------------------------------------------------------
  // Summary: counts by category

  /** `byCategory`: each category with its number of items, in the order
      categories first appear. */
  type Tally = seq<(string, nat)>

  /** One more item of category `c`: its entry goes up by one, or a new
      entry is added at the end. */
  function Bump(t: Tally, c: string): Tally {
    if |t| == 0 then [(c, 1)]
    else if t[0].0 == c then [(c, t[0].1 + 1)] + t[1..]
    else [t[0]] + Bump(t[1..], c)
  }

  /** The count reported for `k`; 0 when it is absent. */
  function Lookup(t: Tally, k: string): nat {
    if |t| == 0 then 0 else if t[0].0 == k then t[0].1 else Lookup(t[1..], k)
  }

  function TallyTotal(t: Tally): nat {
    if |t| == 0 then 0 else t[0].1 + TallyTotal(t[1..])
  }

  function ByCategory(items: seq<Item>): Tally {
    if |items| == 0 then [] else Bump(ByCategory(items[..|items| - 1]), items[|items| - 1].category)
  }

  function Categories(items: seq<Item>): seq<string> {
    Column(items, (i: Item) => i.category)
  }

  function InCategory(k: string): Item -> bool {
    (i: Item) => i.category == k
  }

  lemma {:induction false} BumpLookup(t: Tally, c: string, k: string)
    ensures Lookup(Bump(t, c), k) == Lookup(t, k) + (if k == c then 1 else 0)
    decreases |t|
  {
    if |t| > 0 && t[0].0 != c {
      BumpLookup(t[1..], c, k);
      assert Bump(t, c)[1..] == Bump(t[1..], c);
    }
  }

  lemma {:induction false} BumpTotal(t: Tally, c: string)
    ensures TallyTotal(Bump(t, c)) == TallyTotal(t) + 1
    decreases |t|
  {
    if |t| > 0 {
      if t[0].0 == c {
        assert Bump(t, c)[1..] == t[1..];
      } else {
        BumpTotal(t[1..], c);
        assert Bump(t, c)[1..] == Bump(t[1..], c);
      }
    }
  }

  lemma {:induction false} BumpKeys(t: Tally, c: string)
    ensures Keys(Bump(t, c)) == if c in Keys(t) then Keys(t) else Keys(t) + [c]
    decreases |t|
  {
    if |t| > 0 {
      var b := Bump(t, c);
      if t[0].0 == c {
        assert b[1..] == t[1..];
      } else {
        BumpKeys(t[1..], c);
        assert b[1..] == Bump(t[1..], c);
      }
    }
  }

  /** The reported count of a category is its number of items. */
  lemma {:induction false} ByCategoryCounts(items: seq<Item>, k: string)
    ensures Lookup(ByCategory(items), k) == Count(items, InCategory(k))
    decreases |items|
  {
    if |items| > 0 {
      var prefix := items[..|items| - 1];
      var last := items[|items| - 1];
      ByCategoryCounts(prefix, k);
      BumpLookup(ByCategory(prefix), last.category, k);
      assert items == prefix + [last];
      CountAppend(prefix, [last], InCategory(k));
    }
  }

  /** The category counts add up to the number of items. */
  lemma {:induction false} ByCategoryTotal(items: seq<Item>)
    ensures TallyTotal(ByCategory(items)) == |items|
    decreases |items|
  {
    if |items| > 0 {
      ByCategoryTotal(items[..|items| - 1]);
      BumpTotal(ByCategory(items[..|items| - 1]), items[|items| - 1].category);
    }
  }

  /** The categories appear once each, in order of first appearance. */
  lemma {:induction false} ByCategoryKeys(items: seq<Item>)
    ensures Keys(ByCategory(items)) == FirstOccurrences(Categories(items))
    decreases |items|
  {
    if |items| > 0 {
      var prefix := items[..|items| - 1];
      ByCategoryKeys(prefix);
      BumpKeys(ByCategory(prefix), items[|items| - 1].category);
      assert Categories(items)[..|items| - 1] == Categories(prefix);
    }
  }

  // ---------------------------------------------------------------------
  // `byCategory` as the router builds it on a plain JavaScript object

  /** Property names every plain object inherits as functions. */
  const InheritedMethods: set<string> := {
    "constructor", "hasOwnProperty", "isPrototypeOf", "propertyIsEnumerable",
    "toLocaleString", "toString", "valueOf", "__defineGetter__", "__defineSetter__",
    "__lookupGetter__", "__lookupSetter__"}

  /** A value of the object: a count, or the text `fn + 1` produces. */
  datatype CountValue = Number(n: nat) | Text

  /** `byCategory[c] = (byCategory[c] || 0) + 1` on `{}`: reading an
      inherited method gives a function, and adding 1 to it gives a string;
      writing to "__proto__" a value that is not an object is ignored. */
  function BumpAsWritten(t: seq<(string, CountValue)>, c: string): seq<(string, CountValue)> {
    if c == "__proto__" then t
    else if |t| == 0 then [(c, if c in InheritedMethods then Text else Number(1))]
    else if t[0].0 == c then [(c, if t[0].1.Number? then Number(t[0].1.n + 1) else Text)] + t[1..]
    else [t[0]] + BumpAsWritten(t[1..], c)
  }

  function ByCategoryAsWritten(items: seq<Item>): seq<(string, CountValue)> {
    if |items| == 0 then []
    else BumpAsWritten(ByCategoryAsWritten(items[..|items| - 1]), items[|items| - 1].category)
  }

  function SampleItem(category: string): Item {
    Item(1, 7, None, "Drill", category, 1, "each", 0, 0, None, None, None, Some(Available), None, None)
  }

  /** An item of category "__proto__" is missing from the object, so the
      category counts no longer add up to the number of items, and an item
      of category "toString" is counted as a string. The counting of
      `ByCategory` is what the summary uses. */
  lemma ByCategoryAsWrittenLosesCounts()
    ensures ByCategoryAsWritten([SampleItem("__proto__")]) == []
    ensures TallyTotal(ByCategory([SampleItem("__proto__")])) == 1
    ensures ByCategoryAsWritten([SampleItem("toString")]) == [("toString", Text)]
    ensures ByCategory([SampleItem("toString")]) == [("toString", 1)]
  {
    assert [SampleItem("__proto__")][..0] == [];
    assert [SampleItem("toString")][..0] == [];
  }

  // ---------------------------------------------------------------------
  // Summary

  datatype Summary = Summary(totalItems: nat, totalValue: int, byStatus: StatusCounts, byCategory: Tally)

  function ValueOf(i: Item): int {
    i.totalValue
  }

  /** The summary of a list of items: count, value in cents, the status
      counts and the category counts. */
  function Summarize(mine: seq<Item>): (s: Summary)
    ensures s.totalItems == |mine|
    ensures s.totalValue == SumInt(mine, ValueOf)
    ensures s.byStatus == CountStatuses(mine)
    ensures forall st :: CountFor(s.byStatus, st) == Count(mine, HasStatus(st))
    ensures s.byStatus.available + s.byStatus.inUse + s.byStatus.maintenance + s.byStatus.retired
            + s.byStatus.unknown == |mine|
    ensures TallyTotal(s.byCategory) == |mine|
    ensures NoDuplicates(Keys(s.byCategory))
    ensures Keys(s.byCategory) == FirstOccurrences(Categories(mine))
    ensures forall k :: Lookup(s.byCategory, k) == Count(mine, InCategory(k))
  {
    ByCategoryTotal(mine);
    ByCategoryKeys(mine);
    forall k {
      ByCategoryCounts(mine, k);
    }
    CountStatusesCountAll(mine);
    FirstOccurrencesDistinct(Categories(mine));
    Summary(|mine|, SumInt(mine, ValueOf), CountStatuses(mine), ByCategory(mine))
  }

  /** `getSummary`: the summary of the caller's items. */
  function GetSummary(items: seq<Item>, caller: Caller): (r: Result<Summary>)
    ensures r.Err? <==> RequireUser(caller).Err?
    ensures r.Ok? ==> r.value == Summarize(Filter(items, OfUser(caller.value)))
  {
    var auth := RequireUser(caller);
    if auth.Err? then Err(auth.error)
    else Ok(Summarize(Filter(items, OfUser(auth.value))))
  }

  /** One more item adds one to the count, its value to the total, one to
      its status and one to its category. */
  lemma SummarizeSnoc(mine: seq<Item>, item: Item)
    ensures
      var before := Summarize(mine);
      var after := Summarize(mine + [item]);
      after.totalItems == before.totalItems + 1
      && after.totalValue == before.totalValue + item.totalValue
      && after.byStatus == Tick(before.byStatus, item.status)
      && after.byCategory == Bump(before.byCategory, item.category)
  {
    SumIntAppend(mine, [item], ValueOf);
    assert (mine + [item])[..|mine|] == mine;
  }

  /** Creating an item adds one available item, its value and one count
      for its category to the caller's summary. */
  lemma CreateAddsToSummary(store: Store, user: int, input: NewItem, id: int, txId: int)
    requires CreateItem(store, Some(user), input, id, txId).Ok?
    ensures
      var before := GetSummary(store.items, Some(user)).value;
      var after := GetSummary(CreateItem(store, Some(user), input, id, txId).value.items, Some(user)).value;
      after.totalItems == before.totalItems + 1
      && after.totalValue == before.totalValue + input.quantity * input.unitCost
      && after.byStatus == before.byStatus.(available := before.byStatus.available + 1)
      && after.byCategory == Bump(before.byCategory, input.category)
  {
    var items' := CreateItem(store, Some(user), input, id, txId).value.items;
    var item := items'[|store.items|];
    var p := OfUser(user);
    var mine := Filter(store.items, p);
    assert Filter(items', p) == mine + [item] by {
      assert items' == store.items + [item];
      FilterAppend(store.items, [item], p);
      assert Filter([item], p) == [item];
    }
    SummarizeSnoc(mine, item);
    assert item.totalValue == input.quantity * input.unitCost;
    assert Tick(Summarize(mine).byStatus, item.status)
        == Summarize(mine).byStatus.(available := Summarize(mine).byStatus.available + 1);
  }

  /** Two lists that agree item by item on value, status and category have
      the same summary. */
  predicate SameTotals(a: seq<Item>, b: seq<Item>) {
    |a| == |b|
    && forall j :: 0 <= j < |a| ==>
         a[j].totalValue == b[j].totalValue && a[j].status == b[j].status && a[j].category == b[j].category
  }

  lemma {:induction false} SameTotalsSum(a: seq<Item>, b: seq<Item>)
    requires SameTotals(a, b)
    ensures SumInt(a, ValueOf) == SumInt(b, ValueOf)
    decreases |a|
  {
    if |a| > 0 {
      SameTotalsSum(a[1..], b[1..]);
    }
  }

  lemma {:induction false} SameTotalsCounts(a: seq<Item>, b: seq<Item>)
    requires SameTotals(a, b)
    ensures CountStatuses(a) == CountStatuses(b)
    ensures ByCategory(a) == ByCategory(b)
    decreases |a|
  {
    if |a| > 0 {
      SameTotalsCounts(a[..|a| - 1], b[..|b| - 1]);
    }
  }

  lemma SameTotalsSummary(a: seq<Item>, b: seq<Item>)
    requires SameTotals(a, b)
    ensures Summarize(a) == Summarize(b)
  {
    SameTotalsSum(a, b);
    SameTotalsCounts(a, b);
  }

  /** Moving items keeps value, status and category. */
  lemma RelocateKeepsTotals(mine: seq<Item>, id: int, to: string, now: int)
    ensures SameTotals(UpdateWhere(mine, HasId(id), Relocate(to, now)), mine)
  {
  }

  /** A transfer leaves every user's summary as it was. */
  lemma TransferKeepsSummary(store: Store, user: int, input: TransferInput, now: int, txId: int, viewer: int)
    requires TransferItem(store, Some(user), input, now, txId).Ok?
    requires viewer != 0
    ensures GetSummary(TransferItem(store, Some(user), input, now, txId).value.items, Some(viewer))
            == GetSummary(store.items, Some(viewer))
  {
    var f := Relocate(input.toLocation, now);
    var p := HasId(input.inventoryId);
    var q := OfUser(viewer);
    assert TransferItem(store, Some(user), input, now, txId).value.items == UpdateWhere(store.items, p, f);
    FilterUpdateWhere(store.items, q, p, f);
    var mine := Filter(store.items, q);
    RelocateKeepsTotals(mine, input.inventoryId, input.toLocation, now);
    SameTotalsSummary(UpdateWhere(mine, p, f), mine);
  }
}

=== FILE: inventory_page.dfy ===
/** The reorder rules of the inventory management page: how an item's
    stock compares with its reorder level, the "Items to Reorder" list and
    the category filter. */
module InventoryPage {
  import opened Tables

  /** A material as the page lists it; `cost` is in whole dollars. */
  datatype Material = Material(
    id: int,
    name: string,
    sku: string,
    category: string,
    quantity: int,
    unit: string,
    reorderLevel: int,
    cost: int,
    supplier: string)

  /** `critical`, `low` and `ok`. */
  datatype ReorderStatus = Critical | Low | Fine

  /** `getNeedReorderStatus`: critical at or below the reorder level, low up
      to one and a half times it, fine above. For whole numbers,
      `q <= r * 1.5` is `2 * q <= 3 * r`. */
  function NeedReorderStatus(quantity: int, reorderLevel: int): (s: ReorderStatus)
    ensures s == Critical <==> quantity <= reorderLevel
    ensures s == Low <==> reorderLevel < quantity && 2 * quantity <= 3 * reorderLevel
    ensures s == Fine <==> quantity > reorderLevel && 2 * quantity > 3 * reorderLevel
  {
    if quantity <= reorderLevel then Critical
    else if 2 * quantity <= 3 * reorderLevel then Low
    else Fine
  }

  /** How urgent a status is: critical 2, low 1, fine 0. */
  function Urgency(s: ReorderStatus): nat {
    match s
    case Critical => 2
    case Low => 1
    case Fine => 0
  }

  /** More stock never makes an item more urgent. */
  lemma MoreStockIsLessUrgent(q1: int, q2: int, r: int)
    requires q1 <= q2
    ensures Urgency(NeedReorderStatus(q2, r)) <= Urgency(NeedReorderStatus(q1, r))
  {
  }

  /** With a reorder level that is not negative, the low band lies above
      the critical one. */
  lemma LowBandAboveCritical(q: int, r: int)
    requires r >= 0 && q <= r
    ensures 2 * q <= 3 * r
  {
  }

  /** The "Items to Reorder" list: `quantity <= reorderLevel * 1.5`. */
  predicate OnReorderList(m: Material) {
    2 * m.quantity <= 3 * m.reorderLevel
  }

  function ReorderList(items: seq<Material>): seq<Material> {
    Filter(items, OnReorderList)
  }

  function NeedsReorder(m: Material): bool {
    NeedReorderStatus(m.quantity, m.reorderLevel) != Fine
  }

  /** An item is on the reorder list exactly when its status is not fine,
      provided reorder levels are not negative. */
  lemma {:induction false} ReorderListIsNotFine(items: seq<Material>)
    requires forall i :: 0 <= i < |items| ==> items[i].reorderLevel >= 0
    ensures ReorderList(items) == Filter(items, NeedsReorder)
    decreases |items|
  {
    if |items| > 0 {
      ReorderListIsNotFine(items[1..]);
    }
  }

  /** With a negative reorder level a critical item can miss the list. */
  lemma NegativeLevelMissesList()
    ensures var m := Material(1, "Shims", "SHIM", "hardware", -2, "packs", -2, 1, "Lowes");
            NeedReorderStatus(m.quantity, m.reorderLevel) == Critical && !OnReorderList(m)
  {
  }

  function InCategory(c: string): Material -> bool {
    (m: Material) => m.category == c
  }

  /** The category filter: "all" shows every item, any other choice the
      items of that category, in their order. */
  function FilterByCategory(items: seq<Material>, selected: string): (r: seq<Material>)
    ensures selected == "all" ==> r == items
    ensures selected != "all" ==> |r| == Count(items, InCategory(selected))
    ensures selected != "all" ==> forall i :: 0 <= i < |r| ==> r[i].category == selected && r[i] in items
  {
    if selected == "all" then items else Filter(items, InCategory(selected))
  }

  /** No item of the chosen category is left out. */
  lemma FilterByCategoryKeepsAll(items: seq<Material>, selected: string, m: Material)
    requires m in items && m.category == selected
    ensures m in FilterByCategory(items, selected)
  {
    if selected != "all" {
      FilterKeeps(items, InCategory(selected), m);
    }
  }
}

=== FILE: recurring_invoices.dfy ===
/** Recurring invoice templates (`server/routers/recurringInvoices.ts`):
    creating, editing and deleting a template, and the generator that turns
    every due template into an invoice and moves its next invoice date one
    period on. */
module RecurringInvoices {
  import opened Wrappers
  import opened Tables
  import Calendar
  import Decimal
  import Schema

  datatype Frequency = Weekly | Biweekly | Monthly | Quarterly | Yearly

  datatype Status = Active | Paused | Cancelled

  /** A row of `recurringInvoices`. */
  datatype Template = Template(
    id: int,
    userId: int,
    clientId: int,
    projectId: Option<int>,
    name: string,
    frequency: Frequency,
    status: Status,
    startDate: int,
    endDate: Option<int>,
    subtotal: string,
    taxAmount: string,
    total: string,
    nextInvoiceDate: Option<int>)

  /** Template ids are the table's primary key. */
  predicate UniqueIds(table: seq<Template>) {
    forall i, j :: 0 <= i < j < |table| ==> table[i].id != table[j].id
  }

  /** The row `id` of user `user`: the condition of update and delete. */
  function OwnedRow(id: int, user: int): Template -> bool {
    (r: Template) => r.id == id && r.userId == user
  }

  // ---------------------------------------------------------------------
  // create

  datatype NewTemplate = NewTemplate(
    clientId: int,
    name: string,
    frequency: Frequency,
    startDate: int,
    endDate: Option<int>,
    subtotal: Option<string>,
    taxAmount: Option<string>,
    total: string)

  /** Inserts the template as row `id` of the caller: active, first invoice
      on the start date, missing or empty subtotal and tax recorded as "0". */
  function Create(table: seq<Template>, user: int, id: int, input: NewTemplate): (r: seq<Template>)
    ensures |r| == |table| + 1 && r[..|table|] == table
    ensures var t := r[|table|];
      t.id == id && t.userId == user && t.clientId == input.clientId && t.projectId.None?
      && t.name == input.name && t.frequency == input.frequency
      && t.startDate == input.startDate && t.endDate == input.endDate && t.total == input.total
    ensures var t := r[|table|];
      (if input.subtotal.Some? && input.subtotal.value != "" then t.subtotal == input.subtotal.value
       else t.subtotal == "0")
      && (if input.taxAmount.Some? && input.taxAmount.value != "" then t.taxAmount == input.taxAmount.value
          else t.taxAmount == "0")
    ensures forall now :: IsDue(r[|table|], user, now) <==> input.startDate <= now
  {
    table + [Template(id, user, input.clientId, None, input.name, input.frequency, Active,
                      input.startDate, input.endDate,
                      Schema.StringOr(input.subtotal, "0"), Schema.StringOr(input.taxAmount, "0"),
                      input.total, Some(input.startDate))]
  }

  // ---------------------------------------------------------------------
  // update

  /** The optional fields of an update; an absent field is left as it is. */
  datatype Patch = Patch(
    name: Option<string>,
    frequency: Option<Frequency>,
    status: Option<Status>,
    total: Option<string>)

  predicate EmptyPatch(p: Patch) {
    p.name.None? && p.frequency.None? && p.status.None? && p.total.None?
  }

  function Patched(t: Template, p: Patch): Template {
    t.(name := p.name.GetOr(t.name),
       frequency := p.frequency.GetOr(t.frequency),
       status := p.status.GetOr(t.status),
       total := p.total.GetOr(t.total))
  }

  /** `UPDATE ... SET <given fields> WHERE id AND userId`. The query builder
      refuses an update that sets nothing. */
  function Update(table: seq<Template>, user: int, id: int, p: Patch): (r: Result<seq<Template>>)
    ensures r.Err? <==> EmptyPatch(p)
    ensures r.Ok? ==> |r.value| == |table|
    ensures r.Ok? ==> forall i :: 0 <= i < |table| ==>
      r.value[i] == if table[i].id == id && table[i].userId == user then Patched(table[i], p) else table[i]
  {
    if EmptyPatch(p) then Err("No values to set")
    else Ok(UpdateWhere(table, OwnedRow(id, user), (t: Template) => Patched(t, p)))
  }

  /** An update touches only the four editable fields: the schedule, the
      owner and the other amounts stay, and each given field is set. */
  lemma PatchedKeepsSchedule(t: Template, p: Patch)
    ensures var u := Patched(t, p);
      u.id == t.id && u.userId == t.userId && u.clientId == t.clientId
      && u.startDate == t.startDate && u.endDate == t.endDate
      && u.nextInvoiceDate == t.nextInvoiceDate
      && u.subtotal == t.subtotal && u.taxAmount == t.taxAmount
    ensures p.status.Some? ==> Patched(t, p).status == p.status.value
    ensures p.total.Some? ==> Patched(t, p).total == p.total.value
    ensures EmptyPatch(p) ==> Patched(t, p) == t
  {
  }

  /** Pausing or cancelling a template takes it out of every later run of
      the generator; reactivating it puts it back on its old schedule. */
  lemma UpdateStatusControlsGeneration(t: Template, p: Patch, user: int, now: int)
    requires p.status.Some?
    ensures p.status.value != Active ==> !IsDue(Patched(t, p), user, now)
    ensures p.status.value == Active ==> (IsDue(Patched(t, p), user, now) <==>
      t.userId == user && t.nextInvoiceDate.Some? && t.nextInvoiceDate.value <= now)
  {
  }

  // ---------------------------------------------------------------------
  // delete

  /** `DELETE ... WHERE id AND userId`: only the caller's row `id` goes. */
  function Delete(table: seq<Template>, user: int, id: int): (r: seq<Template>)
    ensures forall i :: 0 <= i < |r| ==> !(r[i].id == id && r[i].userId == user) && r[i] in table
    ensures forall t :: t in table && (t.id != id || t.userId != user) ==> t in r
    ensures UniqueIds(table) ==> |table| - 1 <= |r| <= |table|
    ensures UniqueIds(table) ==> UniqueIds(r)
    ensures forall t :: multiset(r)[t] == if t.id == id && t.userId == user then 0 else multiset(table)[t]
  {
    var r := DeleteWhere(table, OwnedRow(id, user));
    forall t {
      DeleteWhereMultiplicity(table, OwnedRow(id, user), t);
    }
    assert UniqueIds(table) ==> UniqueIds(r) by {
      if UniqueIds(table) {
        DeleteKeepsUniqueIds(table, OwnedRow(id, user));
      }
    }
    assert UniqueIds(table) ==> Count(table, OwnedRow(id, user)) <= 1 by {
      if UniqueIds(table) {
        AtMostOneOwnedRow(table, id, user);
      }
    }
    r
  }

  /** Deleting rows never makes two ids equal. */
  lemma {:induction false} DeleteKeepsUniqueIds(table: seq<Template>, p: Template -> bool)
    requires UniqueIds(table)
    ensures UniqueIds(DeleteWhere(table, p))
    decreases |table|
  {
    if |table| > 0 {
      var tail := table[1..];
      UniqueIdsTail(table);
      DeleteKeepsUniqueIds(tail, p);
      if !p(table[0]) {
        var rest := DeleteWhere(tail, p);
        assert DeleteWhere(table, p) == [table[0]] + rest;
        forall x | x in rest
          ensures x.id != table[0].id
        {
          assert x in tail;
          HeadIdNotInTail(table, x);
        }
        UniqueIdsCons(table[0], rest);
      }
    }
  }

  lemma UniqueIdsTail(table: seq<Template>)
    requires |table| > 0 && UniqueIds(table)
    ensures UniqueIds(table[1..])
  {
    var tail := table[1..];
    forall i, j | 0 <= i < j < |tail|
      ensures tail[i].id != tail[j].id
    {
      assert tail[i] == table[i + 1] && tail[j] == table[j + 1];
    }
  }

  lemma HeadIdNotInTail(table: seq<Template>, x: Template)
    requires |table| > 0 && UniqueIds(table) && x in table[1..]
    ensures x.id != table[0].id
  {
    var m :| 0 <= m < |table[1..]| && table[1..][m] == x;
    assert table[m + 1] == x;
  }

  lemma UniqueIdsCons(t: Template, rest: seq<Template>)
    requires UniqueIds(rest)
    requires forall x :: x in rest ==> x.id != t.id
    ensures UniqueIds([t] + rest)
  {
    var r := [t] + rest;
    forall i, j | 0 <= i < j < |r|
      ensures r[i].id != r[j].id
    {
      assert r[j] == rest[j - 1];
      if i > 0 {
        assert r[i] == rest[i - 1];
      }
    }
  }

  lemma {:induction false} AtMostOneOwnedRow(table: seq<Template>, id: int, user: int)
    requires UniqueIds(table)
    ensures Count(table, OwnedRow(id, user)) <= 1
    decreases |table|
  {
    if |table| > 0 {
      AtMostOneOwnedRow(table[1..], id, user);
      if OwnedRow(id, user)(table[0]) {
        NoOtherOwnedRow(table[1..], id, user);
      }
    }
  }

  lemma {:induction false} NoOtherOwnedRow(table: seq<Template>, id: int, user: int)
    requires forall i :: 0 <= i < |table| ==> table[i].id != id
    ensures Count(table, OwnedRow(id, user)) == 0
    decreases |table|
  {
    if |table| > 0 {
      NoOtherOwnedRow(table[1..], id, user);
    }
  }

  // ---------------------------------------------------------------------
  // generateDueInvoices

  /** The generator selects the caller's active templates and bills those
      whose next invoice date is set and not in the future. */
  predicate IsDue(t: Template, user: int, now: int) {
    t.userId == user && t.status == Active && t.nextInvoiceDate.Some? && t.nextInvoiceDate.value <= now
  }

  function Selected(user: int): Template -> bool {
    (t: Template) => t.userId == user && t.status == Active
  }

  function Due(user: int, now: int): Template -> bool {
    (t: Template) => IsDue(t, user, now)
  }

  /** The next invoice date one period after `t`: seven or fourteen days on,
      or one, three or twelve calendar months on (without end-of-month
      clamping), at the same time of day. */
  function NextDate(f: Frequency, t: int): int {
    match f
    case Weekly => Calendar.AddDays(t, 7)
    case Biweekly => Calendar.AddDays(t, 14)
    case Monthly => Calendar.AddMonths(t, 1)
    case Quarterly => Calendar.AddMonths(t, 3)
    case Yearly => Calendar.AddYears(t, 1)
  }

  /** Every frequency moves the date strictly forward at the same time of
      day: by 7 or 14 days, or by 28 to 31 days per month added. */
  lemma NextDateIsLater(f: Frequency, t: int)
    ensures NextDate(f, t) > t
    ensures Calendar.TimeWithinDay(NextDate(f, t)) == Calendar.TimeWithinDay(t)
    ensures var d := Calendar.Day(NextDate(f, t)) - Calendar.Day(t);
      match f
      case Weekly => d == 7
      case Biweekly => d == 14
      case Monthly => 28 <= d <= 31
      case Quarterly => 84 <= d <= 93
      case Yearly => 336 <= d <= 372
  {
    match f
    case Weekly =>
      Calendar.TimeDecomposition(t);
      Calendar.TimeDecomposition(NextDate(f, t));
      Calendar.DayOfMakeDate(Calendar.Day(t) + 7, t);
    case Biweekly =>
      Calendar.TimeDecomposition(t);
      Calendar.TimeDecomposition(NextDate(f, t));
      Calendar.DayOfMakeDate(Calendar.Day(t) + 14, t);
    case Monthly =>
      Calendar.AddMonthsDistance(t, 1);
      Calendar.AddMonthsIsLater(t, 1);
    case Quarterly =>
      Calendar.AddMonthsDistance(t, 3);
      Calendar.AddMonthsIsLater(t, 3);
    case Yearly =>
      Calendar.AddYearsIsTwelveMonths(t, 1);
      Calendar.AddMonthsDistance(t, 12);
      Calendar.AddMonthsIsLater(t, 12);
  }

  /** A monthly template first due on January 31 is next due on March 3 (March
      2 in a leap year): the date does not stick to the month's end. */
  lemma MonthlyFromJanuaryThirtyFirst(t: int)
    requires Calendar.DateOf(t).month == 0 && Calendar.DateOf(t).date == 31
    ensures var y := Calendar.DateOf(t).year;
      Calendar.DateOf(NextDate(Monthly, t))
        == Calendar.CivilDate(y, 2, if Calendar.IsLeapYear(y) then 2 else 3)
  {
    Calendar.JanuaryThirtyFirstPlusOneMonth(t);
  }

  /** The template after billing: its next invoice date one period on,
      everything else unchanged. */
  function Advance(t: Template): Template {
    match t.nextInvoiceDate
    case None => t
    case Some(d) => t.(nextInvoiceDate := Some(NextDate(t.frequency, d)))
  }

  const ThirtyDays: int := 30 * 24 * 60 * 60 * 1000

  /** The invoice number `REC-<milliseconds>` from the clock reading. */
  function InvoiceNumber(stamp: int): string {
    "REC-" + Decimal.IntToString(stamp)
  }

  /** Two clock readings give the same invoice number exactly when they are
      the same millisecond. */
  lemma InvoiceNumberInjective(a: int, b: int)
    ensures InvoiceNumber(a) == InvoiceNumber(b) <==> a == b
  {
    if InvoiceNumber(a) == InvoiceNumber(b) {
      assert Decimal.IntToString(a) == InvoiceNumber(a)[4..];
      assert Decimal.IntToString(b) == InvoiceNumber(b)[4..];
    }
    Decimal.IntToStringInjective(a, b);
  }

  /** The invoice billed for template `t`: sent today, due thirty days
      later, the template's amounts, no project and no notes. */
  function Bill(t: Template, user: int, now: int, id: int, number: string): Schema.Invoice {
    Schema.Invoice(id, user, t.clientId, None, number, Schema.Sent, Some(now), Some(now + ThirtyDays),
                   t.subtotal, t.taxAmount, t.total, None)
  }

  /** The inputs of one run: the caller, the time `now` the run started,
      the id the next inserted invoice gets, and the `Date.now()` readings
      taken for the invoice numbers, in order. */
  datatype Run = Run(user: int, now: int, firstId: int, clock: nat -> int)

  /** The invoices a run inserts for the due templates `due`, in order; the
      `k`-th gets id `firstId + k` and a number from the `k`-th clock
      reading. */
  function Bills(due: seq<Template>, c: Run): (r: seq<Schema.Invoice>)
    ensures |r| == |due|
    ensures forall k :: 0 <= k < |due| ==> r[k].invoiceNumber == InvoiceNumber(c.clock(k))
  {
    seq(|due|, k requires 0 <= k < |due| => Bill(due[k], c.user, c.now, c.firstId + k, InvoiceNumber(c.clock(k))))
  }

  lemma BillsSnoc(due: seq<Template>, t: Template, c: Run)
    ensures Bills(due + [t], c)
      == Bills(due, c) + [Bill(t, c.user, c.now, c.firstId + |due|, InvoiceNumber(c.clock(|due|)))]
  {
  }

  lemma BillsPrefix(due: seq<Template>, more: seq<Template>, c: Run)
    ensures Bills(due, c) == Bills(due + more, c)[..|due|]
  {
  }

  /** The templates table after a run that billed every due template. */
  function Refreshed(table: seq<Template>, user: int, now: int): seq<Template> {
    UpdateWhere(table, Due(user, now), Advance)
  }

  /** The first `n` invoice numbers a run draws are neither in the table
      already nor drawn twice (`invoiceNumber` is a unique column). */
  predicate FreshNumbers(invoices: seq<Schema.Invoice>, clock: nat -> int, n: nat) {
    forall k :: 0 <= k < n ==>
      InvoiceNumber(clock(k)) !in Schema.NumbersOf(invoices)
      && forall j :: 0 <= j < k ==> InvoiceNumber(clock(j)) != InvoiceNumber(clock(k))
  }

  /** The first `n` numbers are fresh exactly when none of them is in the
      table already and no two of the first `n` clock readings fall in the
      same millisecond. */
  lemma FreshNumbersOnReadings(invoices: seq<Schema.Invoice>, clock: nat -> int, n: nat)
    ensures FreshNumbers(invoices, clock, n)
      <==> forall k :: 0 <= k < n ==>
             InvoiceNumber(clock(k)) !in Schema.NumbersOf(invoices)
             && forall j :: 0 <= j < k ==> clock(j) != clock(k)
  {
    forall j: nat, k: nat {
      InvoiceNumberInjective(clock(j), clock(k));
    }
  }

  function DuplicateMessage(number: string): string {
    "Duplicate entry '" + number + "' for key 'invoiceNumber'"
  }

  /** The tables part-way through a run: the templates, the invoices, how
      many invoices were inserted and the error that ended the run, if
      any. */
  datatype RunState = RunState(
    templates: seq<Template>,
    invoices: seq<Schema.Invoice>,
    billed: nat,
    failure: Option<string>)

  /** `UPDATE recurringInvoices SET nextInvoiceDate WHERE id`: by id alone. */
  function Reschedule(templates: seq<Template>, t: Template, next: int): seq<Template> {
    UpdateWhere(templates, (r: Template) => r.id == t.id, (r: Template) => r.(nextInvoiceDate := Some(next)))
  }

  /** One turn of the loop over the selected template `t`. The loop checks
      only the next invoice date: owner and status were the query's
      condition. */
  function Step(s: RunState, t: Template, c: Run): RunState {
    if s.failure.Some? || t.nextInvoiceDate.None? || t.nextInvoiceDate.value > c.now then s
    else Insert(s, t, c, InvoiceNumber(c.clock(s.billed)))
  }

  /** Billing the due template `t` under invoice number `number`: the
      insert fails when the number is taken, otherwise the template is
      rescheduled. */
  function Insert(s: RunState, t: Template, c: Run, number: string): RunState
    requires t.nextInvoiceDate.Some?
  {
    if number in Schema.NumbersOf(s.invoices) then s.(failure := Some(DuplicateMessage(number)))
    else RunState(Reschedule(s.templates, t, NextDate(t.frequency, t.nextInvoiceDate.value)),
                  s.invoices + [Bill(t, c.user, c.now, c.firstId + s.billed, number)],
                  s.billed + 1, None)
  }

  /** The state after the loop has visited `rows`, one at a time. */
  function RunOver(start: RunState, rows: seq<Template>, c: Run): RunState
    decreases |rows|
  {
    if |rows| == 0 then start else Step(RunOver(start, rows[..|rows| - 1], c), rows[|rows| - 1], c)
  }

  /** One run of the generator: the selected templates are visited in table
      order; rows are written one at a time without a transaction, so an
      insert whose number is already taken ends the run with the rows
      written so far. */
  method GenerateDueInvoices(table: seq<Template>, invoices: seq<Schema.Invoice>, c: Run)
    returns (table': seq<Template>, invoices': seq<Schema.Invoice>, generated: Result<nat>)
    requires UniqueIds(table)
    ensures |table'| == |table|
    ensures var due := Filter(table, Due(c.user, c.now));
      generated.Ok? <==> FreshNumbers(invoices, c.clock, |due|)
    ensures var due := Filter(table, Due(c.user, c.now));
      generated.Ok? ==> (generated.value == |due|
                         && table' == Refreshed(table, c.user, c.now)
                         && invoices' == invoices + Bills(due, c))
    ensures var due := Filter(table, Due(c.user, c.now));
      generated.Err? ==> exists m :: 0 <= m < |due| && invoices' == invoices + Bills(due, c)[..m]
                                     && forall i :: 0 <= i < |table| ==>
                                          table'[i] == if table[i] in due[..m] then Advance(table[i]) else table[i]
    ensures forall i :: 0 <= i < |table| ==>
      table'[i] == table[i] || (IsDue(table[i], c.user, c.now) && table'[i] == Advance(table[i]))
  {
    var selected := Filter(table, Selected(c.user));
    var count, failure;
    table', invoices', count, failure := VisitSelected(table, invoices, c, selected);
    ghost var s := RunOver(RunState(table, invoices, 0, None), selected, c);
    assert s.templates == table' && s.invoices == invoices' && s.billed == count && s.failure == failure;
    RunResult(table, invoices, c);
    ghost var due := Filter(table, Due(c.user, c.now));
    if failure.None? {
      generated := Ok(count);
    } else {
      generated := Err(failure.value);
      assert 0 <= count < |due| && invoices' == invoices + Bills(due, c)[..count];
      assert forall i :: 0 <= i < |table| ==> table'[i] == if table[i] in due[..count] then Advance(table[i]) else table[i];
    }
  }

  /** The loop of a run over the selected templates, stopping at the first
      failed insert. */
  method VisitSelected(table: seq<Template>, invoices: seq<Schema.Invoice>, c: Run, selected: seq<Template>)
    returns (table': seq<Template>, invoices': seq<Schema.Invoice>, count: nat, failure: Option<string>)
    ensures RunOver(RunState(table, invoices, 0, None), selected, c) == RunState(table', invoices', count, failure)
  {
    ghost var start := RunState(table, invoices, 0, None);
    table' := table;
    invoices' := invoices;
    count := 0;
    failure := None;
    var i := 0;
    while i < |selected| && failure.None?
      invariant 0 <= i <= |selected|
      invariant RunOver(start, selected[..i], c) == RunState(table', invoices', count, failure)
    {
      var t := selected[i];
      ghost var s := RunState(table', invoices', count, None);
      assert RunOver(start, selected[..i + 1], c) == Step(s, t, c) by {
        assert selected[..i + 1][..i] == selected[..i];
      }
      if t.nextInvoiceDate.Some? && t.nextInvoiceDate.value <= c.now {
        var number := InvoiceNumber(c.clock(count));
        assert Step(s, t, c) == Insert(s, t, c, number);
        if number in Schema.NumbersOf(invoices') {
          failure := Some(DuplicateMessage(number));
          assert Insert(s, t, c, number) == s.(failure := failure);
        } else {
          var bill := Bill(t, c.user, c.now, c.firstId + count, number);
          var rescheduled := Reschedule(table', t, NextDate(t.frequency, t.nextInvoiceDate.value));
          assert Insert(s, t, c, number) == RunState(rescheduled, invoices' + [bill], count + 1, None);
          invoices' := invoices' + [bill];
          count := count + 1;
          table' := rescheduled;
        }
      } else {
        assert Step(s, t, c) == s;
      }
      i := i + 1;
    }
    if failure.Some? {
      assert selected == selected[..i] + selected[i..];
      RunOverAppend(start, selected[..i], selected[i..], c);
      FailureIsFinal(RunOver(start, selected[..i], c), selected[i..], c);
    } else {
      assert selected[..i] == selected;
    }
  }

  /** Visiting `a` then `b` is visiting `a + b`. */
  lemma {:induction false} RunOverAppend(start: RunState, a: seq<Template>, b: seq<Template>, c: Run)
    ensures RunOver(start, a + b, c) == RunOver(RunOver(start, a, c), b, c)
    decreases |b|
  {
    if |b| > 0 {
      assert (a + b)[..|a + b| - 1] == a + b[..|b| - 1];
      RunOverAppend(start, a, b[..|b| - 1], c);
    } else {
      assert a + b == a;
    }
  }

  /** Once an insert has failed, nothing more is written. */
  lemma {:induction false} FailureIsFinal(s: RunState, rows: seq<Template>, c: Run)
    requires s.failure.Some?
    ensures RunOver(s, rows, c) == s
    decreases |rows|
  {
    if |rows| > 0 {
      FailureIsFinal(s, rows[..|rows| - 1], c);
    }
  }

  /** What a whole run over the selected templates leaves behind. */
  lemma RunResult(table: seq<Template>, invoices: seq<Schema.Invoice>, c: Run)
    requires UniqueIds(table)
    ensures var s := RunOver(RunState(table, invoices, 0, None), Filter(table, Selected(c.user)), c);
      var due := Filter(table, Due(c.user, c.now));
      (s.failure.None? <==> FreshNumbers(invoices, c.clock, |due|))
      && (s.failure.None? ==> s.billed == |due| && s.invoices == invoices + Bills(due, c)
                              && s.templates == Refreshed(table, c.user, c.now))
      && (s.failure.Some? ==> s.billed < |due| && s.invoices == invoices + Bills(due, c)[..s.billed])
      && |s.templates| == |table|
      && (forall i :: 0 <= i < |table| ==>
            s.templates[i] == if table[i] in due[..s.billed] then Advance(table[i]) else table[i])
      && forall i :: 0 <= i < |table| ==>
           s.templates[i] == table[i] || (IsDue(table[i], c.user, c.now) && s.templates[i] == Advance(table[i]))
  {
    var s := RunOver(RunState(table, invoices, 0, None), Filter(table, Selected(c.user)), c);
    SelectedRun(table, invoices, c);
    TemplatesAdvanced(table, s, c);
  }

  /** The run over the selected templates meets exactly the due ones. */
  lemma SelectedRun(table: seq<Template>, invoices: seq<Schema.Invoice>, c: Run)
    requires UniqueIds(table)
    ensures var s := RunOver(RunState(table, invoices, 0, None), Filter(table, Selected(c.user)), c);
      var due := Filter(table, Due(c.user, c.now));
      InvoicesSoFar(invoices, c, s, due) && TemplatesSoFar(table, s, due)
  {
    var selected := Filter(table, Selected(c.user));
    FilterFilter(table, Selected(c.user), Due(c.user, c.now), Due(c.user, c.now));
    FilterKeepsUniqueIds(table, Selected(c.user));
    RunInvoices(table, invoices, c, selected);
    RunTemplates(table, invoices, c, selected);
  }

  /** Templates advanced exactly when among the first billed due ones are
      each unchanged or advanced once, and all due ones advanced is the
      refreshed table. */
  lemma TemplatesAdvanced(table: seq<Template>, s: RunState, c: Run)
    requires TemplatesSoFar(table, s, Filter(table, Due(c.user, c.now)))
    ensures forall i :: 0 <= i < |table| ==>
      s.templates[i] == table[i] || (IsDue(table[i], c.user, c.now) && s.templates[i] == Advance(table[i]))
    ensures s.billed == |Filter(table, Due(c.user, c.now))| ==> s.templates == Refreshed(table, c.user, c.now)
  {
    var due := Filter(table, Due(c.user, c.now));
    forall j | 0 <= j < |table|
      ensures s.templates[j] == table[j] || (IsDue(table[j], c.user, c.now) && s.templates[j] == Advance(table[j]))
      ensures s.billed == |due| ==> s.templates[j] == Refreshed(table, c.user, c.now)[j]
    {
      if table[j] in due[..s.billed] {
        assert table[j] in due;
      }
      if IsDue(table[j], c.user, c.now) {
        FilterKeeps(table, Due(c.user, c.now), table[j]);
        assert due[..|due|] == due;
      }
    }
  }

  /** Rows with distinct ids keep them distinct through a filter. */
  lemma {:induction false} FilterKeepsUniqueIds(s: seq<Template>, p: Template -> bool)
    requires UniqueIds(s)
    ensures UniqueIds(Filter(s, p))
    decreases |s|
  {
    if |s| > 0 {
      FilterKeepsUniqueIds(s[1..], p);
      var rest := Filter(s[1..], p);
      forall k | 0 <= k < |rest|
        ensures rest[k].id != s[0].id
      {
        var j :| 0 <= j < |s[1..]| && s[1..][j] == rest[k];
        assert s[j + 1] == rest[k];
      }
    }
  }

  /** The invoices written after visiting selected templates `rows`: one per
      due template while the drawn numbers are fresh, none after the first
      collision. */
  lemma {:induction false} RunInvoices(table: seq<Template>, invoices: seq<Schema.Invoice>, c: Run, rows: seq<Template>)
    requires forall k :: 0 <= k < |rows| ==> rows[k].userId == c.user && rows[k].status == Active
    ensures InvoicesSoFar(invoices, c, RunOver(RunState(table, invoices, 0, None), rows, c), Filter(rows, Due(c.user, c.now)))
    decreases |rows|
  {
    if |rows| == 0 {
      assert Bills([], c) == [];
    } else {
      var before, t := rows[..|rows| - 1], rows[|rows| - 1];
      assert rows == before + [t];
      RunInvoices(table, invoices, c, before);
      FilterAppend(before, [t], Due(c.user, c.now));
      var done := Filter(before, Due(c.user, c.now));
      assert Filter(rows, Due(c.user, c.now)) == if IsDue(t, c.user, c.now) then done + [t] else done;
      InvoicesStep(invoices, c, RunOver(RunState(table, invoices, 0, None), before, c), done, t,
                   Filter(rows, Due(c.user, c.now)));
    }
  }

  /** The invoices of state `s` after the due templates `due` were met: the
      run is still going exactly when the numbers drawn were fresh; then it
      has billed every one of them, otherwise it stopped part-way. */
  predicate InvoicesSoFar(invoices: seq<Schema.Invoice>, c: Run, s: RunState, due: seq<Template>) {
    (s.failure.None? <==> FreshNumbers(invoices, c.clock, |due|))
    && (s.failure.None? ==> s.billed == |due|)
    && (s.failure.Some? ==> s.billed < |due|)
    && s.invoices == invoices + Bills(due, c)[..s.billed]
  }

  lemma InvoicesStep(invoices: seq<Schema.Invoice>, c: Run, p: RunState, done: seq<Template>, t: Template,
                     due: seq<Template>)
    requires t.userId == c.user && t.status == Active
    requires InvoicesSoFar(invoices, c, p, done)
    requires due == if IsDue(t, c.user, c.now) then done + [t] else done
    ensures InvoicesSoFar(invoices, c, Step(p, t, c), due)
  {
    if p.failure.Some? {
      StepAfterFailure(invoices, c, p, done, due[|done|..]);
      assert due == done + due[|done|..];
    } else if IsDue(t, c.user, c.now) {
      if InvoiceNumber(c.clock(|done|)) in Schema.NumbersOf(p.invoices) {
        StepCollides(invoices, c, p, done, t);
      } else {
        StepBills(invoices, c, p, done, t);
      }
    }
  }

  /** Nothing is written after a failed insert, and the numbers stay
      stale. */
  lemma StepAfterFailure(invoices: seq<Schema.Invoice>, c: Run, p: RunState, done: seq<Template>, more: seq<Template>)
    requires p.failure.Some? && InvoicesSoFar(invoices, c, p, done)
    ensures InvoicesSoFar(invoices, c, p, done + more)
  {
    BillsPrefix(done, more, c);
    assert Bills(done, c)[..p.billed] == Bills(done + more, c)[..p.billed];
    FreshPrefix(invoices, c.clock, |done + more|, |done|);
  }

  /** A taken number ends the run with the invoices so far. */
  lemma StepCollides(invoices: seq<Schema.Invoice>, c: Run, p: RunState, done: seq<Template>, t: Template)
    requires p.failure.None? && InvoicesSoFar(invoices, c, p, done)
    requires IsDue(t, c.user, c.now)
    requires InvoiceNumber(c.clock(|done|)) in Schema.NumbersOf(p.invoices)
    ensures InvoicesSoFar(invoices, c, Step(p, t, c), done + [t])
  {
    assert Step(p, t, c) == Insert(p, t, c, InvoiceNumber(c.clock(|done|)));
    assert Bills(done, c)[..|done|] == Bills(done, c);
    NumberTaken(invoices, done, c);
    BillsPrefix(done, [t], c);
  }

  /** A fresh number bills the template. */
  lemma StepBills(invoices: seq<Schema.Invoice>, c: Run, p: RunState, done: seq<Template>, t: Template)
    requires p.failure.None? && InvoicesSoFar(invoices, c, p, done)
    requires IsDue(t, c.user, c.now)
    requires InvoiceNumber(c.clock(|done|)) !in Schema.NumbersOf(p.invoices)
    ensures InvoicesSoFar(invoices, c, Step(p, t, c), done + [t])
  {
    var number := InvoiceNumber(c.clock(|done|));
    var bill := Bill(t, c.user, c.now, c.firstId + |done|, number);
    var bills := Bills(done + [t], c);
    assert Step(p, t, c) == Insert(p, t, c, number);
    assert Insert(p, t, c, number) == RunState(Reschedule(p.templates, t, NextDate(t.frequency, t.nextInvoiceDate.value)),
                                               p.invoices + [bill], |done| + 1, None);
    assert p.invoices == invoices + Bills(done, c) by {
      assert Bills(done, c)[..|done|] == Bills(done, c);
    }
    NumberFresh(invoices, done, c);
    BillsSnoc(done, t, c);
    assert bills[..|done| + 1] == bills;
  }

  /** Fresh draws stay fresh when fewer are taken. */
  lemma FreshPrefix(invoices: seq<Schema.Invoice>, clock: nat -> int, n: nat, m: nat)
    requires m <= n
    ensures FreshNumbers(invoices, clock, n) ==> FreshNumbers(invoices, clock, m)
  {
  }

  /** The templates of state `s` after the due templates `due` were met:
      a row is advanced exactly when it is one of the due templates billed
      so far. */
  predicate TemplatesSoFar(table: seq<Template>, s: RunState, due: seq<Template>) {
    s.billed <= |due| && |s.templates| == |table|
    && forall j :: 0 <= j < |table| ==>
         s.templates[j] == if table[j] in due[..s.billed] then Advance(table[j]) else table[j]
  }

  /** The templates after visiting selected templates `rows` of the table:
      exactly the due templates billed so far are advanced, once each,
      since ids are unique; a failed insert leaves its template as it was. */
  lemma {:induction false} RunTemplates(table: seq<Template>, invoices: seq<Schema.Invoice>, c: Run,
                                        rows: seq<Template>)
    requires UniqueIds(table) && UniqueIds(rows)
    requires forall k :: 0 <= k < |rows| ==> rows[k] in table && rows[k].userId == c.user && rows[k].status == Active
    ensures TemplatesSoFar(table, RunOver(RunState(table, invoices, 0, None), rows, c), Filter(rows, Due(c.user, c.now)))
    decreases |rows|
  {
    if |rows| > 0 {
      var before, t := rows[..|rows| - 1], rows[|rows| - 1];
      assert rows == before + [t];
      RunTemplates(table, invoices, c, before);
      RunInvoices(table, invoices, c, before);
      var done := Filter(before, Due(c.user, c.now));
      FilterAppend(before, [t], Due(c.user, c.now));
      FilterKeepsUniqueIds(rows, Due(c.user, c.now));
      TemplatesStep(table, RunOver(RunState(table, invoices, 0, None), before, c), done, t, c,
                    Filter(rows, Due(c.user, c.now)));
    }
  }

  lemma TemplatesStep(table: seq<Template>, p: RunState, done: seq<Template>, t: Template, c: Run,
                      due: seq<Template>)
    requires UniqueIds(table) && t in table && t.userId == c.user && t.status == Active
    requires TemplatesSoFar(table, p, done) && (p.failure.None? ==> p.billed == |done|)
    requires due == if IsDue(t, c.user, c.now) then done + [t] else done
    requires UniqueIds(due)
    ensures TemplatesSoFar(table, Step(p, t, c), due)
  {
    if p.failure.None? && IsDue(t, c.user, c.now) && InvoiceNumber(c.clock(p.billed)) !in Schema.NumbersOf(p.invoices) {
      assert Step(p, t, c).templates == Reschedule(p.templates, t, NextDate(t.frequency, t.nextInvoiceDate.value));
      assert Step(p, t, c).billed == |done| + 1;
      assert due[..|done| + 1] == done + [t];
      assert done[..p.billed] == done;
      TemplatesBill(table, p.templates, done, t, c);
    } else {
      assert due[..p.billed] == done[..p.billed];
      assert Step(p, t, c).templates == p.templates && Step(p, t, c).billed == p.billed;
    }
  }

  /** Billing the due template `t` after the templates `done` advances `t`
      too. */
  lemma TemplatesBill(table: seq<Template>, prev: seq<Template>, done: seq<Template>, t: Template, c: Run)
    requires UniqueIds(table) && UniqueIds(done + [t]) && t in table && IsDue(t, c.user, c.now)
    requires |prev| == |table|
    requires forall j :: 0 <= j < |table| ==> prev[j] == if table[j] in done then Advance(table[j]) else table[j]
    ensures var next := Reschedule(prev, t, NextDate(t.frequency, t.nextInvoiceDate.value));
      |next| == |table|
      && forall j :: 0 <= j < |table| ==> next[j] == if table[j] in done + [t] then Advance(table[j]) else table[j]
  {
    forall j | 0 <= j < |table|
      ensures Reschedule(prev, t, NextDate(t.frequency, t.nextInvoiceDate.value))[j]
        == if table[j] in done + [t] then Advance(table[j]) else table[j]
    {
      RescheduleRow(table, prev, done, t, c, j);
    }
  }

  /** Rescheduling the due template `t` by id advances row `j` exactly when
      it is `t`, since ids are unique. */
  lemma RescheduleRow(table: seq<Template>, prev: seq<Template>, done: seq<Template>, t: Template, c: Run, j: int)
    requires UniqueIds(table) && UniqueIds(done + [t]) && t in table && IsDue(t, c.user, c.now)
    requires 0 <= j < |table| == |prev|
    requires prev[j] == if table[j] in done then Advance(table[j]) else table[j]
    ensures Reschedule(prev, t, NextDate(t.frequency, t.nextInvoiceDate.value))[j]
      == if table[j] in done + [t] then Advance(table[j]) else table[j]
  {
    var next := NextDate(t.frequency, t.nextInvoiceDate.value);
    var r := Reschedule(prev, t, next);
    assert r[j] == if prev[j].id == t.id then prev[j].(nextInvoiceDate := Some(next)) else prev[j];
    assert prev[j].id == table[j].id;
    if table[j].id == t.id {
      assert table[j] == t by {
        var k :| 0 <= k < |table| && table[k] == t;
        assert k == j;
      }
      assert t !in done by {
        forall k | 0 <= k < |done|
          ensures done[k] != t
        {
          assert (done + [t])[k] == done[k] && (done + [t])[|done|] == t;
        }
      }
      assert prev[j] == t;
    } else {
      assert table[j] in done + [t] <==> table[j] in done;
    }
  }

  /** A number drawn after the `done` invoices that is already taken means
      the first `|done| + 1` draws were not all fresh. */
  lemma NumberTaken(invoices: seq<Schema.Invoice>, done: seq<Template>, c: Run)
    requires FreshNumbers(invoices, c.clock, |done|)
    requires InvoiceNumber(c.clock(|done|)) in Schema.NumbersOf(invoices + Bills(done, c))
    ensures forall n: nat :: n > |done| ==> !FreshNumbers(invoices, c.clock, n)
  {
    var bills := Bills(done, c);
    Schema.NumbersOfAppend(invoices, bills);
    var number := InvoiceNumber(c.clock(|done|));
    if number !in Schema.NumbersOf(invoices) {
      var j :| 0 <= j < |bills| && Schema.NumbersOf(bills)[j] == number;
      assert InvoiceNumber(c.clock(j)) == number;
    }
  }

  lemma NumberFresh(invoices: seq<Schema.Invoice>, done: seq<Template>, c: Run)
    requires FreshNumbers(invoices, c.clock, |done|)
    requires InvoiceNumber(c.clock(|done|)) !in Schema.NumbersOf(invoices + Bills(done, c))
    ensures FreshNumbers(invoices, c.clock, |done| + 1)
  {
    var bills := Bills(done, c);
    Schema.NumbersOfAppend(invoices, bills);
    var k := |done|;
    forall j | 0 <= j < k
      ensures InvoiceNumber(c.clock(j)) != InvoiceNumber(c.clock(k))
    {
      assert Schema.NumbersOf(bills)[j] == InvoiceNumber(c.clock(j));
    }
  }
  // ---------------------------------------------------------------------
  // properties of a run

  /** A run touches due templates only, and each of those only in its next
      invoice date, which moves strictly forward by one period. */
  lemma RefreshedAdvancesDueOnly(table: seq<Template>, user: int, now: int, i: int)
    requires 0 <= i < |table|
    ensures var r := Refreshed(table, user, now)[i];
      r.(nextInvoiceDate := table[i].nextInvoiceDate) == table[i]
    ensures var r := Refreshed(table, user, now)[i];
      !IsDue(table[i], user, now) ==> r == table[i]
    ensures var r := Refreshed(table, user, now)[i];
      IsDue(table[i], user, now) ==> (r.nextInvoiceDate.Some?
                                      && r.nextInvoiceDate.value == NextDate(table[i].frequency, table[i].nextInvoiceDate.value)
                                      && r.nextInvoiceDate.value > table[i].nextInvoiceDate.value)
  {
    if IsDue(table[i], user, now) {
      NextDateIsLater(table[i].frequency, table[i].nextInvoiceDate.value);
    }
  }

  /** There is no catching up: a template that fell several periods behind
      is billed once per run, and stays due exactly when its new date is
      still not in the future. */
  lemma OneInvoicePerRun(table: seq<Template>, user: int, now: int, i: int)
    requires 0 <= i < |table| && IsDue(table[i], user, now)
    ensures IsDue(Refreshed(table, user, now)[i], user, now)
      <==> NextDate(table[i].frequency, table[i].nextInvoiceDate.value) <= now
  {
  }

  /** The `k`-th invoice of a run belongs to the caller, is sent, issued
      at `now`, due thirty days later, and carries the amounts of the `k`-th
      due template. */
  lemma BillsDescribeDueTemplates(due: seq<Template>, c: Run, k: int)
    requires 0 <= k < |due|
    ensures var b := Bills(due, c)[k];
      b.userId == c.user && b.clientId == due[k].clientId && b.projectId.None? && b.status == Schema.Sent
      && b.issueDate == Some(c.now) && b.dueDate == Some(c.now + ThirtyDays)
      && b.subtotal == due[k].subtotal && b.taxAmount == due[k].taxAmount && b.total == due[k].total
      && b.id == c.firstId + k && b.invoiceNumber == InvoiceNumber(c.clock(k))
  {
    assert Bills(due, c)[k] == Bill(due[k], c.user, c.now, c.firstId + k, InvoiceNumber(c.clock(k)));
  }

  /** The due date `now + 30 * 24 * 60 * 60 * 1000` is the same time of day
      thirty calendar days later. */
  lemma ThirtyDaysLater(now: int)
    ensures Calendar.AddDays(now, 30) == now + ThirtyDays
  {
  }

  /** A template created with start date `s` is billed by the first run at
      or after `s`, and that run moves it to the next period. */
  lemma CreatedTemplateFirstRun(table: seq<Template>, user: int, id: int, input: NewTemplate, now: int)
    requires input.startDate <= now
    ensures var t := Create(table, user, id, input);
      Refreshed(t, user, now)[|table|].nextInvoiceDate == Some(NextDate(input.frequency, input.startDate))
  {
    var t := Create(table, user, id, input);
    assert IsDue(t[|table|], user, now);
  }
}

=== FILE: rounding.dfy ===
/** The two roundings the routers apply to JavaScript numbers: `Math.round`
    (section 21.3.2.28 of ECMA-262) and the value `Number.prototype.toFixed`
    prints (section 21.1.3.3). Numbers are exact reals here; binary floating
    point is not modelled. */
module Rounding {

  /** `Math.round(x)`: the integer nearest to `x`, a half rounded up towards
      +infinity (so -2.5 becomes -2). */
  function MathRound(x: real): (r: int)
    ensures r as real - 0.5 <= x < r as real + 0.5
  {
    (x + 0.5).Floor
  }

  /** Only one integer lies in a half-open interval of width one. */
  lemma MathRoundUnique(x: real, n: int)
    requires n as real - 0.5 <= x < n as real + 0.5
    ensures MathRound(x) == n
  {
  }

  /** `Math.round(n / d)` for a positive constant divisor is the integer
      floor quotient `(n + d / 2) / d`; here for whole minutes. */
  lemma MathRoundMinutes(ms: int)
    ensures MathRound(ms as real / 60000.0) == (ms + 30000) / 60000
  {
    var q := (ms + 30000) / 60000;
    assert 60000 * q <= ms + 30000 < 60000 * q + 60000;
    assert (ms as real) / 60000.0 == ms as real * (1.0 / 60000.0);
    MathRoundUnique(ms as real / 60000.0, q);
  }

  /** The scaled integer `toFixed` prints: `x` rounded to the nearest
      integer, ties away from zero. The standard picks the larger of two
      equally near candidates for a non-negative `x` and handles a negative
      `x` through its absolute value. */
  function RoundHalfAway(x: real): (r: int)
    ensures x >= 0.0 ==> r >= 0 && r as real - 0.5 <= x < r as real + 0.5
    ensures x < 0.0 ==> r <= 0 && r as real - 0.5 < x <= r as real + 0.5
  {
    if x >= 0.0 then (x + 0.5).Floor else -((-x + 0.5).Floor)
  }

  /** The integer part of `x`, as `new Date` keeps of a time value (the
      TimeClip operation of ECMA-262): the fraction is dropped towards
      zero. */
  function Truncate(x: real): (r: int)
    ensures x >= 0.0 ==> r >= 0 && r as real <= x < r as real + 1.0
    ensures x < 0.0 ==> r <= 0 && r as real - 1.0 < x <= r as real
  {
    if x >= 0.0 then x.Floor else -((-x).Floor)
  }

  /** A whole number is kept as it is. */
  lemma TruncateOfInt(n: int)
    ensures Truncate(n as real) == n
  {
  }

  /** A whole number is printed as itself. */
  lemma RoundHalfAwayOfInt(n: int)
    ensures RoundHalfAway(n as real) == n
  {
  }

  /** Rounding never reverses the order of two numbers. */
  lemma RoundHalfAwayMonotone(x: real, y: real)
    requires x <= y
    ensures RoundHalfAway(x) <= RoundHalfAway(y)
  {
  }

  /** A number between two whole numbers is rounded to a whole number
      between them. */
  lemma RoundHalfAwayWithin(x: real, lo: int, hi: int)
    requires lo as real <= x <= hi as real
    ensures lo <= RoundHalfAway(x) <= hi
  {
    RoundHalfAwayMonotone(lo as real, x);
    RoundHalfAwayMonotone(x, hi as real);
    RoundHalfAwayOfInt(lo);
    RoundHalfAwayOfInt(hi);
  }

  function Pow10(n: nat): (p: real)
    ensures p >= 1.0
  {
    if n == 0 then 1.0 else 10.0 * Pow10(n - 1)
  }

  /** `x.toFixed(places)` as the integer its digits spell once the decimal
      point is dropped (so `(170).toFixed(2)` is 17000). */
  function ToFixed(x: real, places: nat): int {
    RoundHalfAway(x * Pow10(places))
  }

  /** `part / whole * 100` of two counts with `part <= whole` is a
      percentage between 0 and 100. */
  lemma PercentInRange(part: int, whole: int)
    requires 0 <= part <= whole && whole > 0
    ensures 0.0 <= part as real / whole as real * 100.0 <= 100.0
  {
  }
}

=== FILE: schema.dfy ===
/** Rows shared by several routers (`invoices`, `projects`) and the
    conventions every router uses: the caller's identity and JavaScript's
    `a || b` on optional values. Timestamps are whole milliseconds since
    the epoch. */
module Schema {
  import opened Wrappers

  /** `ctx.user?.id` where the router checks it itself: `None` when there
      is no session. */
  type Caller = Option<int>

  /** The caller's id, refused with "Unauthorized" when there is none or it
      is 0 (a falsy id). */
  function RequireUser(caller: Caller): (r: Result<int>)
    ensures r.Ok? <==> caller.Some? && caller.value != 0
    ensures r.Ok? ==> r.value == caller.value
    ensures r.Err? ==> r.error == "Unauthorized"
  {
    if caller.Some? && caller.value != 0 then Ok(caller.value) else Err("Unauthorized")
  }

  /** The message of a request the router's input schema rejects before
      the handler runs; the schema library's own list of issues is not
      modelled. */
  const InvalidInput := "Invalid input"

  /** `s || d` for an optional string: the empty string is falsy too. */
  function StringOr(s: Option<string>, d: string): (r: string)
    ensures s.Some? && s.value != "" ==> r == s.value
    ensures s.None? || s.value == "" ==> r == d
  {
    if s.Some? && s.value != "" then s.value else d
  }

  /** `n || d` for an optional number: 0 is falsy too. */
  function IntOr(n: Option<int>, d: int): (r: int)
    ensures n.Some? && n.value != 0 ==> r == n.value
    ensures n.None? || n.value == 0 ==> r == d
  {
    if n.Some? && n.value != 0 then n.value else d
  }

  datatype InvoiceStatus = Draft | Sent | Viewed | PartiallyPaid | Paid | Overdue | Cancelled

  /** A row of `invoices`; amounts are the decimal strings MySQL returns. */
  datatype Invoice = Invoice(
    id: int,
    userId: int,
    clientId: int,
    projectId: Option<int>,
    invoiceNumber: string,
    status: InvoiceStatus,
    issueDate: Option<int>,
    dueDate: Option<int>,
    subtotal: string,
    taxAmount: string,
    total: string,
    notes: Option<string>)

  /** The invoice numbers of a table, row by row. */
  function NumbersOf(invoices: seq<Invoice>): (ns: seq<string>)
    ensures |ns| == |invoices|
    ensures forall i :: 0 <= i < |ns| ==> ns[i] == invoices[i].invoiceNumber
  {
    seq(|invoices|, i requires 0 <= i < |invoices| => invoices[i].invoiceNumber)
  }

  lemma NumbersOfAppend(a: seq<Invoice>, b: seq<Invoice>)
    ensures NumbersOf(a + b) == NumbersOf(a) + NumbersOf(b)
  {
  }

  /** A row of `projects`, with the columns the routers read. */
  datatype Project = Project(id: int, userId: int, name: string)
}

=== FILE: tables.dfy ===
/** Database tables as immutable sequences of rows, and the handful of
    queries the routers run over them: counting, filtering, summing,
    `UPDATE ... WHERE`, `DELETE ... WHERE` and "first matching row".
    Row order is the order a query without `ORDER BY` returns. */
module Tables {
  import opened Wrappers

  /** The number of rows satisfying `p`. */
  function Count<T>(s: seq<T>, p: T -> bool): (n: nat)
    ensures n <= |s|
  {
    if |s| == 0 then 0 else (if p(s[0]) then 1 else 0) + Count(s[1..], p)
  }

  lemma {:induction false} CountAppend<T>(a: seq<T>, b: seq<T>, p: T -> bool)
    ensures Count(a + b, p) == Count(a, p) + Count(b, p)
    decreases |a|
  {
    if |a| > 0 {
      assert (a + b)[1..] == a[1..] + b;
      CountAppend(a[1..], b, p);
    } else {
      assert a + b == b;
    }
  }

  /** Every row satisfies exactly one of two complementary predicates. */
  lemma {:induction false} CountComplement<T>(s: seq<T>, p: T -> bool, q: T -> bool)
    requires forall x :: q(x) == !p(x)
    ensures Count(s, p) + Count(s, q) == |s|
    decreases |s|
  {
    if |s| > 0 {
      CountComplement(s[1..], p, q);
    }
  }

  /** No row satisfies `p`, so none is counted. */
  lemma {:induction false} CountNone<T>(s: seq<T>, p: T -> bool)
    requires forall i :: 0 <= i < |s| ==> !p(s[i])
    ensures Count(s, p) == 0
    decreases |s|
  {
    if |s| > 0 {
      CountNone(s[1..], p);
    }
  }

  /** Every row satisfies `p`, so every row is counted. */
  lemma {:induction false} CountAll<T>(s: seq<T>, p: T -> bool)
    requires forall i :: 0 <= i < |s| ==> p(s[i])
    ensures Count(s, p) == |s|
    decreases |s|
  {
    if |s| > 0 {
      CountAll(s[1..], p);
    }
  }

  /** Counts of disjoint predicates add up to the count of their union. */
  lemma {:induction false} CountDisjoint<T>(s: seq<T>, p: T -> bool, q: T -> bool, pq: T -> bool)
    requires forall x :: !(p(x) && q(x))
    requires forall x :: pq(x) == (p(x) || q(x))
    ensures Count(s, p) + Count(s, q) == Count(s, pq)
    decreases |s|
  {
    if |s| > 0 {
      CountDisjoint(s[1..], p, q, pq);
    }
  }

  /** A predicate implied by another counts at least as many rows. */
  lemma {:induction false} CountMonotone<T>(s: seq<T>, p: T -> bool, q: T -> bool)
    requires forall x :: p(x) ==> q(x)
    ensures Count(s, p) <= Count(s, q)
    decreases |s|
  {
    if |s| > 0 {
      CountMonotone(s[1..], p, q);
    }
  }

  /** The rows satisfying `p`, in table order (`SELECT ... WHERE p`). */
  function Filter<T>(s: seq<T>, p: T -> bool): (r: seq<T>)
    ensures |r| == Count(s, p)
    ensures forall i :: 0 <= i < |r| ==> p(r[i]) && r[i] in s
  {
    if |s| == 0 then []
    else if p(s[0]) then [s[0]] + Filter(s[1..], p)
    else Filter(s[1..], p)
  }

  /** Every row satisfying `p` survives the filter. */
  lemma {:induction false} FilterKeeps<T>(s: seq<T>, p: T -> bool, x: T)
    requires x in s && p(x)
    ensures x in Filter(s, p)
    decreases |s|
  {
    if s[0] != x {
      assert x in s[1..];
      FilterKeeps(s[1..], p, x);
    }
  }

  /** Filtering keeps every occurrence of a matching value and none of
      the others. */
  lemma {:induction false} FilterMultiplicity<T>(s: seq<T>, p: T -> bool, x: T)
    ensures multiset(Filter(s, p))[x] == if p(x) then multiset(s)[x] else 0
    decreases |s|
  {
    if |s| > 0 {
      FilterMultiplicity(s[1..], p, x);
      assert s == [s[0]] + s[1..];
      assert multiset(s) == multiset{s[0]} + multiset(s[1..]);
      if p(s[0]) {
        assert Filter(s, p) == [s[0]] + Filter(s[1..], p);
        assert multiset(Filter(s, p)) == multiset{s[0]} + multiset(Filter(s[1..], p));
      }
    }
  }

  lemma {:induction false} FilterAppend<T>(a: seq<T>, b: seq<T>, p: T -> bool)
    ensures Filter(a + b, p) == Filter(a, p) + Filter(b, p)
    decreases |a|
  {
    if |a| > 0 {
      assert (a + b)[1..] == a[1..] + b;
      FilterAppend(a[1..], b, p);
    } else {
      assert a + b == b;
    }
  }

  /** Filtering twice is filtering by the conjunction. */
  lemma {:induction false} FilterFilter<T>(s: seq<T>, p: T -> bool, q: T -> bool, pq: T -> bool)
    requires forall x :: pq(x) == (p(x) && q(x))
    ensures Filter(Filter(s, p), q) == Filter(s, pq)
    decreases |s|
  {
    if |s| > 0 {
      FilterFilter(s[1..], p, q, pq);
    }
  }

  /** Counting the rows of a filtered table. */
  lemma {:induction false} CountFilter<T>(s: seq<T>, p: T -> bool, q: T -> bool, pq: T -> bool)
    requires forall x :: pq(x) == (p(x) && q(x))
    ensures Count(Filter(s, p), q) == Count(s, pq)
    decreases |s|
  {
    if |s| > 0 {
      CountFilter(s[1..], p, q, pq);
    }
  }

  /** `UPDATE ... SET f WHERE p`: rows satisfying `p` are replaced by their
      updated version, every other row stays as it was, in place. */
  function UpdateWhere<T>(s: seq<T>, p: T -> bool, f: T -> T): (r: seq<T>)
    ensures |r| == |s|
    ensures forall i :: 0 <= i < |s| ==> r[i] == if p(s[i]) then f(s[i]) else s[i]
  {
    if |s| == 0 then [] else [if p(s[0]) then f(s[0]) else s[0]] + UpdateWhere(s[1..], p, f)
  }

  /** Filtering after an update that keeps the filter's verdict on every
      row is updating after filtering. */
  lemma {:induction false} FilterUpdateWhere<T>(s: seq<T>, q: T -> bool, p: T -> bool, f: T -> T)
    requires forall x :: q(f(x)) == q(x)
    ensures Filter(UpdateWhere(s, p, f), q) == UpdateWhere(Filter(s, q), p, f)
    decreases |s|
  {
    if |s| > 0 {
      FilterUpdateWhere(s[1..], q, p, f);
      assert UpdateWhere(s, p, f)[1..] == UpdateWhere(s[1..], p, f);
    }
  }

  /** An update whose condition holds for no row leaves the table as it
      was. */
  lemma UpdateNoMatch<T>(s: seq<T>, p: T -> bool, f: T -> T)
    requires forall i :: 0 <= i < |s| ==> !p(s[i])
    ensures UpdateWhere(s, p, f) == s
  {
  }

  /** `DELETE ... WHERE p`: the rows not satisfying `p`, in order. */
  function DeleteWhere<T>(s: seq<T>, p: T -> bool): (r: seq<T>)
    ensures |r| + Count(s, p) == |s|
    ensures forall i :: 0 <= i < |r| ==> !p(r[i]) && r[i] in s
    ensures forall x :: x in s && !p(x) ==> x in r
  {
    if |s| == 0 then []
    else if p(s[0]) then DeleteWhere(s[1..], p)
    else [s[0]] + DeleteWhere(s[1..], p)
  }

  /** Deleting removes every occurrence of a matching value and keeps
      every occurrence of the others. */
  lemma {:induction false} DeleteWhereMultiplicity<T>(s: seq<T>, p: T -> bool, x: T)
    ensures multiset(DeleteWhere(s, p))[x] == if p(x) then 0 else multiset(s)[x]
    decreases |s|
  {
    if |s| > 0 {
      DeleteWhereMultiplicity(s[1..], p, x);
      assert s == [s[0]] + s[1..];
      assert multiset(s) == multiset{s[0]} + multiset(s[1..]);
      if !p(s[0]) {
        assert DeleteWhere(s, p) == [s[0]] + DeleteWhere(s[1..], p);
        assert multiset(DeleteWhere(s, p)) == multiset{s[0]} + multiset(DeleteWhere(s[1..], p));
      }
    }
  }

  /** Row `i` satisfies `p` and no row before it does. */
  predicate FirstAt<T>(s: seq<T>, p: T -> bool, i: int) {
    0 <= i < |s| && p(s[i]) && forall j :: 0 <= j < i ==> !p(s[j])
  }

  /** Only one row can be the first to satisfy `p`. */
  lemma FirstAtUnique<T>(s: seq<T>, p: T -> bool, i: int, j: int)
    requires FirstAt(s, p, i) && FirstAt(s, p, j)
    ensures i == j
  {
  }

  /** No other row is the first to satisfy `p`. */
  lemma FirstIsOnly<T>(s: seq<T>, p: T -> bool, i: int)
    requires FirstAt(s, p, i)
    ensures forall k :: FirstAt(s, p, k) ==> k == i
  {
    forall k | FirstAt(s, p, k)
      ensures k == i
    {
      FirstAtUnique(s, p, i, k);
    }
  }

  /** The first row satisfying `p` (`SELECT ... WHERE p` then `rows[0]`). */
  function First<T>(s: seq<T>, p: T -> bool): (r: Option<T>)
    ensures r.None? <==> forall i :: 0 <= i < |s| ==> !p(s[i])
    ensures r.Some? ==> exists i :: FirstAt(s, p, i) && s[i] == r.value
  {
    if |s| == 0 then None
    else if p(s[0]) then Some(s[0])
    else
      var r := First(s[1..], p);
      if r.Some? then
        ghost var i :| FirstAt(s[1..], p, i) && s[1..][i] == r.value;
        assert FirstAt(s, p, i + 1);
        r
      else r
  }

  /** The first `n` rows (`LIMIT n`); all of them when there are fewer. */
  function Take<T>(s: seq<T>, n: nat): (r: seq<T>)
    ensures |r| == if n < |s| then n else |s|
    ensures r <= s
  {
    if n < |s| then s[..n] else s
  }

  /** The integer total of `f` over the rows. */
  function SumInt<T>(s: seq<T>, f: T -> int): int {
    if |s| == 0 then 0 else f(s[0]) + SumInt(s[1..], f)
  }

  lemma {:induction false} SumIntAppend<T>(a: seq<T>, b: seq<T>, f: T -> int)
    ensures SumInt(a + b, f) == SumInt(a, f) + SumInt(b, f)
    decreases |a|
  {
    if |a| > 0 {
      assert (a + b)[1..] == a[1..] + b;
      SumIntAppend(a[1..], b, f);
    } else {
      assert a + b == b;
    }
  }

  /** A sum of non-negative terms is non-negative. */
  lemma {:induction false} SumIntNonNegative<T>(s: seq<T>, f: T -> int)
    requires forall i :: 0 <= i < |s| ==> f(s[i]) >= 0
    ensures SumInt(s, f) >= 0
    decreases |s|
  {
    if |s| > 0 {
      SumIntNonNegative(s[1..], f);
    }
  }

  /** The real total of `f` over the rows. */
  function SumReal<T>(s: seq<T>, f: T -> real): real {
    if |s| == 0 then 0.0 else f(s[0]) + SumReal(s[1..], f)
  }

  lemma {:induction false} SumRealAppend<T>(a: seq<T>, b: seq<T>, f: T -> real)
    ensures SumReal(a + b, f) == SumReal(a, f) + SumReal(b, f)
    decreases |a|
  {
    if |a| > 0 {
      assert (a + b)[1..] == a[1..] + b;
      SumRealAppend(a[1..], b, f);
    } else {
      assert a + b == b;
    }
  }

  lemma {:induction false} SumRealNonNegative<T>(s: seq<T>, f: T -> real)
    requires forall i :: 0 <= i < |s| ==> f(s[i]) >= 0.0
    ensures SumReal(s, f) >= 0.0
    decreases |s|
  {
    if |s| > 0 {
      SumRealNonNegative(s[1..], f);
    }
  }

  /** No value appears twice. */
  predicate NoDuplicates<T(==)>(s: seq<T>) {
    forall i, j :: 0 <= i < j < |s| ==> s[i] != s[j]
  }

  /** Reference definition: the distinct values of `s` in order of first
      appearance. */
  function FirstOccurrences<T(==)>(s: seq<T>): seq<T> {
    if |s| == 0 then []
    else
      var d := FirstOccurrences(s[..|s| - 1]);
      if s[|s| - 1] in d then d else d + [s[|s| - 1]]
  }

  lemma {:induction false} FirstOccurrencesDistinct<T>(s: seq<T>)
    ensures NoDuplicates(FirstOccurrences(s))
    ensures forall x :: x in FirstOccurrences(s) <==> x in s
    decreases |s|
  {
    if |s| > 0 {
      var p := s[..|s| - 1];
      FirstOccurrencesDistinct(p);
      assert s == p + [s[|s| - 1]];
    }
  }

  /** The keys of an association list, in order. */
  function Keys<K, V>(t: seq<(K, V)>): (ks: seq<K>)
    ensures |ks| == |t|
    ensures forall i :: 0 <= i < |t| ==> ks[i] == t[i].0
  {
    if |t| == 0 then [] else [t[0].0] + Keys(t[1..])
  }

  /** One column of a table: `f` of every row, in order. */
  function Column<T, U>(s: seq<T>, f: T -> U): (c: seq<U>)
    ensures |c| == |s|
    ensures forall i :: 0 <= i < |s| ==> c[i] == f(s[i])
  {
    seq(|s|, i requires 0 <= i < |s| => f(s[i]))
  }
}

=== FILE: validation.dfy ===
/** Client-side field validators (`validation.ts`): the amount and phone
    grammars, the form schemas built from them with their minimum sizes,
    and the numeric and date helpers. Numbers are exact; a `JsNumber`
    keeps the cases (NaN, infinities) the helpers can meet. */
module Validation {
  import opened Wrappers
  import Rounding
  import opened Decimal

  // ---------------------------------------------------------------------
  // Characters (`\d` without the `u` flag is `Decimal.IsDigit`: ASCII
  // digits only)

  /** `\s`, the same set `parseFloat` skips: ECMAScript white space and
      line terminators. */
  predicate IsJsSpace(c: char) {
    var n := c as int;
    n == 0x09 || n == 0x0A || n == 0x0B || n == 0x0C || n == 0x0D || n == 0x20 || n == 0xA0
    || n == 0x1680 || (0x2000 <= n <= 0x200A) || n == 0x2028 || n == 0x2029 || n == 0x202F
    || n == 0x205F || n == 0x3000 || n == 0xFEFF
  }

  /** The length of the run of digits `s` starts with. */
  function DigitRun(s: string): (n: nat)
    ensures n <= |s|
    ensures AllDigits(s[..n])
    ensures n < |s| ==> !IsDigit(s[n])
  {
    if |s| == 0 || !IsDigit(s[0]) then 0
    else
      var m := DigitRun(s[1..]);
      assert s[..m + 1] == [s[0]] + s[1..][..m];
      1 + m
  }

  /** The run ends exactly where the first non-digit stands. */
  lemma DigitRunIs(s: string, k: int)
    requires 0 <= k <= |s| && AllDigits(s[..k])
    requires k == |s| || !IsDigit(s[k])
    ensures DigitRun(s) == k
  {
    var n := DigitRun(s);
    assert forall j :: 0 <= j < k ==> IsDigit(s[j]) by {
      forall j | 0 <= j < k
        ensures IsDigit(s[j])
      {
        assert s[..k][j] == s[j];
      }
    }
    assert forall j :: 0 <= j < n ==> IsDigit(s[j]) by {
      forall j | 0 <= j < n
        ensures IsDigit(s[j])
      {
        assert s[..n][j] == s[j];
      }
    }
  }

  // ---------------------------------------------------------------------
  // The amount grammar

  /** `^\d+(\.\d{1,2})?$`: one or more digits, optionally followed by a
      point and one or two digits. */
  predicate IsAmount(s: string) {
    (|s| >= 1 && AllDigits(s))
    || exists k :: 1 <= k && k + 2 <= |s| <= k + 3 && AllDigits(s[..k]) && s[k] == '.' && AllDigits(s[k + 1..])
  }

  /** A left-to-right matcher: the leading digits, then either the end or a
      point and one or two digits up to the end. */
  function MatchAmount(s: string): bool {
    var n := DigitRun(s);
    n >= 1 && (n == |s| || (s[n] == '.' && n + 2 <= |s| <= n + 3 && AllDigits(s[n + 1..])))
  }

  /** The matcher accepts exactly the strings of the grammar. */
  lemma MatchAmountCorrect(s: string)
    ensures MatchAmount(s) <==> IsAmount(s)
  {
    if |s| >= 1 && AllDigits(s) {
      DigitRunIs(s, |s|);
      assert s[..|s|] == s;
    } else if k :| 1 <= k && k + 2 <= |s| <= k + 3 && AllDigits(s[..k]) && s[k] == '.' && AllDigits(s[k + 1..]) {
      DigitRunIs(s, k);
    }
    if MatchAmount(s) {
      var n := DigitRun(s);
      if n == |s| {
        assert s[..n] == s;
      } else {
        assert 1 <= n && n + 2 <= |s| <= n + 3 && AllDigits(s[..n]) && s[n] == '.' && AllDigits(s[n + 1..]);
      }
    }
  }

  lemma AmountsAccepted()
    ensures IsAmount("0") && IsAmount("1250") && IsAmount("12.5") && IsAmount("12.50")
  {
    MatchAmountCorrect("0");
    MatchAmountCorrect("1250");
    MatchAmountCorrect("12.5");
    MatchAmountCorrect("12.50");
  }

  /** Signs, a leading or trailing point, three decimals and separators are
      all refused. */
  lemma NonAmountsRejected()
    ensures !IsAmount("") && !IsAmount("-1") && !IsAmount(".5") && !IsAmount("5.")
    ensures !IsAmount("1.234") && !IsAmount("1,000")
  {
    MatchAmountCorrect("");
    MatchAmountCorrect("-1");
    MatchAmountCorrect(".5");
    MatchAmountCorrect("5.");
    MatchAmountCorrect("1.234");
    MatchAmountCorrect("1,000");
  }

  // ---------------------------------------------------------------------
  // The phone grammar

  predicate IsPhoneChar(c: char) {
    IsDigit(c) || c == '-' || c == '+' || c == '(' || c == ')' || IsJsSpace(c)
  }

  /** `^[\d\-\+\(\)\s]+$`: a non-empty string of digits, dashes, plus
      signs, parentheses and white space. */
  predicate IsPhone(s: string) {
    |s| >= 1 && forall i :: 0 <= i < |s| ==> IsPhoneChar(s[i])
  }

  /** Two phone numbers written one after the other form a phone number;
      the grammar checks characters only, not their arrangement. */
  lemma PhoneConcat(a: string, b: string)
    requires IsPhone(a) && IsPhone(b)
    ensures IsPhone(a + b)
  {
    forall i | 0 <= i < |a + b|
      ensures IsPhoneChar((a + b)[i])
    {
      if i >= |a| {
        assert (a + b)[i] == b[i - |a|];
      }
    }
  }

  /** Every amount without a fraction is also a valid phone number. */
  lemma WholeAmountIsPhone(s: string)
    requires |s| >= 1 && AllDigits(s)
    ensures IsAmount(s) && IsPhone(s)
  {
  }

  lemma PhoneExamples()
    ensures IsPhone("+1 (555) 010-0100") && IsPhone("   ")
    ensures !IsPhone("") && !IsPhone("555-0100 x2") && !IsPhone("555.0100")
  {
    assert !IsPhoneChar("555-0100 x2"[9]);
    assert !IsPhoneChar("555.0100"[3]);
  }

  // ---------------------------------------------------------------------
  // Form schemas

  /** The form fields the schemas check, by their keys. */
  datatype Field =
    | ClientId | InvoiceNumber | Subtotal | TaxAmount | Total | Name | Budget | Email | Phone
    | ProjectId | Category | Amount | HourlyRate | Description | InvoiceId | Hours
    | CompanyName | TaxRate | InvoicePrefix | BidPrefix | NextInvoiceNumber | NextBidNumber

  /** The errors a form shows after validation: at most one message per
      field, the one of the field's rule. */
  type FieldErrors = map<Field, string>

  /** One rule of a schema: the field gets its message when the rule fails. */
  function Check(errors: FieldErrors, holds: bool, path: Field, message: string): FieldErrors {
    if holds then errors else errors[path := message]
  }

  predicate OptionalAmount(s: Option<string>) {
    s.None? || IsAmount(s.value)
  }

  predicate OptionalPhone(s: Option<string>) {
    s.None? || IsPhone(s.value)
  }

  // The messages the schemas attach.
  const ClientRequired := "Client is required"
  const InvoiceNumberRequired := "Invoice number is required"
  const InvalidAmountFormat := "Invalid amount format"
  const InvalidTaxAmount := "Invalid tax amount"
  const InvalidTotal := "Invalid total"
  const ProjectNameTooShort := "Project name must be at least 3 characters"
  const InvalidBudget := "Invalid budget format"
  const ClientNameTooShort := "Client name must be at least 2 characters"
  const InvalidEmail := "Invalid email address"
  const InvalidPhone := "Invalid phone number"
  const ProjectRequired := "Project is required"
  const CategoryRequired := "Category is required"
  const NameTooShort := "Name must be at least 2 characters"
  const InvalidHourlyRate := "Invalid hourly rate"
  const InvalidBidAmount := "Invalid bid amount"
  const BidDescriptionTooShort := "Description must be at least 10 characters"
  const InvoiceRequired := "Invoice is required"
  const InvalidPaymentAmount := "Invalid payment amount"
  const EntryDescriptionTooShort := "Description must be at least 5 characters"
  const InvalidHours := "Invalid hours format"
  const CompanyNameTooShort := "Company name must be at least 2 characters"
  const InvalidTaxRate := "Invalid tax rate"
  const InvoicePrefixRequired := "Invoice prefix is required"
  const BidPrefixRequired := "Bid prefix is required"
  const InvoiceNumberTooLow := "Invoice number must be at least 1000"
  const BidNumberTooLow := "Bid number must be at least 1000"

  datatype InvoiceForm = InvoiceForm(clientId: int, invoiceNumber: string, subtotal: string, taxAmount: string, total: string)

  /** `invoiceSchema`: the field errors of a submitted form. */
  function InvoiceIssues(f: InvoiceForm): (r: FieldErrors)
    ensures ClientId in r <==> f.clientId < 1
    ensures ClientId in r ==> r[ClientId] == ClientRequired
    ensures InvoiceNumber in r <==> |f.invoiceNumber| < 1
    ensures InvoiceNumber in r ==> r[InvoiceNumber] == InvoiceNumberRequired
    ensures Subtotal in r <==> !IsAmount(f.subtotal)
    ensures Subtotal in r ==> r[Subtotal] == InvalidAmountFormat
    ensures TaxAmount in r <==> !IsAmount(f.taxAmount)
    ensures TaxAmount in r ==> r[TaxAmount] == InvalidTaxAmount
    ensures Total in r <==> !IsAmount(f.total)
    ensures Total in r ==> r[Total] == InvalidTotal
    ensures r.Keys <= {ClientId, InvoiceNumber, Subtotal, TaxAmount, Total}
  {
    var e := Check(map[], f.clientId >= 1, ClientId, ClientRequired);
    var e := Check(e, |f.invoiceNumber| >= 1, InvoiceNumber, InvoiceNumberRequired);
    var e := Check(e, IsAmount(f.subtotal), Subtotal, InvalidAmountFormat);
    var e := Check(e, IsAmount(f.taxAmount), TaxAmount, InvalidTaxAmount);
    Check(e, IsAmount(f.total), Total, InvalidTotal)
  }

  datatype ProjectForm = ProjectForm(name: string, clientId: int, budget: Option<string>)

  /** `projectSchema`: the field errors of a submitted form. */
  function ProjectIssues(f: ProjectForm): (r: FieldErrors)
    ensures Name in r <==> |f.name| < 3
    ensures Name in r ==> r[Name] == ProjectNameTooShort
    ensures ClientId in r <==> f.clientId < 1
    ensures ClientId in r ==> r[ClientId] == ClientRequired
    ensures Budget in r <==> !OptionalAmount(f.budget)
    ensures Budget in r ==> r[Budget] == InvalidBudget
    ensures r.Keys <= {Name, ClientId, Budget}
  {
    var e := Check(map[], |f.name| >= 3, Name, ProjectNameTooShort);
    var e := Check(e, f.clientId >= 1, ClientId, ClientRequired);
    Check(e, OptionalAmount(f.budget), Budget, InvalidBudget)
  }

  /** The client form; `isEmail` is the email grammar, not modelled here. */
  datatype ClientForm = ClientForm(name: string, email: string, phone: Option<string>)

  /** `clientSchema`: the field errors of a submitted form. */
  function ClientIssues(f: ClientForm, isEmail: string -> bool): (r: FieldErrors)
    ensures Name in r <==> |f.name| < 2
    ensures Name in r ==> r[Name] == ClientNameTooShort
    ensures Email in r <==> !isEmail(f.email)
    ensures Email in r ==> r[Email] == InvalidEmail
    ensures Phone in r <==> !OptionalPhone(f.phone)
    ensures Phone in r ==> r[Phone] == InvalidPhone
    ensures r.Keys <= {Name, Email, Phone}
  {
    var e := Check(map[], |f.name| >= 2, Name, ClientNameTooShort);
    var e := Check(e, isEmail(f.email), Email, InvalidEmail);
    Check(e, OptionalPhone(f.phone), Phone, InvalidPhone)
  }

  datatype ExpenseForm = ExpenseForm(projectId: int, category: string, amount: string)

  /** `expenseSchema`: the field errors of a submitted form. */
  function ExpenseIssues(f: ExpenseForm): (r: FieldErrors)
    ensures ProjectId in r <==> f.projectId < 1
    ensures ProjectId in r ==> r[ProjectId] == ProjectRequired
    ensures Category in r <==> |f.category| < 1
    ensures Category in r ==> r[Category] == CategoryRequired
    ensures Amount in r <==> !IsAmount(f.amount)
    ensures Amount in r ==> r[Amount] == InvalidAmountFormat
    ensures r.Keys <= {ProjectId, Category, Amount}
  {
    var e := Check(map[], f.projectId >= 1, ProjectId, ProjectRequired);
    var e := Check(e, |f.category| >= 1, Category, CategoryRequired);
    Check(e, IsAmount(f.amount), Amount, InvalidAmountFormat)
  }

  datatype TeamMemberForm = TeamMemberForm(name: string, email: Option<string>, phone: Option<string>, hourlyRate: Option<string>)

  /** `teamMemberSchema`: the field errors of a submitted form. */
  function TeamMemberIssues(f: TeamMemberForm, isEmail: string -> bool): (r: FieldErrors)
    ensures Name in r <==> |f.name| < 2
    ensures Name in r ==> r[Name] == NameTooShort
    ensures Email in r <==> f.email.Some? && !isEmail(f.email.value)
    ensures Email in r ==> r[Email] == InvalidEmail
    ensures Phone in r <==> !OptionalPhone(f.phone)
    ensures Phone in r ==> r[Phone] == InvalidPhone
    ensures HourlyRate in r <==> !OptionalAmount(f.hourlyRate)
    ensures HourlyRate in r ==> r[HourlyRate] == InvalidHourlyRate
    ensures r.Keys <= {Name, Email, Phone, HourlyRate}
  {
    var e := Check(map[], |f.name| >= 2, Name, NameTooShort);
    var e := Check(e, f.email.None? || isEmail(f.email.value), Email, InvalidEmail);
    var e := Check(e, OptionalPhone(f.phone), Phone, InvalidPhone);
    Check(e, OptionalAmount(f.hourlyRate), HourlyRate, InvalidHourlyRate)
  }

  datatype BidForm = BidForm(projectId: int, clientId: int, amount: string, description: string)

  /** `bidSchema`: the field errors of a submitted form. */
  function BidIssues(f: BidForm): (r: FieldErrors)
    ensures ProjectId in r <==> f.projectId < 1
    ensures ProjectId in r ==> r[ProjectId] == ProjectRequired
    ensures ClientId in r <==> f.clientId < 1
    ensures ClientId in r ==> r[ClientId] == ClientRequired
    ensures Amount in r <==> !IsAmount(f.amount)
    ensures Amount in r ==> r[Amount] == InvalidBidAmount
    ensures Description in r <==> |f.description| < 10
    ensures Description in r ==> r[Description] == BidDescriptionTooShort
    ensures r.Keys <= {ProjectId, ClientId, Amount, Description}
  {
    var e := Check(map[], f.projectId >= 1, ProjectId, ProjectRequired);
    var e := Check(e, f.clientId >= 1, ClientId, ClientRequired);
    var e := Check(e, IsAmount(f.amount), Amount, InvalidBidAmount);
    Check(e, |f.description| >= 10, Description, BidDescriptionTooShort)
  }

  datatype PaymentForm = PaymentForm(invoiceId: int, amount: string)

  /** `paymentSchema`: the field errors of a submitted form. */
  function PaymentIssues(f: PaymentForm): (r: FieldErrors)
    ensures InvoiceId in r <==> f.invoiceId < 1
    ensures InvoiceId in r ==> r[InvoiceId] == InvoiceRequired
    ensures Amount in r <==> !IsAmount(f.amount)
    ensures Amount in r ==> r[Amount] == InvalidPaymentAmount
    ensures r.Keys <= {InvoiceId, Amount}
  {
    var e := Check(map[], f.invoiceId >= 1, InvoiceId, InvoiceRequired);
    Check(e, IsAmount(f.amount), Amount, InvalidPaymentAmount)
  }

  datatype TimeEntryForm = TimeEntryForm(projectId: int, description: string, hours: string)

  /** `timeEntrySchema`: the field errors of a submitted form. */
  function TimeEntryIssues(f: TimeEntryForm): (r: FieldErrors)
    ensures ProjectId in r <==> f.projectId < 1
    ensures ProjectId in r ==> r[ProjectId] == ProjectRequired
    ensures Description in r <==> |f.description| < 5
    ensures Description in r ==> r[Description] == EntryDescriptionTooShort
    ensures Hours in r <==> !IsAmount(f.hours)
    ensures Hours in r ==> r[Hours] == InvalidHours
    ensures r.Keys <= {ProjectId, Description, Hours}
  {
    var e := Check(map[], f.projectId >= 1, ProjectId, ProjectRequired);
    var e := Check(e, |f.description| >= 5, Description, EntryDescriptionTooShort);
    Check(e, IsAmount(f.hours), Hours, InvalidHours)
  }

  datatype SettingsForm = SettingsForm(
    companyName: string,
    taxRate: string,
    invoicePrefix: string,
    bidPrefix: string,
    nextInvoiceNumber: int,
    nextBidNumber: int)

  /** `businessSettingsSchema`: the field errors of a submitted form. */
  function SettingsIssues(f: SettingsForm): (r: FieldErrors)
    ensures CompanyName in r <==> |f.companyName| < 2
    ensures CompanyName in r ==> r[CompanyName] == CompanyNameTooShort
    ensures TaxRate in r <==> !IsAmount(f.taxRate)
    ensures TaxRate in r ==> r[TaxRate] == InvalidTaxRate
    ensures InvoicePrefix in r <==> |f.invoicePrefix| < 1
    ensures InvoicePrefix in r ==> r[InvoicePrefix] == InvoicePrefixRequired
    ensures BidPrefix in r <==> |f.bidPrefix| < 1
    ensures BidPrefix in r ==> r[BidPrefix] == BidPrefixRequired
    ensures NextInvoiceNumber in r <==> f.nextInvoiceNumber < 1000
    ensures NextInvoiceNumber in r ==> r[NextInvoiceNumber] == InvoiceNumberTooLow
    ensures NextBidNumber in r <==> f.nextBidNumber < 1000
    ensures NextBidNumber in r ==> r[NextBidNumber] == BidNumberTooLow
    ensures r.Keys <= {CompanyName, TaxRate, InvoicePrefix, BidPrefix, NextInvoiceNumber, NextBidNumber}
  {
    var e := Check(map[], |f.companyName| >= 2, CompanyName, CompanyNameTooShort);
    var e := Check(e, IsAmount(f.taxRate), TaxRate, InvalidTaxRate);
    var e := Check(e, |f.invoicePrefix| >= 1, InvoicePrefix, InvoicePrefixRequired);
    var e := Check(e, |f.bidPrefix| >= 1, BidPrefix, BidPrefixRequired);
    var e := Check(e, f.nextInvoiceNumber >= 1000, NextInvoiceNumber, InvoiceNumberTooLow);
    Check(e, f.nextBidNumber >= 1000, NextBidNumber, BidNumberTooLow)
  }

  /** A tax rate the settings form accepts is also accepted as an invoice's
      tax amount, a payment or a bid: every money field shares the grammar. */
  lemma AmountGrammarShared(f: SettingsForm)
    requires TaxRate !in SettingsIssues(f)
    ensures Amount !in PaymentIssues(PaymentForm(1, f.taxRate))
    ensures Amount !in BidIssues(BidForm(1, 1, f.taxRate, "0123456789"))
    ensures TaxAmount !in InvoiceIssues(InvoiceForm(1, "INV-1", "0", f.taxRate, "0"))
  {
  }

  // ---------------------------------------------------------------------
  // Numbers

  /** A JavaScript number without rounding: NaN, a finite value or an
      infinity. */
  datatype JsNumber = NaN | Finite(v: real) | Infinite(negative: bool)

  /** `string | number`. */
  datatype Numeric = Text(s: string) | Number(x: JsNumber)

  /** The input with its leading white space removed. */
  function TrimStart(s: string): (t: string)
    ensures |t| <= |s| && t == s[|s| - |t|..]
    ensures |t| == 0 || !IsJsSpace(t[0])
    ensures |s| > 0 && !IsJsSpace(s[0]) ==> t == s
  {
    if |s| > 0 && IsJsSpace(s[0]) then TrimStart(s[1..]) else s
  }

  /** Digits not starting with `0` have a positive value. */
  lemma {:induction false} DigitsValuePositive(ds: string)
    requires AllDigits(ds) && |ds| >= 1 && ds[0] != '0'
    ensures DigitsValue(ds) >= 1
    decreases |ds|
  {
    if |ds| > 1 {
      DigitsValuePositive(ds[..|ds| - 1]);
    }
  }

  /** `m × 10^e`. */
  function Scale(m: real, e: int): (x: real)
    ensures m >= 0.0 ==> x >= 0.0
    ensures m > 0.0 ==> x > 0.0
    ensures e == 0 ==> x == m
  {
    if e >= 0 then m * Rounding.Pow10(e) else m / Rounding.Pow10(-e)
  }

  /** The digits of a decimal number at the start of `u` (no sign): its
      value and the length it spans, or nothing when `u` does not start
      with a digit or a point followed by a digit. */
  function Mantissa(u: string): (r: Option<(real, nat)>)
    ensures r.None? <==> DigitRun(u) == 0 && !(|u| >= 2 && u[0] == '.' && IsDigit(u[1]))
    ensures r.Some? ==> r.value.0 >= 0.0 && 1 <= r.value.1 <= |u|
    ensures DigitRun(u) >= 1 ==> r.Some? && r.value.0 >= DigitsValue(u[..DigitRun(u)]) as real
  {
    var n := DigitRun(u);
    var hasPoint := n < |u| && u[n] == '.';
    var f := if hasPoint then DigitRun(u[n + 1..]) else 0;
    if n + f == 0 then None
    else
      var whole := DigitsValue(u[..n]) as real;
      if hasPoint then Some((whole + DigitsValue(u[n + 1..][..f]) as real / Rounding.Pow10(f), n + 1 + f))
      else Some((whole, n))
  }

  /** The exponent that follows the mantissa at position `p`, 0 when there
      is no `e` followed by digits. */
  function ExponentAt(u: string, p: nat): (e: int)
    ensures p >= |u| ==> e == 0
  {
    if p < |u| && (u[p] == 'e' || u[p] == 'E') then
      var rest := u[p + 1..];
      var neg := |rest| > 0 && rest[0] == '-';
      var digits := if |rest| > 0 && (rest[0] == '-' || rest[0] == '+') then rest[1..] else rest;
      var d := DigitRun(digits);
      var magnitude: int := DigitsValue(digits[..d]);
      if neg then -magnitude else magnitude
    else 0
  }

  /** `u` starts with the word `Infinity`. */
  predicate StartsWithInfinity(u: string) {
    |u| >= 8 && u[..8] == "Infinity"
  }

  /** `parseFloat`: after leading white space and an optional sign, the
      longest prefix that spells `Infinity` or a decimal number; NaN when
      there is none. Whatever follows the prefix is ignored. */
  function ParseFloat(s: string): JsNumber {
    ParseSigned(TrimStart(s))
  }

  /** `parseFloat` once the leading white space is gone. */
  function ParseSigned(t: string): JsNumber {
    var neg := |t| > 0 && t[0] == '-';
    var u := if |t| > 0 && (t[0] == '-' || t[0] == '+') then t[1..] else t;
    if StartsWithInfinity(u) then Infinite(neg) else DecimalLiteral(neg, u)
  }

  /** The number a decimal literal `u` spells, negated when `neg`. */
  function DecimalLiteral(neg: bool, u: string): (x: JsNumber)
    ensures x.NaN? <==> Mantissa(u).None?
    ensures x.Finite? ==> (x.v >= 0.0 <==> !neg || x.v == 0.0)
  {
    var r := Mantissa(u);
    if r.None? then NaN
    else
      var magnitude := Scale(r.value.0, ExponentAt(u, r.value.1));
      Finite(if neg then -magnitude else magnitude)
  }

  /** A digit is not the `I` of `Infinity`. */
  lemma DigitNotInfinity(u: string)
    requires |u| >= 1 && IsDigit(u[0])
    ensures !StartsWithInfinity(u)
  {
    if |u| >= 8 {
      assert u[..8][0] == u[0];
    }
  }

  /** Text starting with a digit is read as an unsigned decimal. */
  lemma UnsignedDecimal(u: string)
    requires |u| >= 1 && IsDigit(u[0])
    ensures ParseFloat(u) == DecimalLiteral(false, u)
  {
    DigitIsPlain(u[0]);
    assert TrimStart(u) == u;
    DigitNotInfinity(u);
  }

  /** A digit is neither white space nor a sign. */
  lemma DigitIsPlain(c: char)
    requires IsDigit(c)
    ensures !IsJsSpace(c) && c != '-' && c != '+'
  {
    assert 48 <= c as int <= 57;
  }

  /** A string of digits parses to its value. */
  lemma WholeNumberParses(s: string)
    requires |s| >= 1 && AllDigits(s)
    ensures ParseFloat(s) == Finite(DigitsValue(s) as real)
  {
    UnsignedDecimal(s);
    WholeMantissa(s);
    assert ExponentAt(s, |s|) == 0;
  }

  lemma WholeMantissa(u: string)
    requires |u| >= 1 && AllDigits(u)
    ensures Mantissa(u) == Some((DigitsValue(u) as real, |u|))
  {
    DigitRunIs(u, |u|);
    assert u[..|u|] == u;
  }

  function ToNumber(a: Numeric): JsNumber {
    match a
    case Text(s) => ParseFloat(s)
    case Number(x) => x
  }

  /** `validateAmount`: the value is a number, not NaN, and at least 0. */
  function ValidateAmount(a: Numeric): (ok: bool)
    ensures ok <==> match ToNumber(a)
                    case NaN => false
                    case Finite(v) => v >= 0.0
                    case Infinite(negative) => !negative
  {
    var x := ToNumber(a);
    (x.Finite? && x.v >= 0.0) || (x.Infinite? && !x.negative)
  }

  /** Every string of the amount grammar passes `validateAmount`. */
  lemma AmountsValidate(s: string)
    requires IsAmount(s)
    ensures ValidateAmount(Text(s))
  {
    MatchAmountCorrect(s);
    assert TrimStart(s) == s;
    DigitNotInfinity(s);
  }

  /** A minus sign followed by a non-zero digit never validates. */
  lemma NegativeTextRejected(s: string)
    requires |s| >= 2 && s[0] == '-' && '1' <= s[1] <= '9'
    ensures !ValidateAmount(Text(s))
  {
    var u := s[1..];
    assert TrimStart(s) == s;
    DigitNotInfinity(u);
    var n := DigitRun(u);
    assert u[..n][0] == s[1];
    DigitsValuePositive(u[..n]);
  }

  /** The digit run of `d + rest` is `d` when `rest` starts with a
      non-digit. */
  lemma RunBeforeText(d: string, rest: string)
    requires AllDigits(d) && |rest| >= 1 && !IsDigit(rest[0])
    ensures DigitRun(d + rest) == |d|
  {
    var u := d + rest;
    assert u[..|d|] == d;
    assert u[|d|] == rest[0];
    DigitRunIs(u, |d|);
  }

  lemma MantissaBeforeText(d: string, rest: string)
    requires |d| >= 1 && AllDigits(d) && |rest| >= 1 && !IsDigit(rest[0]) && rest[0] != '.'
    ensures Mantissa(d + rest) == Some((DigitsValue(d) as real, |d|))
  {
    RunBeforeText(d, rest);
    assert (d + rest)[..|d|] == d;
    assert (d + rest)[|d|] == rest[0];
  }

  /** A run of digits followed by other text parses to the run's value. */
  lemma LeadingNumberParses(d: string, rest: string)
    requires |d| >= 1 && AllDigits(d)
    requires |rest| >= 1 && !IsDigit(rest[0]) && rest[0] != '.' && rest[0] != 'e' && rest[0] != 'E'
    ensures ParseFloat(d + rest) == Finite(DigitsValue(d) as real)
  {
    var u := d + rest;
    assert u[0] == d[0];
    UnsignedDecimal(u);
    MantissaBeforeText(d, rest);
    assert u[|d|] == rest[0];
    assert ExponentAt(u, |d|) == 0;
  }

  /** The validator reads a leading number and ignores what follows it, so
      it accepts text the amount grammar rejects, such as "12abc". */
  lemma TrailingTextIgnored(d: string, rest: string)
    requires |d| >= 1 && AllDigits(d)
    requires |rest| >= 1 && !IsDigit(rest[0]) && rest[0] != '.' && rest[0] != 'e' && rest[0] != 'E'
    ensures ValidateAmount(Text(d + rest)) && !IsAmount(d + rest)
  {
    LeadingNumberParses(d, rest);
    RunBeforeText(d, rest);
    MatchAmountCorrect(d + rest);
  }

  /** Leading white space is skipped by the validator but not by the
      grammar, so " 7" validates and is no amount. */
  lemma LeadingSpaceSkipped(c: char, s: string)
    requires IsJsSpace(c)
    ensures ParseFloat([c] + s) == ParseFloat(s)
    ensures ValidateAmount(Text([c] + s)) == ValidateAmount(Text(s))
    ensures !IsAmount([c] + s)
  {
    ParseFloatSkipsSpace(c, s);
    assert ToNumber(Text([c] + s)) == ToNumber(Text(s));
    SpaceIsNoAmount([c] + s);
  }

  lemma ParseFloatSkipsSpace(c: char, s: string)
    requires IsJsSpace(c)
    ensures ParseFloat([c] + s) == ParseFloat(s)
  {
    TrimStartSkipsSpace(c, s);
  }

  lemma TrimStartSkipsSpace(c: char, s: string)
    requires IsJsSpace(c)
    ensures TrimStart([c] + s) == TrimStart(s)
  {
    assert ([c] + s)[1..] == s;
  }

  /** The grammar starts with a digit, never with white space. */
  lemma SpaceIsNoAmount(s: string)
    requires |s| >= 1 && IsJsSpace(s[0])
    ensures !IsAmount(s)
  {
    assert !IsDigit(s[0]);
    forall k | 1 <= k <= |s|
      ensures !AllDigits(s[..k])
    {
      assert s[..k][0] == s[0];
    }
  }

  lemma NonNumbersRejected()
    ensures !ValidateAmount(Text("abc")) && !ValidateAmount(Text(""))
    ensures !ValidateAmount(Number(NaN)) && !ValidateAmount(Number(Infinite(true)))
    ensures ValidateAmount(Number(Infinite(false)))
  {
    assert TrimStart("abc") == "abc";
  }

  // ---------------------------------------------------------------------
  // calculateTotal

  function JsMul(a: JsNumber, b: JsNumber): JsNumber {
    match (a, b)
    case (NaN, _) => NaN
    case (_, NaN) => NaN
    case (Finite(x), Finite(y)) => Finite(x * y)
    case (Infinite(n), Finite(y)) => if y == 0.0 then NaN else Infinite(n != (y < 0.0))
    case (Finite(x), Infinite(n)) => if x == 0.0 then NaN else Infinite(n != (x < 0.0))
    case (Infinite(n), Infinite(m)) => Infinite(n != m)
  }

  function JsAdd(a: JsNumber, b: JsNumber): JsNumber {
    match (a, b)
    case (NaN, _) => NaN
    case (_, NaN) => NaN
    case (Finite(x), Finite(y)) => Finite(x + y)
    case (Infinite(n), Finite(_)) => Infinite(n)
    case (Finite(_), Infinite(m)) => Infinite(m)
    case (Infinite(n), Infinite(m)) => if n == m then Infinite(n) else NaN
  }

  function JsPercentOf(a: JsNumber): JsNumber {
    match a
    case Finite(x) => Finite(x / 100.0)
    case _ => a
  }

  /** `calculateTotal`: the subtotal plus `taxRate` percent of it; NaN in
      either argument gives NaN. */
  function CalculateTotal(subtotal: Numeric, taxRate: Numeric): (total: JsNumber)
    ensures ToNumber(subtotal).NaN? || ToNumber(taxRate).NaN? ==> total.NaN?
    ensures ToNumber(subtotal).Finite? && ToNumber(taxRate).Finite? ==> total.Finite?
  {
    var sub := ToNumber(subtotal);
    JsAdd(sub, JsPercentOf(JsMul(sub, ToNumber(taxRate))))
  }

  /** For finite inputs the total is the subtotal scaled by `1 + rate/100`. */
  lemma TotalScalesSubtotal(subtotal: real, rate: real)
    ensures CalculateTotal(Number(Finite(subtotal)), Number(Finite(rate))) == Finite(subtotal * (1.0 + rate / 100.0))
  {
    assert subtotal + subtotal * rate / 100.0 == subtotal * (1.0 + rate / 100.0);
  }

  /** A tax rate of 0 leaves a finite subtotal unchanged. */
  lemma ZeroTaxKeepsSubtotal(subtotal: Numeric, taxRate: Numeric)
    requires ToNumber(subtotal).Finite? && ToNumber(taxRate) == Finite(0.0)
    ensures CalculateTotal(subtotal, taxRate) == ToNumber(subtotal)
  {
  }

  /** With a non-negative subtotal a higher tax rate never lowers the
      total, and a non-negative rate never brings it below the subtotal. */
  lemma TotalGrowsWithRate(subtotal: real, r1: real, r2: real)
    requires subtotal >= 0.0 && r1 <= r2
    ensures CalculateTotal(Number(Finite(subtotal)), Number(Finite(r1))).v
            <= CalculateTotal(Number(Finite(subtotal)), Number(Finite(r2))).v
    ensures r1 >= 0.0 ==> CalculateTotal(Number(Finite(subtotal)), Number(Finite(r1))).v >= subtotal
  {
    var a, b := 1.0 + r1 / 100.0, 1.0 + r2 / 100.0;
    TotalScalesSubtotal(subtotal, r1);
    TotalScalesSubtotal(subtotal, r2);
    ScaleDifference(subtotal, b, a);
    ProductNonNegative(subtotal, b - a);
    if r1 >= 0.0 {
      ScaleDifference(subtotal, a, 1.0);
      ProductNonNegative(subtotal, a - 1.0);
    }
  }

  lemma ScaleDifference(x: real, y: real, z: real)
    ensures x * y - x * z == x * (y - z)
  {
  }

  lemma ProductNonNegative(x: real, y: real)
    requires x >= 0.0 && y >= 0.0
    ensures x * y >= 0.0
  {
  }

  // ---------------------------------------------------------------------
  // Dates

  /** A `Date`'s time value: milliseconds, or an invalid date. */
  datatype Instant = Invalid | At(ms: int)

  /** `isValidDateRange`: the start is not after the end; false whenever a
      date is invalid, as any comparison with NaN is. */
  function IsValidDateRange(start: Instant, end: Instant): (ok: bool)
    ensures ok ==> start.At? && end.At?
  {
    start.At? && end.At? && start.ms <= end.ms
  }

  /** `isInvoiceOverdue`: `now` lies strictly after the due date. */
  function IsInvoiceOverdue(dueDate: Instant, now: int): (overdue: bool)
    ensures overdue ==> dueDate.At?
  {
    dueDate.At? && now > dueDate.ms
  }

  /** On valid dates, a range is valid exactly when the start is not after
      the end, and an invoice is overdue exactly when `now` is after its
      due date. */
  lemma DateRangeOrder(a: int, b: int)
    ensures IsValidDateRange(At(a), At(b)) <==> a <= b
    ensures IsInvoiceOverdue(At(b), a) <==> a > b
  {
  }

  /** Any valid date is a range on its own. */
  lemma DateRangeReflexive(d: Instant)
    requires d.At?
    ensures IsValidDateRange(d, d)
  {
  }

  lemma DateRangeTransitive(a: Instant, b: Instant, c: Instant)
    requires IsValidDateRange(a, b) && IsValidDateRange(b, c)
    ensures IsValidDateRange(a, c)
  {
  }

  /** An invoice is overdue exactly when `now` to its due date is not a
      valid range; on the due instant itself it is not yet overdue. */
  lemma OverdueIffRangeBroken(dueDate: Instant, now: int)
    requires dueDate.At?
    ensures IsInvoiceOverdue(dueDate, now) <==> !IsValidDateRange(At(now), dueDate)
    ensures !IsInvoiceOverdue(dueDate, dueDate.ms)
  {
  }
}

=== FILE: wrappers.dfy ===
/** Failure-compatible wrappers shared by every router model.

    The routers report failures by throwing an `Error` whose message a caller
    sees verbatim, so `Err` carries that message as a string. */
module Wrappers {

  /** A nullable column or an optional request field. */
  datatype Option<+T> = None | Some(value: T) {

    /** The wrapped value, or `default` for `None`. */
    function GetOr(default: T): T {
      match this
      case Some(v) => v
      case None => default
    }
  }

  /** The outcome of one request handler: a value, or the message of the
      error the handler throws. */
  datatype Result<+T> = Ok(value: T) | Err(error: string) {

    predicate IsFailure() {
      Err?
    }

    function PropagateFailure<U>(): Result<U>
      requires Err?
    {
      Err(error)
    }

    function Extract(): T
      requires Ok?
    {
      value
    }
  }
}
